=== FILE: README.md ===
# phold, modelled in Dafny

phold is a browser camera app. It finds faces in a camera picture or a chosen
image. For each face it cuts out an eye band and a mouth band, scales them
about the face center and redraws them over the picture with WebGL: the mouth
is folded up onto the eyes. This project models the core of that app and
proves properties of the model:

- the point and rect geometry (`Points`, `Rects`);
- the fold generator's line-intersection algebra (`FoldGenerator`);
- the renderer, with WebGL as a command trace and a small interpreter that
  records each drawn quad (`Renderer`);
- the camera, blank and image sources and the common source dispatch
  (`Camera`, `Blank`, `Image`, `Sources`);
- the source manager, the face watcher loop and the render canvas
  (`SourceManager`, `FaceWatcher`, `RenderCanvas`);
- the error type and the app's error overlay, orientation and confirm logic
  (`AppErrors`, `App`, `Orientation`);
- the fold settings and the iOS test (`Settings`, `IOS`).

The model also uses `Base` (Option, Result, Outcome, Dimensions) and
`Strings` (join, split and ASCII case-insensitive search).

Everything outside the program is an input:

- the media request's answer;
- the image element's event;
- which WebGL objects the browser creates;
- the detector's answer and the model loads;
- the observer's size reports.

face-api.js's `getCenterPoint`, `Math.atan`/`sin`/`cos` and `scaleFromOrigin`
are fields of an `Externals` record of function values. They are
uninterpreted, and no property depends on what they compute. An operation
that can throw after changing state returns an `Outcome`: `Done(state)` or
`Threw(state, error)`.

## Model

| member | source | states |
|---|---|---|
| Points.GetMinMax | src/utils/point.ts:8-29 | Every point lies within the bounds. Each bound component equals that component of some point. An empty list gives the sentinels (+inf, +inf) and (-inf, -inf). |
| Points.GetRadius | src/utils/point.ts:31-36 | The radius is -inf exactly for an empty list. Otherwise it is finite and at least 0, twice it bounds every x and y spread between points, and some pair attains it. |
| Points.Radius | src/utils/point.ts:31-36 | For a non-empty list, the radius as a real agrees with GetRadius. |
| Points.Translate | src/utils/point.ts:31-36 | A proof helper for the translation property of getRadius (RadiusTranslationInvariant): moving every point by d keeps the length and moves each point by d. |
| Points.MinMaxTranslate | src/utils/point.ts:8-29 | Translating the points shifts both bounds by the same vector. |
| Points.StepTranslate | src/utils/point.ts:12-24 | One reduction step commutes with translation. |
| Points.RadiusTranslationInvariant | src/utils/point.ts:31-36 | The radius is unchanged when all points move by the same vector. |
| Points.RadiusOfCoincidentPoints | src/utils/point.ts:31-36 | Points that all coincide have radius 0. |
| Points.Normalize | src/utils/point.ts:38-42 | Normalising by a nonzero divisor is undone by multiplying x back and un-flipping y. |
| Points.NormalizeDenormalize | src/utils/point.ts:38-42 | The inverse also holds the other way round, so normalize is a bijection. |
| Points.NormalizeFlipsY | src/utils/point.ts:40 | Pixel row 0 maps to texture v = 1, and row d.y maps to v = 0. |
| Points.NormalizeIntoUnitSquare | src/utils/point.ts:38-42 | A point of the frame [0, d.x] x [0, d.y] lands in the unit square. |
| Points.ToClipSpace | src/utils/point.ts:44-47 | 2p - 1 is undone by (q + 1) / 2. |
| Points.ClipSpaceRoundTrip | src/utils/point.ts:44-47 | The inverse also holds the other way round. |
| Points.ClipSpaceEndpointsAndOrder | src/utils/point.ts:44-47 | 0 maps to -1 and 1 maps to 1, and the map is strictly increasing on each axis (both directions). |
| Points.ClipSpaceOfUnitSquare | src/utils/point.ts:44-47 | The unit square lands inside [-1, 1]^2. |
| Rects.Normalize | src/types/rect.ts:14-21 | Each output corner is the normalised corner of the same name, so no corner is mixed or reordered. Denormalising recovers the rect. |
| Rects.ToClipSpace | src/types/rect.ts:23-30 | Each output corner is the mapped corner of the same name. The inverse map recovers the rect. |
| Rects.MapsKeepSharedCoordinates | src/types/rect.ts:14-30 | Two corners that share an x (or a y) still share it after normalize and after toClipSpace. |
| Rects.LevelStaysLevel | src/types/rect.ts:14-21 | A rect whose top corners share a y and whose bottom corners share a y keeps both after normalize. |
| Rects.FrameToClipSquare | src/types/rect.ts:14-30 | toClipSpace(normalize(r, d)) puts every corner of a rect inside the pixel frame into [-1, 1]^2. |
| FoldGenerator.CornerIsIntersection | src/face-fold-generator.ts:128-140 | The closed form with factor m/(m^2+1) lies on y = m*x + b. For m != 0 it also lies on y = -x/m + bPerp, so it is the intersection. |
| FoldGenerator.Intercept | src/face-fold-generator.ts:98-104 | The intercept puts the anchor point on the line of slope m. |
| FoldGenerator.PerpendicularIntercept | src/face-fold-generator.ts:126-127 | The side intercept puts the side anchor on the perpendicular line y = -x/m + b. |
| FoldGenerator.SlopedQuad | src/face-fold-generator.ts:128-140 | ul and ur lie on the upper line, bl and br on the lower line, ul and bl on the left perpendicular, and ur and br on the right perpendicular. |
| FoldGenerator.Slope | src/face-fold-generator.ts:93-94 | m times the x difference of the eye centers equals their y difference. |
| FoldGenerator.EyePixelRect | src/face-fold-generator.ts:93-154 | In both branches ul and ur lie on y = m*x + bU, and bl and br on y = m*x + bB. bL and bR exist iff m != 0, and then they bound the sides. When m == 0, ulX = blX = lCenter.x - pX, urX = brX = rCenter.x + pX, and the top and bottom edges are level. |
| FoldGenerator.MouthPixelRect | src/face-fold-generator.ts:197-251 | With the eye's side intercepts, the corners lie on the eye's side lines and on the mouth's own lines of slope m. Without them, ulX = blX = center.x - p, urX = brX = center.x + p, and the edges are level at bU and bB. |
| FoldGenerator.ExtendHeight | src/face-fold-generator.ts:163-171 | Each side moves along itself by mP times its own vector, so ul - bl and ur - br are preserved. |
| FoldGenerator.CloseGap | src/face-fold-generator.ts:259-266 | The mouth's bl and br land on the two given eye corners, and ul - bl and ur - br are preserved. |
| FoldGenerator.EyeRadius | src/face-fold-generator.ts:78-85 | The padding radius is one of the two eye radii and at least both of them. |
| FoldGenerator.EyeGeometryOf | src/face-fold-generator.ts:78-154 | bL is present iff m != 0. When m == 0 the pixel rect is level, and its sides sit at the eye centers minus and plus pX times the larger eye radius. |
| FoldGenerator.ComputeEyeFoldRects | src/face-fold-generator.ts:71-183 | The texture rect is exactly normalize of the pixel rect. m, a, bL and bR are returned as computed. The clip rect is the scaled clip rect with its height extended. |
| FoldGenerator.MouthGeometryOf | src/face-fold-generator.ts:197-251 | Without the eye's side intercepts, the sides sit at the mouth center minus and plus mP times the mouth radius, and the edges are level. |
| FoldGenerator.ComputeMouthFoldRects | src/face-fold-generator.ts:185-274 | The texture rect is exactly normalize of the pixel rect. The clip rect is the scaled clip rect moved onto the given eye corners. |
| FoldGenerator.GenerateFolds | src/face-fold-generator.ts:18-69 | In clip space the mouth's bl equals the eyes' ul and the mouth's br equals the eyes' ur, so the two quads share an edge. |
| FoldGenerator.EyeTextureCornersOnBoundaryLines | src/face-fold-generator.ts:98-159 | Denormalising the generated eye texture rect gives corners on the upper and lower lines, and, for m != 0, on the side lines. |
| FoldGenerator.MouthSharesEyeSideLines | src/face-fold-generator.ts:224-254 | For a sloped eye line, the mouth texture corners denormalise onto the eye's side lines and onto the mouth's own lines of slope m. |
| FoldGenerator.GeneratedTexturesAreNormalizedPixels | src/face-fold-generator.ts:156-159 | Both generated texture rects are normalize of the pixel quads: scaling and the height or gap changes touch only the clip rects. |
| FoldGenerator.HorizontalEyeLineGivesLevelTextures | src/face-fold-generator.ts:141-147 | With m == 0, the eye and mouth texture quads both have level top and bottom edges. |
| Renderer.CornerData | src/renderer.ts:421-438 | A quad's data is 8 values in corner order bl, br, ur, ul. |
| Renderer.BackgroundIsFullFrame | src/renderer.ts:14-32 | The background vertex and texcoord constants are the corner data of the full clip and texture rects. The background quad is the fold quad of the full frame, so fold quads use the background's corner order. |
| Renderer.IndexBufferCoversQuad | src/renderer.ts:22-25 | The index buffer holds 6 indices, as many as drawQuad draws. All are below 4, and every corner 0..3 is used. |
| Renderer.GetContext | src/renderer.ts:56-73 | WebGL 2 when available, else WebGL 1, else WebGLUnsupportedErr (each direction of each case). |
| Renderer.LoadShader | src/renderer.ts:336-362 | Success iff the shader is created and compiles. A creation failure gives ShaderCreationErr. A compile failure gives ShaderCompilationErr with the compiler log after the message prefix. |
| Renderer.InitShaderProgram | src/renderer.ts:142-171 | The version picks the shader pair. Vertex errors come before fragment errors, program creation errors and ShaderLinkErr with the link log. Success iff every step succeeds. |
| Renderer.FirstFailedBuffer | src/renderer.ts:189-195 | No buffer failed iff all three were created. Otherwise the reported buffer failed and the buffers created before it did not. |
| Renderer.InitBuffersWith | src/renderer.ts:189-254 | Success iff all three buffers are created, holding the quad constants. Otherwise the error is the first failed buffer's. |
| Renderer.IndexBufferFailureBlamesPositionBuffer | src/renderer.ts:237-244 | As written, a missing index buffer raises PositionBufferCreationErr although the position buffer exists. |
| Renderer.BufferErrorNamesFailedBuffer | src/renderer.ts:197-244 | Corrected, a buffer error always names a buffer that failed, and different buffers give different errors. |
| Renderer.InitTexture | src/renderer.ts:256-263 | Success iff the texture is created. Otherwise the error is TextureCreationErr. |
| Renderer.InitContext | src/renderer.ts:56-88 | No context gives WebGLUnsupportedErr. A built context has the negotiated version, that version's shader pair, the quad buffers and the initial texel. Initialisation succeeds exactly when the context, the shader program, all three buffers and the texture are created. Otherwise the first failing step decides the error: a shader-program failure gives that step's error; a buffer failure gives the as-written error of the first failed buffer (buffers are set up as written); a texture failure gives TextureCreationErr. |
| Renderer.ContextIndexBufferFailure | src/renderer.ts:56-88 | When only the index buffer cannot be created, setting up the context fails with PositionBufferCreationErr. |
| Renderer.ContextNegotiation | src/renderer.ts:56-88 | WebGLUnsupportedErr is raised iff neither WebGL 2 nor WebGL 1 exists. WebGL 2 uses 2d.vert/2d.frag, and WebGL 1 alone uses the gl1 pair. |
| Renderer.RenderSetup | src/renderer.ts:364-380 | The setup part of renderFolds neither fills buffers nor draws. |
| Renderer.RunAppend | src/renderer.ts:364-451 | Replaying two command lists in a row is replaying their concatenation. |
| Renderer.RunDrawsCount | src/renderer.ts:446-451 | Each DrawElements adds exactly one draw. |
| Renderer.RunWithoutDraws | src/renderer.ts:364-380 | A command list that neither fills buffers nor draws leaves the GL state unchanged. |
| Renderer.QuadDrawsItself | src/renderer.ts:391-451 | Filling the buffers and calling drawQuad draws exactly that quad with count 6. |
| Renderer.ExpectedFoldQuads | src/renderer.ts:383-388 | The expected fold draws are two per fold. |
| Renderer.ExpectedFoldQuadsCons | src/renderer.ts:385-388 | The expected draws of a list are the first fold's eyes and mouth, then the rest's. |
| Renderer.DrawBackground | src/renderer.ts:391-409 | From any GL state, drawBackground adds exactly the background quad to the draws. |
| Renderer.DrawFaceFold | src/renderer.ts:411-444 | From any GL state, drawFaceFold adds exactly the quad of that rect pair: its clip-space corners with its texture corners. |
| Renderer.DrawFolds | src/renderer.ts:385-388 | From any GL state, the fold loop draws eyes then mouth for each fold, in list order, and nothing else. |
| Renderer.RenderFolds | src/renderer.ts:364-389 | renderFolds draws the background first, then eyes and mouth per fold: 1 + 2\|folds\| draws. |
| Renderer.NewRenderer | src/renderer.ts:44-54 | A new renderer has no context, a fresh blank source, no folds and no frame request. |
| Renderer.InitContextFromCanvas | src/renderer.ts:56-89 | On success the context is stored. On a throw the renderer is unchanged and the error is the context's error. |
| Renderer.SetSource | src/renderer.ts:91-101 | The source is always stored. The texture is re-uploaded (texImage2D) only when a context exists. |
| Renderer.SetFolds | src/renderer.ts:107-109 | The getter then returns the new folds, and nothing is drawn. |
| Renderer.FoldsRoundTrip | src/renderer.ts:103-109 | The getter returns what the setter last stored, whatever was set before. |
| Renderer.Start | src/renderer.ts:116-119 | start records the new frame request. |
| Renderer.Stop | src/renderer.ts:111-114 | The request is cancelled iff its id is present and nonzero. The id itself is kept. |
| Renderer.TickFrame | src/renderer.ts:121-131 | Without a context the state is unchanged. Otherwise one resize request, the texture update and renderFolds are issued, and the next frame is requested. |
| Renderer.ForceRender | src/renderer.ts:133-139 | Without a context the state is unchanged. Otherwise one frame is issued with no resize and no new request. |
| Renderer.UpdateTexture | src/renderer.ts:316-334 | updateTexture binds the texture and then uploads the source with texSubImage2D. It draws nothing and changes no buffer. |
| Renderer.ReplaceTexture | src/renderer.ts:296-314 | replaceTexture binds the texture and then uploads the source with texImage2D. It draws nothing and changes no buffer. |
| Renderer.Frame | src/renderer.ts:127-128 | A frame first refreshes the texture from the source, then draws the background and each fold's eyes and mouth. |
| Renderer.TickDrawsCurrentFolds | src/renderer.ts:121-131 | A tick with a context appends exactly the background and the current folds' quads to what was drawn. |
| Renderer.JoinedFoldsDrawJoinedQuads | src/renderer.ts:411-444 | When every mouth's bl is its eyes' ul, each drawn mouth quad starts at its eyes quad's last vertex. |
| Renderer.TickDrawsJoinedFolds | src/renderer.ts:121-131 | A tick with joined folds draws 1 + 2\|folds\| quads, each mouth quad joined to its eyes quad. |
| Settings.Write | src/types/folds-settings.ts:12-20 | Setting one signal changes that value and no other. |
| Settings.CreateDefaultSettings | src/contexts/settings.ts:20-27 | Each of the four signals starts at its default: pX 3, pY 1.4, mP 0.85, scale 1.5. |
| Settings.All | src/contexts/settings.ts:29-37 | The snapshot reports exactly the current value of each signal. |
| Settings.AllAfterWrite | src/contexts/settings.ts:29-37 | After one write, the snapshot differs from the one before only in the written field. |
| Settings.CreateSettingsState | src/contexts/settings.ts:51-55 | A settings state always starts from the defaults. |
| AppErrors.Message | src/types/app-error.ts:1-13 | A string message is kept as it is. An empty list gives "" and one line gives that line. n lines give their total length plus 2(n - 1) characters for the CR LFs. |
| AppErrors.MessageOfMoreLines | src/types/app-error.ts:6-7 | The message of two concatenated line lists is their messages joined by one CR LF. |
| AppErrors.MessageOfTwoLines | src/types/app-error.ts:6-7 | Two lines are joined by exactly one CR LF. |
| AppErrors.PlainError | src/types/app-error.ts:1-13 | new Error(m) has the name "Error" and the message m. |
| Camera.NewCamera | src/camera.ts:14-25 | A new camera faces the user, is inactive and not active, is 0x0 and has no stream. |
| Camera.StopStream | src/camera.ts:174-184 | Without a stream nothing happens. A stream whose track was already removed makes removeTrack throw a TypeError and nothing changes. Otherwise the track is removed and stopped, and the call throws a TypeError iff the stream has no stop(). |
| Camera.SecondStopThrows | src/camera.ts:174-184 | Whatever the first stop did, stopping the same stream again throws the removeTrack TypeError and changes nothing. |
| Camera.CameraErrorMessage | src/camera.ts:103-123 | NotReadableError and TrackStartError give the in-use message. NotAllowedError gives the rejected message. Any other error gives "Camera is unavailable. " followed by its message. |
| Camera.ThrowCameraError | src/camera.ts:100-125 | The status always becomes errored. An Error is rethrown as a plain Error with the classified message. A non-Error value is swallowed. |
| Camera.LoadCamera | src/camera.ts:62-98 | An active camera's stream is stopped first, outside the try. A throwing stop escapes as it is, with status and stream as the stop left them. Otherwise a granted stream makes the camera active with that stream and its size, and a denial makes it errored and throws iff an Error was thrown. The facing mode is not touched. |
| Camera.Load | src/camera.ts:58-60 | load keeps the facing mode. When the old stream stops cleanly, a grant makes the camera active and a denial makes it errored. |
| Camera.ActivatesOnlyOnGrant | src/camera.ts:22-25 | After loadCamera the camera is active iff the old stream stopped cleanly and the request was granted, or it was active and the stop threw. |
| Camera.ChangeFacingModeAsWritten | src/camera.ts:127-134 | The new facing mode is committed iff loadCamera returns normally. |
| Camera.ChangeFacingMode | src/camera.ts:127-134 | Corrected: the facing mode is committed iff loadCamera returns, and a throw rethrows loadCamera's error unchanged. |
| Camera.ChangeFacingModeDoublyWrapsErrors | src/camera.ts:127-134 | As written, a failed switch reports "Camera is unavailable. " before the already classified message. Corrected, it reports the classified message. |
| Camera.NonErrorStillCommitsFacingMode | src/camera.ts:100-134 | A non-Error thrown by the media request leaves the camera errored, yet changeFacingMode as written returns normally and commits the new facing mode. The corrected version behaves the same. |
| Camera.MissingStreamStopFailsReload | src/camera.ts:62-64 | For an active camera whose stream has no stop(), loadCamera throws that TypeError before the request and the camera stays active. changeFacingMode as written then throws the classified message of that TypeError and keeps the old mode, and so does the corrected version's mode. |
| Camera.Destroy | src/camera.ts:186-189 | destroy stops the stream and then removes the video element. A throwing stop skips the removal and its error escapes. The status is unchanged. |
| Camera.LoadAfterDestroyThrows | src/camera.ts:62-64 | A destroyed active camera is still active, so the next load stops the same stream again: removeTrack throws a TypeError and the camera stays active with the old stream. Without stop() on the stream, destroy itself throws and the video element stays. |
| Camera.Pause | src/camera.ts:191-193 | pause records that pause was the last call on the video element and changes nothing else. |
| Camera.Resume | src/camera.ts:195-197 | resume records that resume was the last call on the video element and changes nothing else. |
| Camera.PauseResumeRoundTrip | src/camera.ts:191-197 | Pausing then resuming equals resuming, and the other way round. A playing camera is back as it was. |
| Blank.NewBlank | src/blank.ts:7-33 | A new blank source is not rendered and is 1x1. |
| Blank.Load | src/blank.ts:35-49 | After load it is rendered. A rendered source is returned unchanged, otherwise it renders once. The size never changes. |
| Blank.Destroy | src/blank.ts:59-65 | destroy clears rendered and keeps the size. |
| Blank.LoadIdempotent | src/blank.ts:35-37 | A second load changes nothing. |
| Blank.DestroyThenLoadRerenders | src/blank.ts:59-65 | After destroy, the next load renders again. |
| Blank.DimensionsNeverChange | src/blank.ts:10-13 | After any sequence of load, destroy, pause and resume calls, the size is 1x1. |
| Blank.PauseResumeChangeNothing | src/blank.ts:67-68 | pause and resume leave every later run unchanged. |
| Image.NewImage | src/image.ts:7-18 | A new image source has not loaded and is 0x0. |
| Image.Load | src/image.ts:20-40 | It resolves iff onload fires, and then hasLoaded is true and the size is the image's. On onerror it rejects with ImageLoadErr, whose message is its two lines joined by CR LF, and nothing changes. |
| Image.Destroy | src/image.ts:50-54 | destroy clears hasLoaded and revokes the URL. The size stays. |
| Image.DestroyKeepsLoadedSize | src/image.ts:50-54 | Destroying a loaded image clears hasLoaded and revokes the URL, and the loaded size is still reported. |
| Sources.FreshBlank | src/renderer.ts:49 | The default source of every holder is an unrendered 1x1 blank. |
| Sources.Load | src/types/source.ts:9-16 | load dispatches to the source's own load and keeps its kind. A blank never throws. The camera and image throw exactly as their own loads do. |
| Sources.Destroy | src/types/source.ts:9-16 | destroy dispatches to the source's own destroy and keeps its kind. Only a camera's destroy can throw, exactly when its stop throws. |
| Sources.Pause | src/image.ts:56-57 | Only the camera changes on pause. Blank and image sources are returned unchanged. |
| Sources.Resume | src/image.ts:56-57 | Only the camera changes on resume. Blank and image sources are returned unchanged. |
| Sources.DimensionsOutsideLoad | src/types/source.ts:9-16 | destroy, pause and resume keep any source's size, and a blank's load keeps it too. |
| SourceManager.Current | src/source-manager.ts:58-60 | The current source is the manager's own camera exactly when the camera is selected, and otherwise the blank it holds. |
| SourceManager.NewManager | src/source-manager.ts:12-21 | A blank source is current at first, with a fresh camera unused. |
| SourceManager.InitCamera | src/source-manager.ts:23-36 | If the camera loads, it becomes current and a refresh listener is added. If not, the camera is destroyed. When that destroy returns, a freshly loaded blank becomes current and "Camera unavailable." is thrown. When it throws, its error escapes and the current source stays. |
| SourceManager.FailedInitFallsBackToBlank | src/source-manager.ts:28-35 | After a failed first start (no stream yet), a rendered 1x1 blank is current, the camera is errored with its video removed, and the error says "Camera unavailable.". |
| SourceManager.FailedRestartEscapesWithTypeError | src/source-manager.ts:28-29 | A failed start of a camera whose stream was already stopped throws the removeTrack TypeError from destroy instead of "Camera unavailable.", and the current source stays. |
| SourceManager.NonErrorDenialSelectsErroredCamera | src/source-manager.ts:23-27 | When the old stream stops cleanly, a media request that throws a non-Error still makes the errored camera current. |
| SourceManager.LoadCurrent | src/source-manager.ts:62-64 | Only the current source loads. A camera load throws exactly when and what the camera's load throws. A blank current never throws and leaves the camera alone. |
| SourceManager.LoadCurrentLoadsCurrent | src/source-manager.ts:62-64 | loadCurrent is exactly the current source's load: the same resulting source, throwing in the same cases with the same error. |
| SourceManager.RefreshCamera | src/source-manager.ts:52-56 | beforeCameraReloads comes first, then the load, then onCameraReloaded, which a throwing load skips. |
| SourceManager.RefreshWithoutStreamStopSkipsReloaded | src/source-manager.ts:52-56 | Refreshing an active camera whose stream has no stop() throws a TypeError after beforeCameraReloads, never calls onCameraReloaded, and leaves the camera active. |
| SourceManager.PauseCurrent | src/source-manager.ts:66-68 | Only the current source pauses. |
| SourceManager.ResumeCurrent | src/source-manager.ts:70-72 | Only the current source resumes. |
| SourceManager.DestroyCurrent | src/source-manager.ts:74-76 | Only the current source is destroyed, and it throws exactly when that source's destroy throws. The camera is left alone while a blank is current. |
| FaceWatcher.NewWatcher | src/face-watcher.ts:19-21 | A new watcher is not loaded, not active, reads a fresh blank and has nothing scheduled. |
| FaceWatcher.SetSource | src/face-watcher.ts:33-35 | The source setter changes only the source. |
| FaceWatcher.Start | src/face-watcher.ts:37-43 | Before load, start does nothing. After load it sets active and schedules one more iteration, with no guard. |
| FaceWatcher.Stop | src/face-watcher.ts:45-47 | stop clears active and changes nothing else. |
| FaceWatcher.FirstLoadError | src/face-watcher.ts:49-56 | There is no error iff all three models loaded. |
| FaceWatcher.Load | src/face-watcher.ts:49-57 | loaded becomes true iff all three model loads succeed. Otherwise the rejection propagates and nothing changes. |
| FaceWatcher.WatchFaces | src/face-watcher.ts:59-75 | Inactive, an iteration only ends. Active, it runs detectFaces on the current source, with the detector's answer for this firing, calls onDetect once with the result and reschedules. A detector exception escapes with no callback and no reschedule. |
| FaceWatcher.ActiveLoopDeliversEveryIteration | src/face-watcher.ts:59-67 | Over n firings of an active loop whose detector answers each time, onDetect is called once per firing, in order, with that firing's faces on the current source. Earlier deliveries are kept and the pending count is unchanged. |
| FaceWatcher.StoppedLoopDrains | src/face-watcher.ts:59-61 | After stop, pending iterations drain without any callback. |
| FaceWatcher.StartTwiceSchedulesTwice | src/face-watcher.ts:37-43 | Two starts schedule two iteration chains. |
| FaceWatcher.DetectorExceptionEndsLoop | src/face-watcher.ts:63-66 | A detector exception ends the chain: nothing is pending and nothing is delivered. |
| RenderCanvas.Round | src/render-canvas.tsx:64-65 | Math.round gives the nearest integer, with halves rounded up. |
| RenderCanvas.DisplaySize | src/render-canvas.tsx:43-65 | The device-pixel box wins, with dpr 1. Next comes the content box scaled by dpr, and then contentRect scaled by dpr, each rounded. |
| RenderCanvas.WholeDevicePixelsKept | src/render-canvas.tsx:47-51 | A whole-pixel device box is recorded exactly. |
| RenderCanvas.OnResize | src/render-canvas.tsx:42-70 | Every target gets an entry. The last entry for a target decides its size, and elements no entry names keep theirs. |
| RenderCanvas.Observe | src/render-canvas.tsx:42-70 | An observer report changes only the size map. |
| RenderCanvas.NewRenderCanvas | src/render-canvas.tsx:4-8 | Before mounting there is no canvas and no recorded size. |
| RenderCanvas.Mount | src/render-canvas.tsx:14-16 | A mounted canvas starts at 300x150. |
| RenderCanvas.WatchForResizes | src/render-canvas.tsx:22-32 | Without a canvas nothing happens. Otherwise the canvas's entry is seeded with 300x150 and observation starts. |
| RenderCanvas.StopWatchingForResizes | src/render-canvas.tsx:34-40 | Only observation stops. The recorded sizes stay. |
| RenderCanvas.ResizeToContainer | src/render-canvas.tsx:72-95 | No canvas gives undefined, and no entry gives false. Otherwise the result is true iff the size differed, and afterwards the canvas has the recorded size. |
| RenderCanvas.ResizeIdempotent | src/render-canvas.tsx:85-94 | A second resizeToContainer changes nothing and does not return true. |
| RenderCanvas.ResizeMatchesContainer | src/render-canvas.tsx:89-92 | After a resize, the canvas size equals the recorded container size. |
| RenderCanvas.FirstResizeAfterMountIsNoOp | src/render-canvas.tsx:28 | A just-mounted, watched canvas is already 300x150, so the first resize returns false. |
| Orientation.ScreenType | src/utils/get-orientation-type.ts:3 | The screen's type is used when there is a screen, and "unknown" otherwise. |
| Orientation.AngleName | src/utils/get-orientation-type.ts:5-7 | The angle name is the second dash-separated segment, or "primary" when there is none. |
| Orientation.GetOrientationType | src/utils/get-orientation-type.ts:1-12 | The result is "landscape-" or "portrait-" by the media query, followed by the angle name. |
| Orientation.PrefixFollowsMediaQuery | src/utils/get-orientation-type.ts:9-11 | The result starts with "landscape-" iff the query matches, and with "portrait-" iff it does not. |
| Orientation.SuffixIsSecondSegment | src/utils/get-orientation-type.ts:5-7 | For "a-b" and "a-b-c", the suffix is b. |
| Orientation.NoDashGivesPrimary | src/utils/get-orientation-type.ts:3-7 | A type without a dash, "unknown" included, gives the suffix "primary". |
| Orientation.IndependentOfFirstSegment | src/utils/get-orientation-type.ts:5-11 | Changing the first segment never changes the result. |
| IOS.IsOnIOS | src/utils/is-on-ios.ts:4-17 | With no window or navigator the result is false. A user agent with iPad, iPhone or iPod in any case gives true. Otherwise the result is true iff the user agent contains "mac" in any case and maxTouchPoints (0 when missing) exceeds 2. |
| IOS.MissingTouchPointsNeedsDeviceName | src/utils/is-on-ios.ts:15-16 | Without maxTouchPoints, only a device name in the user agent gives true. |
| IOS.UpperCaseDeviceName | src/utils/is-on-ios.ts:1 | The device match ignores case: "IPHONE" counts. |
| Strings.Split | src/utils/get-orientation-type.ts:5 | split gives at least one piece, none containing the separator, and joining them back gives the input. |
| Strings.SplitAfterPrefix | src/utils/get-orientation-type.ts:5 | A separator-free prefix becomes the first piece, and the rest splits unchanged. |
| Strings.SplitWithoutSeparator | src/utils/get-orientation-type.ts:5 | A string without the separator splits into itself. |
| Strings.ContainsIgnoringCase | src/utils/is-on-ios.ts:1-2 | A case-insensitive literal pattern matches iff it occurs, ignoring ASCII case, at some position. |
| Strings.JoinAppend | src/types/app-error.ts:6-7 | Joining two non-empty lists is joining their joins with one separator. |
| Strings.JoinLength | src/types/app-error.ts:6-7 | The joined length is the total line length plus one separator per gap. |
| App.InitialState | src/app.tsx:46-53 | No error shows, the message is [], there is no confirmation, and the orientation type is the screen's raw type or "unknown". |
| App.ShowError | src/app.tsx:377-391 | The overlay shows an AppError's own message lines, or ['Unknown error.', message] for any other error. The other fields are kept. |
| App.OnError | src/app.tsx:365-371 | An error is shown only when none is showing. While one shows, the state is unchanged. |
| App.HideError | src/app.tsx:393-402 | The overlay closes with message '', and the other fields are kept. |
| App.ShowingErrorIsKept | src/app.tsx:368-370 | While an error shows, any sequence of further errors changes nothing. |
| App.FirstErrorWins | src/app.tsx:365-371 | Of a burst of errors, the first is the one shown. |
| App.HiddenOverlayShowsNextError | src/app.tsx:365-402 | After hideError, the next error is shown. |
| App.CameraFailureShowsUnknownError | src/app.tsx:199-206 | A camera that fails its first start shows "Unknown error." over "Camera unavailable." when nothing else is showing. |
| App.SetFlexDirection | src/app.tsx:147-157 | landscape-primary gives row and landscape-secondary gives row-reverse (both directions). Anything else gives ''. |
| App.FlexDirectionOfOrientation | src/app.tsx:117-157 | A portrait window gives ''. A landscape one gives row for the primary angle and row-reverse for the secondary one. |
| App.UpdateAspectRatioStatus | src/app.tsx:117-132 | The orientation type is recomputed, the other fields are kept, and the layout direction follows the new type. |
| App.EndHandleChosenImage | src/app.tsx:283-289 | handleChosenImage ends with confirmingAction true and keeps the other fields. |
| App.EndSwitchToCamera | src/app.tsx:452-458 | switchToCamera ends with confirmingAction false and keeps the other fields. |
| App.ConfirmRoundTrip | src/app.tsx:477-489 | While confirming, only the confirm bar shows. Answering brings back the shutter bar with nothing else changed. |
| App.SetFoldsFromFaces | src/app.tsx:253-260 | There is one fold per face, in face order, each generated from its face. |
| App.NextFrameDrawsEveryFace | src/app.tsx:246-260 | After faces are set, the next frame draws 1 + 2 * (number of faces) quads, each face's mouth quad joined to its eyes quad. |

## Left out

- Real WebGL, the DOM, MediaStream and `getUserMedia`, image decoding, blob download, `console` output and the loader animation. Their outcomes are inputs or command-trace entries.
- Async and timer interleavings. Each operation runs from start to end as one transition, and a timer is a pending count in `FaceWatcher`. Calls made while another operation is suspended at an `await` are not interleaved.
- FaceWatcher.WatchFaces: a `stop()` that arrives while detection is awaited still lets that iteration call `onDetect` and reschedule. The model checks `active` once, at the start of the iteration, and does not model a `stop()` during the await.
- App.FirstErrorWins: assumes each error arrives after Preact committed the previous `setState`. Preact defers `this.state`, so two errors in one tick could both see no error showing.
- Image.Load: the image event is one-shot. A `load()` after the event has fired, or after `destroy`, never settles in the source, and the model does not state that case.
- Camera: the TypeError messages are stand-ins for browser-specific text. A stream is assumed to hold exactly one video track. Whether a MediaStream has `stop()` is an input (`MediaResult.hasStop`).
- Camera.Resume: the rejection of the promise from the video element's `play()` (for example an AbortError when a pause interrupts it) is not modelled. No caller can observe it, because `resumeCurrent` (src/source-manager.ts:70-72) neither awaits nor returns that promise.
- Renderer.GetFolds and Camera.IsActive are getters without their own row. Their meaning is stated by Renderer.FoldsRoundTrip and Camera.ActivatesOnlyOnGrant.
- Floating point. Coordinates are `real`, so NaN, infinities other than getMinMax's sentinels, and the `Float32Array` rounding of vertex data are not modelled.
- FoldGenerator.GenerateFolds: requires non-empty eye and mouth landmarks, distinct eye-center x and a nonzero divisor. Other faces give NaN or infinite coordinates in JavaScript, which reals cannot express.
- FoldGenerator.GenerateFolds: takes the settings snapshot as a parameter. The app calls `generateFolds(face, normDivisor)` with two arguments, and `getNormDivisor` is not defined in any source file, so the divisor is an input too.
- The generator calls `normalize` and `toClipSpace` as methods on a `Rect` class, which src/types/rect.ts does not define. The model uses the free functions of that file. `scaleFromOrigin` and face-api's `getCenterPoint` are uninterpreted.
- Renderer.BackgroundIsFullFrame: does not state that the full texture rect maps onto the full clip rect under toClipSpace.
- The GL calls made while the context is set up (clear color, pixel store, attribute locations) are not traced. `Renderer.InitContextFromCanvas` keeps only the resulting context.
- Renderer.TickFrame: the canvas size after the resize request is an input. The resize itself is `RenderCanvas.ResizeToContainer`.
- FaceWatcher.Load: when more than one model fails, the first failure in listing order is reported. Which rejection `Promise.all` reports depends on timing.
- Orientation.ScreenType: a `screen` without an `orientation` makes `screen?.orientation.type` throw a TypeError. The model takes the screen's type as an optional string and leaves that case out.
- IOS.IsOnIOS: the source returns `true`, `false`, `null` (the Mac match fails) or the boolean `maxTouchPoints > 2`. The model returns its truth value.
- RenderCanvas.DisplaySize: an empty `contentBoxSize` array makes the source read `undefined` sizes (NaN). The model treats either shape of `contentBoxSize` as one box.
- `sourceManager.currentType`, `setAndLoadFromImage`, `swapCamera` and `switchToCamera`, and the canvas's `syncDimensions`, `resizeToDimensions`, `stopWatchingResizes`, `watchResizes` and `getBlobUrl`, are called by src/app.tsx but defined in no source file. Only the confirm-flag updates of the handlers that use them are modelled.
- The settings drawer resets `oX` and `oY`, which the defaults lack. Settings model the four fields the defaults define.
- All `src/ui/*` components, `src/main.tsx`, `src/canvas.tsx` and the build configuration are presentation and configuration.

## Findings

| source | as written | input that shows it | evidently intended | confidence | as-written member | corrected member |
|---|---|---|---|---|---|---|
| src/renderer.ts:237-244 | `initIndexBuffer` throws `PositionBufferCreationErr`, "Error occurred creating position buffer." | Position and texture-coordinate buffers are created, and the index buffer is not. | An index-buffer error that names the index buffer. | not executed; read from the source | Renderer.IndexBufferFailureBlamesPositionBuffer | Renderer.BufferErrorNamesFailedBuffer |
| src/camera.ts:127-134 | `changeFacingMode` passes the error `loadCamera` already classified through `throwCameraError` again | The media request throws a `NotAllowedError`. The message becomes "Camera is unavailable. Camera is unavailable for use. If you want ..." | The classified error is rethrown unchanged. | not executed; read from the source | Camera.ChangeFacingModeAsWritten | Camera.ChangeFacingMode |

=== FILE: app.dfy ===
/** The application component's own state logic (src/app.tsx): the error
    overlay that keeps the first error shown, the orientation type and the
    layout direction it selects, the confirm-image flag, and the folds it
    hands the renderer when faces are detected. */
module App {
  import opened Base
  import opened AppErrors
  import Orientation
  import FG = FoldGenerator
  import S = Settings
  import P = Points
  import Rn = Renderer
  import SM = SourceManager
  import Camera

  /** `state.error`: whether the overlay shows, and its message lines. */
  datatype ErrorDisplay = ErrorDisplay(showing: bool, message: MessageLines)

  datatype AppState = AppState(error: ErrorDisplay, confirmingAction: bool, orientationType: string)

  /** The initial component state: no error, no confirmation, and the
      screen's raw orientation type (or "unknown" without a screen). */
  function InitialState(screenType: Option<string>): (st: AppState)
    ensures !st.error.showing && st.error.message == Lines([]) && !st.confirmingAction
    ensures st.orientationType == Orientation.ScreenType(screenType)
  {
    AppState(ErrorDisplay(false, Lines([])), false, Orientation.ScreenType(screenType))
  }

  /** `showError`: an `AppError` shows its own message lines, any other
      error "Unknown error." followed by its message. */
  function ShowError(st: AppState, err: ErrorValue): (t: AppState)
    ensures t.error.showing
    ensures err.App? ==> t.error.message == err.app.messageLines
    ensures err.Plain? ==> t.error.message == Lines(["Unknown error.", err.message])
    ensures t.confirmingAction == st.confirmingAction && t.orientationType == st.orientationType
  {
    var message := match err
      case App(a) => a.messageLines
      case Plain(_, m) => Lines(["Unknown error.", m]);
    st.(error := ErrorDisplay(true, message))
  }

  /** `onError`: a new error is shown only while none is showing. */
  function OnError(st: AppState, err: ErrorValue): (t: AppState)
    ensures !st.error.showing ==> t == ShowError(st, err)
    ensures st.error.showing ==> t == st
  {
    if !st.error.showing then ShowError(st, err) else st
  }

  /** `hideError`: the overlay closes and its message becomes "". */
  function HideError(st: AppState): (t: AppState)
    ensures !t.error.showing && t.error.message == Text("")
    ensures t.confirmingAction == st.confirmingAction && t.orientationType == st.orientationType
  {
    st.(error := ErrorDisplay(false, Text("")))
  }

  /** Several errors reported one after another. */
  function OnErrors(st: AppState, errs: seq<ErrorValue>): AppState
    decreases |errs|
  {
    if |errs| == 0 then st else OnErrors(OnError(st, errs[0]), errs[1..])
  }

  /** While an error shows, further errors change nothing. */
  lemma {:induction false} ShowingErrorIsKept(st: AppState, errs: seq<ErrorValue>)
    requires st.error.showing
    ensures OnErrors(st, errs) == st
    decreases |errs|
  {
    if |errs| > 0 {
      ShowingErrorIsKept(OnError(st, errs[0]), errs[1..]);
    }
  }

  /** The first of a burst of errors is the one shown. */
  lemma FirstErrorWins(st: AppState, errs: seq<ErrorValue>)
    requires !st.error.showing && |errs| > 0
    ensures OnErrors(st, errs) == ShowError(st, errs[0])
  {
    ShowingErrorIsKept(ShowError(st, errs[0]), errs[1..]);
  }

  /** After the overlay is closed, the next error shows again. */
  lemma HiddenOverlayShowsNextError(st: AppState, err: ErrorValue)
    ensures OnError(HideError(st), err).error.showing
    ensures OnError(HideError(st), err) == ShowError(HideError(st), err)
  {
  }

  /** A camera that cannot start the first time (it never had a stream)
      reaches the overlay, when nothing else is showing, as "Unknown error."
      over "Camera unavailable.". */
  lemma CameraFailureShowsUnknownError(st: AppState, m: SM.ManagerState, media: Camera.MediaResult)
    requires !st.error.showing
    requires m.camera.stream.None?
    requires SM.InitCamera(m, media).Threw?
    ensures OnError(st, SM.InitCamera(m, media).error).error.message == Lines(["Unknown error.", "Camera unavailable."])
  {
  }

  /** `setFlexDirection`: the CSS flex direction of the main container. */
  function SetFlexDirection(orientationType: string): (d: string)
    ensures d == "row" <==> orientationType == "landscape-primary"
    ensures d == "row-reverse" <==> orientationType == "landscape-secondary"
    ensures d == "" <==> orientationType != "landscape-primary" && orientationType != "landscape-secondary"
  {
    if orientationType == "landscape-primary" then "row"
    else if orientationType == "landscape-secondary" then "row-reverse"
    else ""
  }

  /** A portrait window keeps the default column layout; a landscape one
      lays out as a row, reversed for the secondary angle. */
  lemma FlexDirectionOfOrientation(landscape: bool, screenType: Option<string>)
    ensures !landscape ==> SetFlexDirection(Orientation.GetOrientationType(landscape, screenType)) == ""
    ensures landscape && Orientation.AngleName(Orientation.ScreenType(screenType)) == "primary" ==>
      SetFlexDirection(Orientation.GetOrientationType(landscape, screenType)) == "row"
    ensures landscape && Orientation.AngleName(Orientation.ScreenType(screenType)) == "secondary" ==>
      SetFlexDirection(Orientation.GetOrientationType(landscape, screenType)) == "row-reverse"
  {
    var a := Orientation.AngleName(Orientation.ScreenType(screenType));
    var o := Orientation.GetOrientationType(landscape, screenType);
    if !landscape {
      assert o[0] == 'p';
      assert "landscape-primary"[0] == 'l' && "landscape-secondary"[0] == 'l';
    } else if a == "primary" {
      assert o == "landscape-primary";
    } else if a == "secondary" {
      assert o == "landscape-secondary";
    }
  }

  /** What `updateAspectRatioStatus` leaves: the new state and the flex
      direction it gives the main container. */
  datatype AspectUpdate = AspectUpdate(state: AppState, flexDirection: string)

  /** `updateAspectRatioStatus`: recomputes the orientation type, keeps
      the other fields, and sets the layout direction from it. */
  function UpdateAspectRatioStatus(st: AppState, landscape: bool, screenType: Option<string>): (u: AspectUpdate)
    ensures u.state.orientationType == Orientation.GetOrientationType(landscape, screenType)
    ensures u.state.error == st.error && u.state.confirmingAction == st.confirmingAction
    ensures u.flexDirection == SetFlexDirection(u.state.orientationType)
  {
    var o := Orientation.GetOrientationType(landscape, screenType);
    AspectUpdate(st.(orientationType := o), SetFlexDirection(o))
  }

  /** `handleChosenImage` ends by asking the user to confirm the image. */
  function EndHandleChosenImage(st: AppState): (t: AppState)
    ensures t.confirmingAction
    ensures t.error == st.error && t.orientationType == st.orientationType
  {
    st.(confirmingAction := true)
  }

  /** `switchToCamera` ends the confirmation. */
  function EndSwitchToCamera(st: AppState): (t: AppState)
    ensures !t.confirmingAction
    ensures t.error == st.error && t.orientationType == st.orientationType
  {
    st.(confirmingAction := false)
  }

  /** The confirm bar shows exactly while a chosen image awaits an answer
      and the shutter bar exactly otherwise; answering either way returns
      to the shutter bar. */
  predicate ConfirmBarVisible(st: AppState) { st.confirmingAction }

  predicate ShutterBarVisible(st: AppState) { !st.confirmingAction }

  lemma ConfirmRoundTrip(st: AppState)
    ensures ConfirmBarVisible(EndHandleChosenImage(st)) && !ShutterBarVisible(EndHandleChosenImage(st))
    ensures EndSwitchToCamera(EndHandleChosenImage(st)) == st.(confirmingAction := false)
    ensures ShutterBarVisible(EndSwitchToCamera(EndHandleChosenImage(st)))
  {
  }

  /** `setFoldsFromFaces`: one fold per detected face, in the same order,
      each generated with the same divisor and settings. */
  function SetFoldsFromFaces(r: Rn.RendererState, faces: seq<FG.Landmarks>, normDivisor: P.Point,
                             s: S.FoldsSettings, ext: FG.Externals): (t: Rn.RendererState)
    requires forall i :: 0 <= i < |faces| ==> FG.WellFormed(faces[i], normDivisor, ext)
    ensures |Rn.GetFolds(t)| == |faces|
    ensures forall i :: 0 <= i < |faces| ==> Rn.GetFolds(t)[i] == FG.GenerateFolds(faces[i], normDivisor, s, ext)
    ensures t.trace == r.trace && t.source == r.source && t.context == r.context
  {
    Rn.SetFolds(r, seq(|faces|, i requires 0 <= i < |faces| => FG.GenerateFolds(faces[i], normDivisor, s, ext)))
  }

  /** Once faces are set, the next frame draws the background and then an
      eye quad and a mouth quad for every face, each face's mouth joined to
      its eyes. */
  lemma NextFrameDrawsEveryFace(r: Rn.RendererState, faces: seq<FG.Landmarks>, normDivisor: P.Point,
                                s: S.FoldsSettings, ext: FG.Externals, canvas: Dimensions, nextId: nat)
    requires forall i :: 0 <= i < |faces| ==> FG.WellFormed(faces[i], normDivisor, ext)
    requires r.context.Some?
    ensures var t := SetFoldsFromFaces(r, faces, normDivisor, s, ext);
      var before := Rn.Run(Rn.GLState([], [], []), t.trace).draws;
      var after := Rn.Run(Rn.GLState([], [], []), Rn.TickFrame(t, canvas, nextId).trace).draws;
      && |after| == |before| + 1 + 2 * |faces|
      && forall i :: 0 <= i < |faces| ==>
           Rn.StartsAtEnd(after[|before| + 2 + 2 * i], after[|before| + 1 + 2 * i])
  {
    var t := SetFoldsFromFaces(r, faces, normDivisor, s, ext);
    assert Rn.Joined(Rn.GetFolds(t));
    Rn.TickDrawsJoinedFolds(t, canvas, nextId);
  }
}

=== FILE: app_error.dfy ===
/** Errors as the application raises and displays them (src/types/app-error.ts).
    An `AppError` carries a name and either one message string or a list of
    message lines; its `message` is the lines joined by CR LF. */
module AppErrors {
  import opened Strings

  const LineSeparator: string := "\r\n"

  datatype MessageLines = Lines(lines: seq<string>) | Text(text: string)

  datatype AppError = AppError(name: string, messageLines: MessageLines)

  /** Any thrown `Error`: an `AppError`, or a plain `Error` with the name and
      message the thrower gave it (`new Error(m)` has the name "Error"). */
  datatype ErrorValue = App(app: AppError) | Plain(name: string, message: string)

  /** A value caught by a `catch` clause: an `Error`, or anything else
      JavaScript lets a program throw. */
  datatype Thrown = Raised(error: ErrorValue) | NonError

  /** The text a list of message lines or a single string stands for. */
  function Flatten(m: MessageLines): string {
    match m
    case Lines(ls) => Join(ls, LineSeparator)
    case Text(t) => t
  }

  /** The `message` the `AppError` constructor hands to `Error`. */
  function Message(e: AppError): (msg: string)
    ensures e.messageLines.Text? ==> msg == e.messageLines.text
    ensures e.messageLines.Lines? && |e.messageLines.lines| == 0 ==> msg == ""
    ensures e.messageLines.Lines? && |e.messageLines.lines| == 1 ==> msg == e.messageLines.lines[0]
    ensures e.messageLines.Lines? && |e.messageLines.lines| > 0 ==>
      |msg| == TotalLength(e.messageLines.lines) + 2 * (|e.messageLines.lines| - 1)
  {
    if e.messageLines.Lines? && |e.messageLines.lines| > 0 then
      JoinLength(e.messageLines.lines, LineSeparator);
      Flatten(e.messageLines)
    else
      Flatten(e.messageLines)
  }

  /** Appending message lines appends their text after one CR LF. */
  lemma MessageOfMoreLines(name: string, first: seq<string>, more: seq<string>)
    requires |first| > 0 && |more| > 0
    ensures Message(AppError(name, Lines(first + more)))
         == Message(AppError(name, Lines(first))) + "\r\n" + Message(AppError(name, Lines(more)))
  {
    JoinAppend(first, more, LineSeparator);
  }

  /** Two lines are joined by one CR LF. */
  lemma MessageOfTwoLines(name: string, first: string, second: string)
    ensures Message(AppError(name, Lines([first, second]))) == first + "\r\n" + second
  {
    var ls := [first, second];
    assert ls[1..] == [second];
    assert Join(ls[1..], LineSeparator) == second;
    assert Join(ls, LineSeparator) == first + LineSeparator + second;
  }

  function Name(e: ErrorValue): string {
    match e
    case App(a) => a.name
    case Plain(n, _) => n
  }

  function ErrorMessage(e: ErrorValue): string {
    match e
    case App(a) => Message(a)
    case Plain(_, m) => m
  }

  /** `new Error(message)`. */
  function PlainError(message: string): (e: ErrorValue)
    ensures Name(e) == "Error" && ErrorMessage(e) == message
  {
    Plain("Error", message)
  }
}

=== FILE: base.dfy ===
/** Optional values and results shared by every module of the model.
    `Option` stands for the source's `T | null` and `?? default` idioms;
    `Result` stands for an operation that either returns or throws without
    side effects; `Outcome` for one whose effects survive a throw. */
module Base {

  datatype Option<+T> = None | Some(value: T) {

    /** The contained value, or `default` when there is none (JavaScript `??`). */
    function GetOr(default: T): T {
      match this
      case Some(v) => v
      case None => default
    }
  }

  datatype Result<+T, +E> = Ok(value: T) | Err(error: E) {

    predicate IsFailure() {
      Err?
    }

    function PropagateFailure<U>(): Result<U, E>
      requires Err?
    {
      Err(error)
    }

    function Extract(): T
      requires Ok?
    {
      value
    }
  }

  /** The state after an operation that either returned normally or threw
      `error`; a throw can still leave changes behind. */
  datatype Outcome<+S, +E> = Done(state: S) | Threw(state: S, error: E)

  /** A width and height in pixels. */
  datatype Dimensions = Dimensions(width: nat, height: nat)

  function Max(a: real, b: real): real {
    if a >= b then a else b
  }

  function Min(a: real, b: real): real {
    if a <= b then a else b
  }
}

=== FILE: blank.dfy ===
/** The blank source (src/blank.ts): a 1x1 transparent image rendered once
    into an off-screen canvas. The canvas and image elements are abstracted
    to a count of renders. */
module Blank {
  import opened Base

  /** `BlankSource.IDENTIFIER`, the id given to its canvas element. */
  const Identifier: string := "blank-image"

  const BlankDimensions: Dimensions := Dimensions(1, 1)

  /** `rendered` is the source's flag; `renders` counts how often `load`
      painted the canvas and replaced the image. */
  datatype BlankState = BlankState(rendered: bool, renders: nat, dimensions: Dimensions)

  /** `new BlankSource()`: not yet rendered. */
  function NewBlank(): (b: BlankState)
    ensures !b.rendered && b.renders == 0
    ensures GetDimensions(b) == Dimensions(1, 1)
  {
    BlankState(false, 0, BlankDimensions)
  }

  function GetDimensions(b: BlankState): Dimensions {
    b.dimensions
  }

  /** `load`: paints once; a rendered source returns at once, unchanged. */
  function Load(b: BlankState): (c: BlankState)
    ensures c.rendered
    ensures b.rendered ==> c == b
    ensures !b.rendered ==> c.renders == b.renders + 1
    ensures GetDimensions(c) == GetDimensions(b)
  {
    if b.rendered then b
    else b.(rendered := true, renders := b.renders + 1)
  }

  /** `destroy`: the elements are removed and the source may render again. */
  function Destroy(b: BlankState): (c: BlankState)
    ensures !c.rendered
    ensures c.renders == b.renders && GetDimensions(c) == GetDimensions(b)
  {
    b.(rendered := false)
  }

  /** A second `load` does nothing. */
  lemma LoadIdempotent(b: BlankState)
    ensures Load(Load(b)) == Load(b)
  {
  }

  /** After `destroy`, the next `load` renders again. */
  lemma DestroyThenLoadRerenders(b: BlankState)
    ensures Load(Destroy(b)).renders == b.renders + 1
    ensures Load(Destroy(b)).rendered
  {
  }

  /** Everything a caller can do to a blank source; `pause` and `resume`
      have empty bodies. */
  datatype BlankOp = LoadOp | DestroyOp | PauseOp | ResumeOp

  function Step(b: BlankState, op: BlankOp): BlankState {
    match op
    case LoadOp => Load(b)
    case DestroyOp => Destroy(b)
    case PauseOp => b
    case ResumeOp => b
  }

  function Run(b: BlankState, ops: seq<BlankOp>): BlankState
    decreases |ops|
  {
    if |ops| == 0 then b else Run(Step(b, ops[0]), ops[1..])
  }

  /** The dimensions are 1x1 after any sequence of operations. */
  lemma {:induction false} DimensionsNeverChange(b: BlankState, ops: seq<BlankOp>)
    requires GetDimensions(b) == BlankDimensions
    ensures GetDimensions(Run(b, ops)) == Dimensions(1, 1)
    decreases |ops|
  {
    if |ops| > 0 {
      DimensionsNeverChange(Step(b, ops[0]), ops[1..]);
    }
  }

  /** `pause` and `resume` change nothing, even inside a longer run. */
  lemma PauseResumeChangeNothing(b: BlankState, ops: seq<BlankOp>)
    ensures Run(b, [PauseOp] + ops) == Run(b, ops)
    ensures Run(b, [ResumeOp] + ops) == Run(b, ops)
  {
    assert ([PauseOp] + ops)[1..] == ops;
    assert ([ResumeOp] + ops)[1..] == ops;
  }
}

=== FILE: camera.dfy ===
/** The camera source (src/camera.ts): a status machine around
    `getUserMedia`. The media request's result is an input; a stream is
    identified by a number, and stopping its video track is recorded in
    `stopped`. */
module Camera {
  import opened Base
  import opened AppErrors

  /** `CameraSource.IDENTIFIER`, the id of its video element. */
  const Identifier: string := "camera-video-stream"

  datatype Status = Inactive | Active | Errored

  datatype FacingMode = User | Environment

  /** The `MediaStream` the media request granted: `hasVideoTrack` is
      whether its video track is still in it, and `hasStop` whether the
      browser gives the stream object itself a `stop()` method (the Media
      Capture standard does not). */
  datatype Stream = Stream(id: nat, hasVideoTrack: bool, hasStop: bool)

  /** `stream` is `cameraStream` (never cleared once set); `stopped` lists
      the streams whose video track was stopped, oldest first;
      `videoAttached` is whether the video element is still in the page,
      `playing` whether the last call on it was `resume()` rather than
      `pause()`; the element's autoplay is not tracked. */
  datatype CameraState = CameraState(
    facingMode: FacingMode,
    stream: Option<Stream>,
    stopped: seq<nat>,
    dimensions: Dimensions,
    status: Status,
    videoAttached: bool,
    playing: bool)

  /** The answer to the media request: a new stream, holding its video
      track, with the track's size, or the value the request threw. */
  datatype MediaResult = Granted(streamId: nat, hasStop: bool, width: nat, height: nat) | Denied(thrown: Thrown)

  const InUseMessage: string :=
    "Camera is unavailable for use. It's probably being used by another app. To use it here, disable it in other apps using it and try reloading."

  const RejectedMessage: string :=
    "Camera is unavailable for use. If you want to re-enable it later, you can refresh or also allow the camera for this page in your browser settings."

  const UnknownPrefix: string := "Camera is unavailable. "

  /** The `TypeError` of `removeTrack(undefined)`, when the stream's video
      track was already removed. */
  const RemoveTrackError: ErrorValue := Plain("TypeError", "removeTrack: the argument is not a MediaStreamTrack")

  /** The `TypeError` of calling `stop()` on a stream that has none. */
  const StreamStopError: ErrorValue := Plain("TypeError", "stop is not a function")

  /** `new CameraSource()`. */
  function NewCamera(): (c: CameraState)
    ensures c.facingMode == User && c.status == Inactive && !IsActive(c)
    ensures GetDimensions(c) == Dimensions(0, 0) && c.stream.None?
  {
    CameraState(User, None, [], Dimensions(0, 0), Inactive, true, false)
  }

  predicate IsActive(c: CameraState) {
    c.status == Active
  }

  function GetDimensions(c: CameraState): Dimensions {
    c.dimensions
  }

  /** `destroyCameraStreamAndTracks`: removes the stream's video track
      from it and stops the track, then calls `stop()` on the stream itself.
      Without a stream nothing happens. A stream whose track is already
      gone makes `removeTrack` throw before anything changes; a stream
      without `stop()` throws after its track was removed and stopped. */
  function StopStream(c: CameraState): (r: Outcome<CameraState, ErrorValue>)
    ensures c.stream.None? ==> r == Done(c)
    ensures c.stream.Some? && !c.stream.value.hasVideoTrack ==> r == Threw(c, RemoveTrackError)
    ensures c.stream.Some? && c.stream.value.hasVideoTrack ==>
      && r.state == c.(stream := Some(c.stream.value.(hasVideoTrack := false)), stopped := c.stopped + [c.stream.value.id])
      && (r.Threw? <==> !c.stream.value.hasStop)
      && (r.Threw? ==> r.error == StreamStopError)
  {
    match c.stream
    case None => Done(c)
    case Some(s) =>
      if !s.hasVideoTrack then Threw(c, RemoveTrackError)
      else
        var c1 := c.(stream := Some(s.(hasVideoTrack := false)), stopped := c.stopped + [s.id]);
        if s.hasStop then Done(c1) else Threw(c1, StreamStopError)
  }

  /** A stream can be stopped only once: whatever the first stop did, a
      second one throws the `removeTrack` error and changes nothing. */
  lemma SecondStopThrows(c: CameraState)
    requires c.stream.Some?
    ensures StopStream(StopStream(c).state) == Threw(StopStream(c).state, RemoveTrackError)
  {
  }

  /** Whether `loadCamera` gets past the stop of the old stream: it stops
      one only when the camera is active. */
  predicate StopsCleanly(c: CameraState) {
    !IsActive(c) || StopStream(c).Done?
  }

  /** The message of the `Error` `throwCameraError` raises for `e`. */
  function CameraErrorMessage(e: ErrorValue): (msg: string)
    ensures Name(e) == "NotReadableError" || Name(e) == "TrackStartError" ==> msg == InUseMessage
    ensures Name(e) == "NotAllowedError" ==> msg == RejectedMessage
    ensures Name(e) !in {"NotReadableError", "TrackStartError", "NotAllowedError"} ==>
      msg == UnknownPrefix + ErrorMessage(e)
  {
    if Name(e) == "NotReadableError" || Name(e) == "TrackStartError" then InUseMessage
    else if Name(e) == "NotAllowedError" then RejectedMessage
    else UnknownPrefix + ErrorMessage(e)
  }

  /** `throwCameraError`: the status becomes `errored`; an `Error` is
      replaced by a plain `Error` with the classified message, and any other
      thrown value is swallowed. */
  function ThrowCameraError(c: CameraState, t: Thrown): (r: Outcome<CameraState, ErrorValue>)
    ensures r.state == c.(status := Errored)
    ensures r.Threw? <==> t.Raised?
    ensures r.Threw? ==> r.error == PlainError(CameraErrorMessage(t.error))
  {
    var errored := c.(status := Errored);
    match t
    case Raised(e) => Threw(errored, PlainError(CameraErrorMessage(e)))
    case NonError => Done(errored)
  }

  /** `loadCamera`: an active camera's stream is stopped first, outside
      the `try`, so an error of that stop escapes as it is, with the status
      unchanged. The facing mode is not passed to the media request, so it
      plays no part. */
  function LoadCamera(c: CameraState, media: MediaResult): (r: Outcome<CameraState, ErrorValue>)
    ensures r.state.facingMode == c.facingMode && r.state.videoAttached == c.videoAttached
    ensures !StopsCleanly(c) ==> r == StopStream(c) && r.state.status == c.status
    ensures StopsCleanly(c) && media.Granted? ==>
      && r.Done? && IsActive(r.state)
      && r.state.stream == Some(Stream(media.streamId, true, media.hasStop))
      && GetDimensions(r.state) == Dimensions(media.width, media.height)
    ensures StopsCleanly(c) && media.Denied? ==>
      && r.state.status == Errored
      && r.state.stream == (if IsActive(c) then StopStream(c).state.stream else c.stream)
    ensures StopsCleanly(c) ==> (r.Threw? <==> media.Denied? && media.thrown.Raised?)
    ensures IsActive(c) && c.stream.Some? && c.stream.value.hasVideoTrack ==>
      r.state.stopped == c.stopped + [c.stream.value.id]
    ensures !IsActive(c) ==> r.state.stopped == c.stopped
  {
    var stop := if IsActive(c) then StopStream(c) else Done(c);
    match stop
    case Threw(_, _) => stop
    case Done(c1) =>
      match media
      case Granted(id, hasStop, w, h) => Done(c1.(stream := Some(Stream(id, true, hasStop)), dimensions := Dimensions(w, h), status := Active))
      case Denied(t) => ThrowCameraError(c1, t)
  }

  /** `load`: the current facing mode is requested, and kept. */
  function Load(c: CameraState, media: MediaResult): (r: Outcome<CameraState, ErrorValue>)
    ensures r.state.facingMode == c.facingMode
    ensures StopsCleanly(c) && media.Granted? ==> r.Done? && IsActive(r.state)
    ensures StopsCleanly(c) && media.Denied? ==> r.state.status == Errored
  {
    LoadCamera(c, media)
  }

  /** The camera becomes active only through a granted request, and an
      active camera stays active only when the stop of its old stream
      throws before the request is made. */
  lemma ActivatesOnlyOnGrant(c: CameraState, media: MediaResult)
    ensures IsActive(LoadCamera(c, media).state) <==>
      (StopsCleanly(c) && media.Granted?) || (IsActive(c) && !StopsCleanly(c))
  {
  }

  /** `changeFacingMode` as the source writes it: a throw from `loadCamera`,
      already classified, is passed through `throwCameraError` again. */
  function ChangeFacingModeAsWritten(c: CameraState, mode: FacingMode, media: MediaResult): (r: Outcome<CameraState, ErrorValue>)
    ensures r.state.facingMode == (if LoadCamera(c, media).Done? then mode else c.facingMode)
  {
    match LoadCamera(c, media)
    case Done(c1) => Done(c1.(facingMode := mode))
    case Threw(c1, e) => ThrowCameraError(c1, Raised(e))
  }

  /** `changeFacingMode` as intended: the error `loadCamera` classified is
      rethrown as it is. */
  function ChangeFacingMode(c: CameraState, mode: FacingMode, media: MediaResult): (r: Outcome<CameraState, ErrorValue>)
    ensures r.state.facingMode == (if LoadCamera(c, media).Done? then mode else c.facingMode)
    ensures r.Threw? <==> LoadCamera(c, media).Threw?
    ensures r.Threw? ==> r.error == LoadCamera(c, media).error
  {
    match LoadCamera(c, media)
    case Done(c1) => Done(c1.(facingMode := mode))
    case Threw(c1, e) => Threw(c1, e)
  }

  /** The as-written `changeFacingMode` reports a refused camera as
      "Camera is unavailable. Camera is unavailable for use. ...": the
      classified message gets the unknown-error prefix a second time. */
  lemma ChangeFacingModeDoublyWrapsErrors(c: CameraState, mode: FacingMode, e: ErrorValue)
    requires StopsCleanly(c)
    ensures var r := ChangeFacingModeAsWritten(c, mode, Denied(Raised(e)));
      r.Threw? && ErrorMessage(r.error) == UnknownPrefix + CameraErrorMessage(e)
    ensures var r := ChangeFacingMode(c, mode, Denied(Raised(e)));
      r.Threw? && ErrorMessage(r.error) == CameraErrorMessage(e)
  {
  }

  /** A media request that throws a non-`Error` leaves the camera errored,
      yet `changeFacingMode` returns normally and commits the new mode. */
  lemma NonErrorStillCommitsFacingMode(c: CameraState, mode: FacingMode)
    requires StopsCleanly(c)
    ensures var r := ChangeFacingModeAsWritten(c, mode, Denied(NonError));
      r.Done? && r.state.status == Errored && r.state.facingMode == mode
    ensures ChangeFacingMode(c, mode, Denied(NonError)) == ChangeFacingModeAsWritten(c, mode, Denied(NonError))
  {
  }

  /** Refreshing an active camera whose stream has no `stop()` fails
      before the media request: the raw `TypeError` escapes `loadCamera`,
      the camera stays active, and `changeFacingMode` keeps the old mode
      and reports the error classified as an unknown one. */
  lemma MissingStreamStopFailsReload(c: CameraState, mode: FacingMode, media: MediaResult)
    requires IsActive(c) && c.stream.Some? && c.stream.value.hasVideoTrack && !c.stream.value.hasStop
    ensures var r := LoadCamera(c, media);
      r.Threw? && r.error == StreamStopError && IsActive(r.state)
    ensures var r := ChangeFacingModeAsWritten(c, mode, media);
      r.Threw? && r.state.facingMode == c.facingMode
      && ErrorMessage(r.error) == CameraErrorMessage(StreamStopError)
    ensures ChangeFacingMode(c, mode, media).state.facingMode == c.facingMode
  {
  }

  /** `destroy`: stops the stream, then removes the video element. A
      throwing stop skips the removal. The status is not touched. */
  function Destroy(c: CameraState): (r: Outcome<CameraState, ErrorValue>)
    ensures r.state.status == c.status
    ensures r.Done? <==> StopStream(c).Done?
    ensures r.Done? ==> r.state == StopStream(c).state.(videoAttached := false)
    ensures r.Threw? ==> r == StopStream(c) && r.state.videoAttached == c.videoAttached
  {
    match StopStream(c)
    case Done(c1) => Done(c1.(videoAttached := false))
    case Threw(c1, e) => Threw(c1, e)
  }

  /** An active camera stays active through `destroy`, so a later `load`
      stops the stream again; its track is gone, so `removeTrack` throws a
      raw `TypeError`, and the camera stays active with the old stream. A
      stream without `stop()` makes the `destroy` itself throw, leaving the
      video element in the page. */
  lemma LoadAfterDestroyThrows(c: CameraState, media: MediaResult)
    requires IsActive(c) && c.stream.Some?
    ensures Destroy(c).Done? ==>
      var r := LoadCamera(Destroy(c).state, media);
      && r == Threw(Destroy(c).state, RemoveTrackError)
      && IsActive(r.state) && r.state.stream == Destroy(c).state.stream
    ensures !c.stream.value.hasStop ==> Destroy(c).Threw? && Destroy(c).state.videoAttached == c.videoAttached
  {
  }

  /** `pause` and `resume` drive the video element only; the promise that
      `play()` returns is not modelled. */
  function Pause(c: CameraState): (t: CameraState)
    ensures !t.playing && t.(playing := c.playing) == c
  {
    c.(playing := false)
  }

  function Resume(c: CameraState): (t: CameraState)
    ensures t.playing && t.(playing := c.playing) == c
  {
    c.(playing := true)
  }

  /** Pausing and resuming undo each other on everything but the flag. */
  lemma PauseResumeRoundTrip(c: CameraState)
    ensures Resume(Pause(c)) == Resume(c) && Pause(Resume(c)) == Pause(c)
    ensures c.playing ==> Resume(Pause(c)) == c
  {
  }
}

=== FILE: face_watcher.dfy ===
/** The face watcher (src/face-watcher.ts): a detection loop gated by the
    `loaded` and `active` flags. Each `setTimeout(watchFaces, 0)` is one
    pending iteration; the detector (face-api.js) reads the current
    source's live element, so its answer is a function of the source and of
    the firing (the frame the element shows then), and `onDetect` is
    recorded as the list of results it received. */
module FaceWatcher {
  import opened Base
  import opened AppErrors
  import FG = FoldGenerator
  import Src = Sources

  const ModelDir: string := "/weights"
  const DefaultInputSize: nat := 224
  const DefaultScoreThreshold: real := 0.5

  /** The detector options the watcher passes to every detection. */
  datatype DetectorOptions = DetectorOptions(inputSize: nat, scoreThreshold: real)

  const Options: DetectorOptions := DetectorOptions(DefaultInputSize, DefaultScoreThreshold)

  /** What one detection on a source yields: the faces' landmarks, or the
      exception the detector threw. */
  datatype Detection = Detected(faces: seq<FG.Landmarks>) | DetectorThrew(error: ErrorValue)

  /** The detector's answer for a source at a given firing. */
  type Detector = (Src.Source, nat) -> Detection

  /** The three model loads `load` waits for. */
  datatype ModelLoad = Loaded | LoadFailed(error: ErrorValue)

  datatype ModelLoads = ModelLoads(tinyFaceDetector: ModelLoad, faceRecognition: ModelLoad, faceLandmark68Tiny: ModelLoad)

  /** `pending` counts the iterations waiting on a timer; `firings` counts
      the timers fired so far (the time at which the next detection looks
      at the element); `delivered` is every argument `onDetect` was called
      with, oldest first. */
  datatype WatcherState = WatcherState(
    loaded: bool,
    active: bool,
    source: Src.Source,
    pending: nat,
    firings: nat,
    delivered: seq<seq<FG.Landmarks>>)

  /** `new FaceWatcher(onDetect)`. */
  function NewWatcher(): (w: WatcherState)
    ensures !w.loaded && !w.active && w.source == Src.FreshBlank()
    ensures w.pending == 0 && w.firings == 0 && w.delivered == []
  {
    WatcherState(false, false, Src.FreshBlank(), 0, 0, [])
  }

  /** The `source` setter. */
  function SetSource(w: WatcherState, source: Src.Source): (t: WatcherState)
    ensures t.source == source
    ensures t.loaded == w.loaded && t.active == w.active && t.pending == w.pending
    ensures t.firings == w.firings && t.delivered == w.delivered
  {
    w.(source := source)
  }

  /** `start`: ignored until the models are loaded; afterwards it sets
      `active` and schedules an iteration, even when one is already
      scheduled. */
  function Start(w: WatcherState): (t: WatcherState)
    ensures !w.loaded ==> t == w
    ensures w.loaded ==> t == w.(active := true, pending := w.pending + 1)
  {
    if !w.loaded then w else w.(active := true, pending := w.pending + 1)
  }

  /** `stop`: clears `active`; pending iterations stay scheduled. */
  function Stop(w: WatcherState): (t: WatcherState)
    ensures !t.active && t == w.(active := false)
  {
    w.(active := false)
  }

  /** The first failed load, in the order the models are listed. */
  function FirstLoadError(loads: ModelLoads): (e: Option<ErrorValue>)
    ensures e.None? <==> (loads.tinyFaceDetector.Loaded? && loads.faceRecognition.Loaded? && loads.faceLandmark68Tiny.Loaded?)
  {
    if loads.tinyFaceDetector.LoadFailed? then Some(loads.tinyFaceDetector.error)
    else if loads.faceRecognition.LoadFailed? then Some(loads.faceRecognition.error)
    else if loads.faceLandmark68Tiny.LoadFailed? then Some(loads.faceLandmark68Tiny.error)
    else None
  }

  /** `load`: `loaded` is set only when all three models loaded; otherwise
      the rejection propagates and nothing changes. */
  function Load(w: WatcherState, loads: ModelLoads): (r: Outcome<WatcherState, ErrorValue>)
    ensures r.Done? <==> FirstLoadError(loads).None?
    ensures r.Done? ==> r.state == w.(loaded := true)
    ensures r.Threw? ==> r.state == w && r.error == FirstLoadError(loads).value
  {
    match FirstLoadError(loads)
    case None => Done(w.(loaded := true))
    case Some(e) => Threw(w, e)
  }

  /** `detectFaces`: the detector run on the current source's element as
      it is at this firing. */
  function DetectFaces(w: WatcherState, detect: Detector): Detection {
    detect(w.source, w.firings)
  }

  /** `watchFaces`, run when one pending timer fires. Inactive, it
      returns and does not reschedule. Active, it detects on the current
      source, hands the result to `onDetect` once and reschedules. A
      detector exception escapes: no callback and no reschedule. */
  function WatchFaces(w: WatcherState, detect: Detector): (r: Outcome<WatcherState, ErrorValue>)
    requires w.pending > 0
    ensures r.state.loaded == w.loaded && r.state.active == w.active && r.state.source == w.source
    ensures r.state.firings == w.firings + 1
    ensures !w.active ==> r == Done(w.(pending := w.pending - 1, firings := w.firings + 1))
    ensures w.active && detect(w.source, w.firings).Detected? ==>
      r == Done(w.(firings := w.firings + 1, delivered := w.delivered + [detect(w.source, w.firings).faces]))
    ensures w.active && detect(w.source, w.firings).DetectorThrew? ==>
      r == Threw(w.(pending := w.pending - 1, firings := w.firings + 1), detect(w.source, w.firings).error)
  {
    var fired := w.(firings := w.firings + 1);
    if !w.active then Done(fired.(pending := w.pending - 1))
    else
      match DetectFaces(w, detect)
      case Detected(faces) => Done(fired.(delivered := w.delivered + [faces]))
      case DetectorThrew(e) => Threw(fired.(pending := w.pending - 1), e)
  }

  /** `n` timer firings in a row, stopping at the first escaped exception. */
  function Iterate(w: WatcherState, detect: Detector, n: nat): Outcome<WatcherState, ErrorValue>
    decreases n
  {
    if n == 0 || w.pending == 0 then Done(w)
    else
      match WatchFaces(w, detect)
      case Done(w1) => Iterate(w1, detect, n - 1)
      case Threw(w1, e) => Threw(w1, e)
  }

  /** The detector answers on `source` at every firing from `from` on,
      for `n` firings. */
  predicate AnswersFor(detect: Detector, source: Src.Source, from: nat, n: nat) {
    forall k :: from <= k < from + n ==> detect(source, k).Detected?
  }

  /** While active and with a detector that answers at each of the next `n`
      firings, the loop keeps one iteration pending and calls `onDetect`
      once per firing, each time with the faces found on the current
      source at that firing. */
  lemma {:induction false} ActiveLoopDeliversEveryIteration(w: WatcherState, detect: Detector, n: nat)
    requires w.active && w.pending > 0
    requires AnswersFor(detect, w.source, w.firings, n)
    ensures var r := Iterate(w, detect, n);
      && r.Done?
      && r.state.pending == w.pending
      && r.state.firings == w.firings + n
      && |r.state.delivered| == |w.delivered| + n
      && r.state.delivered[..|w.delivered|] == w.delivered
      && forall k :: w.firings <= k < w.firings + n ==>
           r.state.delivered[|w.delivered| + k - w.firings] == detect(w.source, k).faces
    decreases n
  {
    if n > 0 {
      assert detect(w.source, w.firings).Detected?;
      var w1 := w.(firings := w.firings + 1, delivered := w.delivered + [detect(w.source, w.firings).faces]);
      assert WatchFaces(w, detect) == Done(w1);
      ActiveLoopDeliversEveryIteration(w1, detect, n - 1);
      var r := Iterate(w1, detect, n - 1);
      assert Iterate(w, detect, n) == r;
      assert r.state.delivered[..|w1.delivered|] == w1.delivered;
      assert r.state.delivered[..|w.delivered|] == w1.delivered[..|w.delivered|];
      assert r.state.delivered[|w.delivered|] == r.state.delivered[..|w1.delivered|][|w.delivered|];
    }
  }

  /** After `stop`, the pending iterations drain without detecting: no
      callback, and nothing is rescheduled. */
  lemma {:induction false} StoppedLoopDrains(w: WatcherState, detect: Detector, n: nat)
    requires !w.active
    ensures var r := Iterate(w, detect, n);
      && r.Done?
      && r.state.delivered == w.delivered
      && r.state.pending == if n <= w.pending then w.pending - n else 0
    decreases n
  {
    if n > 0 && w.pending > 0 {
      StoppedLoopDrains(w.(pending := w.pending - 1, firings := w.firings + 1), detect, n - 1);
    }
  }

  /** A second `start` while the loop runs schedules a second, parallel
      iteration chain. */
  lemma StartTwiceSchedulesTwice(w: WatcherState)
    requires w.loaded
    ensures Start(Start(w)).pending == w.pending + 2 && Start(Start(w)).active
  {
  }

  /** An escaped detector exception ends a chain: an active loop with a
      single pending iteration is left with none. */
  lemma DetectorExceptionEndsLoop(w: WatcherState, detect: Detector)
    requires w.active && w.pending == 1
    requires detect(w.source, w.firings).DetectorThrew?
    ensures WatchFaces(w, detect).Threw? && WatchFaces(w, detect).state.pending == 0
    ensures WatchFaces(w, detect).state.delivered == w.delivered
  {
  }
}

=== FILE: fold_generator.dfy ===
/** The fold generator (src/face-fold-generator.ts): from one detected face's
    landmarks and the fold settings, an eye quad and a mouth quad, each in
    texture space and in clip space.

    The eye quad is bounded by two lines parallel to the eye line
    (`y = m*x + bU`, `y = m*x + bB`) and, when the eye line is not horizontal,
    two lines perpendicular to it (`y = -x/m + bL`, `y = -x/m + bR`); its corners
    are the intersections. The mouth quad reuses the eye slope and side lines.

    `atan`, `sin`, `cos`, face-api's `getCenterPoint` and `scaleFromOrigin` are
    supplied as opaque function values: every property below holds whatever
    they compute. */
module FoldGenerator {
  import opened Base
  import opened Points
  import R = Rects
  import S = Settings

  /** `Math.PI / 2` as the double the source computes. */
  const NinetyDegs: real := 1.5707963267948966

  /** The landmark groups of one detected face, in source pixels. */
  datatype Landmarks = Landmarks(jaw: seq<Point>, leftEye: seq<Point>, rightEye: seq<Point>, mouth: seq<Point>)

  datatype Externals = Externals(
    atan: real -> real,
    sin: real -> real,
    cos: real -> real,
    centerPoint: seq<Point> -> Point,
    scaleFromOrigin: (R.Rect, Point, Point) -> R.Rect)

  /** One face's output. */
  datatype Fold = Fold(eyes: R.RectPair, mouth: R.RectPair)

  /** `p` lies on the line `y = m*x + b`. */
  predicate OnLine(p: Point, m: real, b: real) {
    p.y == m * p.x + b
  }

  /** `p` lies on the line `y = -x/m + b`, perpendicular to slope `m`. */
  predicate OnPerpendicular(p: Point, m: real, b: real) {
    m != 0.0 && p.y == -p.x / m + b
  }

  // ---------------------------------------------------------------------------
  // Line intersection

  /** The corner the source computes from a line `y = m*x + bLine` and a
      perpendicular intercept `bPerp`: `x = factor * (bPerp - bLine)` with
      `factor = m / (m*m + 1)`, `y = bLine + m*x`. */
  function Corner(m: real, bLine: real, bPerp: real): Point {
    var factor := m / (m * m + 1.0);
    var x := factor * (bPerp - bLine);
    Point(x, bLine + m * x)
  }

  /** The closed form is the intersection of the two lines. */
  lemma CornerIsIntersection(m: real, bLine: real, bPerp: real)
    ensures OnLine(Corner(m, bLine, bPerp), m, bLine)
    ensures m != 0.0 ==> OnPerpendicular(Corner(m, bLine, bPerp), m, bPerp)
  {
    if m == 0.0 {
      return;
    }
    var k := m * m + 1.0;
    var factor := m / k;
    var x := factor * (bPerp - bLine);
    assert factor * k == m;
    assert x * k == m * (bPerp - bLine);
    assert (m * x + x / m) * m == x * k;
    assert (m * x + x / m) * m == (bPerp - bLine) * m;
    assert m * x + x / m == bPerp - bLine;
  }

  // ---------------------------------------------------------------------------
  // Eye quad in pixels

  datatype EyeGeometry = EyeGeometry(m: real, a: real, bU: real, bB: real,
                                     bL: Option<real>, bR: Option<real>, rect: R.Rect)

  /** The point the upper (`sign = 1`) or lower (`sign = -1`) line passes
      through: `center` offset by the padding rotated by `a +- 90 degrees`. */
  function Anchor(center: Point, pX: real, pY: real, a: real, up: bool, ext: Externals): Point {
    var angle := if up then a + NinetyDegs else a - NinetyDegs;
    Point(center.x + pX * ext.cos(angle), center.y + pY * ext.sin(angle))
  }

  /** The point the right (`right`) or left side line passes through:
      `center` offset outward by the padding rotated by `a`. */
  function SideAnchor(center: Point, pX: real, pY: real, a: real, right: bool, ext: Externals): Point {
    var offset := Point(pX * ext.cos(a), pY * ext.sin(a));
    if right then Add(center, offset) else Sub(center, offset)
  }

  /** The intercept of the line of slope `m` through `q`. */
  function Intercept(q: Point, m: real): (b: real)
    ensures OnLine(q, m, b)
  {
    q.y - m * q.x
  }

  /** The intercept of the line perpendicular to slope `m` through `q`. */
  function PerpendicularIntercept(q: Point, m: real): (b: real)
    requires m != 0.0
    ensures OnPerpendicular(q, m, b)
  {
    q.y + q.x / m
  }

  /** The quad cut out by two lines of slope `m` (upper `bU`, lower `bB`)
      and two perpendicular lines (left `bL`, right `bR`). */
  function SlopedQuad(m: real, bU: real, bB: real, bL: real, bR: real): (r: R.Rect)
    requires m != 0.0
    ensures OnLine(r.ul, m, bU) && OnLine(r.ur, m, bU)
    ensures OnLine(r.bl, m, bB) && OnLine(r.br, m, bB)
    ensures OnPerpendicular(r.ul, m, bL) && OnPerpendicular(r.bl, m, bL)
    ensures OnPerpendicular(r.ur, m, bR) && OnPerpendicular(r.br, m, bR)
  {
    CornerIsIntersection(m, bU, bL);
    CornerIsIntersection(m, bB, bL);
    CornerIsIntersection(m, bU, bR);
    CornerIsIntersection(m, bB, bR);
    R.Rect(Corner(m, bU, bL), Corner(m, bU, bR), Corner(m, bB, bR), Corner(m, bB, bL))
  }

  /** `m` is the slope of the line through `l` and `r`. */
  predicate IsSlope(m: real, l: Point, r: Point) {
    m * (r.x - l.x) == r.y - l.y
  }

  /** The slope of the line through two points with different x. */
  function Slope(l: Point, r: Point): (m: real)
    requires r.x != l.x
    ensures IsSlope(m, l, r)
  {
    var diff := Sub(r, l);
    diff.y / diff.x
  }

  /** The eye quad in pixels, from the two eye centers and the padding
      (lines 92-147 of the generator). */
  function EyePixelRect(lCenter: Point, rCenter: Point, pX: real, pY: real, ext: Externals): (g: EyeGeometry)
    requires rCenter.x != lCenter.x
    ensures IsSlope(g.m, lCenter, rCenter)
    ensures g.a == ext.atan(g.m)
    ensures OnLine(Anchor(rCenter, pX, pY, g.a, true, ext), g.m, g.bU)
    ensures OnLine(Anchor(rCenter, pX, pY, g.a, false, ext), g.m, g.bB)
    ensures OnLine(g.rect.ul, g.m, g.bU) && OnLine(g.rect.ur, g.m, g.bU)
    ensures OnLine(g.rect.bl, g.m, g.bB) && OnLine(g.rect.br, g.m, g.bB)
    ensures g.bL.Some? <==> g.m != 0.0
    ensures g.bR.Some? <==> g.m != 0.0
    ensures g.m != 0.0 ==>
      && OnPerpendicular(SideAnchor(rCenter, pX, pY, g.a, true, ext), g.m, g.bR.value)
      && OnPerpendicular(SideAnchor(lCenter, pX, pY, g.a, false, ext), g.m, g.bL.value)
    ensures g.m != 0.0 ==>
      && OnPerpendicular(g.rect.ul, g.m, g.bL.value) && OnPerpendicular(g.rect.bl, g.m, g.bL.value)
      && OnPerpendicular(g.rect.ur, g.m, g.bR.value) && OnPerpendicular(g.rect.br, g.m, g.bR.value)
    ensures g.m == 0.0 ==>
      && g.rect.ul.x == g.rect.bl.x == lCenter.x - pX
      && g.rect.ur.x == g.rect.br.x == rCenter.x + pX
      && g.rect.ul.y == g.rect.ur.y && g.rect.bl.y == g.rect.br.y
  {
    var lines := EyeLines(lCenter, rCenter, pX, pY, ext);
    var sides := EyeSides(lCenter, rCenter, pX, pY, lines.m, lines.a, lines.bU, lines.bB, ext);
    EyeGeometry(lines.m, lines.a, lines.bU, lines.bB, sides.bL, sides.bR, sides.rect)
  }

  /** The eye line's slope and angle, and the intercepts of the upper and
      lower lines parallel to it. */
  datatype EyeLineSet = EyeLineSet(m: real, a: real, bU: real, bB: real)

  function EyeLines(lCenter: Point, rCenter: Point, pX: real, pY: real, ext: Externals): (l: EyeLineSet)
    requires rCenter.x != lCenter.x
    ensures IsSlope(l.m, lCenter, rCenter)
    ensures l.a == ext.atan(l.m)
    ensures OnLine(Anchor(rCenter, pX, pY, l.a, true, ext), l.m, l.bU)
    ensures OnLine(Anchor(rCenter, pX, pY, l.a, false, ext), l.m, l.bB)
  {
    var m := Slope(lCenter, rCenter);
    var a := ext.atan(m);
    EyeLineSet(m, a, Intercept(Anchor(rCenter, pX, pY, a, true, ext), m),
               Intercept(Anchor(rCenter, pX, pY, a, false, ext), m))
  }

  /** The side intercepts of the eye quad (only when the eyes are not level)
      and the quad they cut out together with the upper and lower lines. */
  datatype SideLines = SideLines(bL: Option<real>, bR: Option<real>, rect: R.Rect)

  function EyeSides(lCenter: Point, rCenter: Point, pX: real, pY: real, m: real, a: real,
                    bU: real, bB: real, ext: Externals): (s: SideLines)
    ensures OnLine(s.rect.ul, m, bU) && OnLine(s.rect.ur, m, bU)
    ensures OnLine(s.rect.bl, m, bB) && OnLine(s.rect.br, m, bB)
    ensures s.bL.Some? <==> m != 0.0
    ensures s.bR.Some? <==> m != 0.0
    ensures m != 0.0 ==>
      && OnPerpendicular(SideAnchor(rCenter, pX, pY, a, true, ext), m, s.bR.value)
      && OnPerpendicular(SideAnchor(lCenter, pX, pY, a, false, ext), m, s.bL.value)
    ensures m != 0.0 ==>
      && OnPerpendicular(s.rect.ul, m, s.bL.value) && OnPerpendicular(s.rect.bl, m, s.bL.value)
      && OnPerpendicular(s.rect.ur, m, s.bR.value) && OnPerpendicular(s.rect.br, m, s.bR.value)
    ensures m == 0.0 ==>
      && s.rect.ul.x == s.rect.bl.x == lCenter.x - pX
      && s.rect.ur.x == s.rect.br.x == rCenter.x + pX
      && s.rect.ul.y == s.rect.ur.y && s.rect.bl.y == s.rect.br.y
  {
    if m != 0.0 then
      var bR := PerpendicularIntercept(SideAnchor(rCenter, pX, pY, a, true, ext), m);
      var bL := PerpendicularIntercept(SideAnchor(lCenter, pX, pY, a, false, ext), m);
      SideLines(Some(bL), Some(bR), SlopedQuad(m, bU, bB, bL, bR))
    else
      var leftX := lCenter.x - pX;
      var rightX := rCenter.x + pX;
      SideLines(None, None, R.Rect(Point(leftX, bU), Point(rightX, bU), Point(rightX, bB), Point(leftX, bB)))
  }

  // ---------------------------------------------------------------------------
  // Mouth quad in pixels

  datatype MouthGeometry = MouthGeometry(bU: real, bB: real, rect: R.Rect)

  /** The mouth quad in pixels (lines 197-244): the eye slope `m` and angle
      `a`, the mouth center and padding `p`, and the eye's side intercepts
      when it has them. */
  function MouthPixelRect(center: Point, p: real, m: real, a: real,
                          bL: Option<real>, bR: Option<real>, ext: Externals): (g: MouthGeometry)
    ensures OnLine(Anchor(center, p, p, a, true, ext), m, g.bU)
    ensures OnLine(Anchor(center, p, p, a, false, ext), m, g.bB)
    ensures bL.Some? && bR.Some? ==>
      && OnLine(g.rect.ul, m, g.bU) && OnLine(g.rect.ur, m, g.bU)
      && OnLine(g.rect.bl, m, g.bB) && OnLine(g.rect.br, m, g.bB)
    ensures bL.Some? && bR.Some? && m != 0.0 ==>
      && OnPerpendicular(g.rect.ul, m, bL.value) && OnPerpendicular(g.rect.bl, m, bL.value)
      && OnPerpendicular(g.rect.ur, m, bR.value) && OnPerpendicular(g.rect.br, m, bR.value)
    ensures !(bL.Some? && bR.Some?) ==>
      && g.rect.ul.x == g.rect.bl.x == center.x - p
      && g.rect.ur.x == g.rect.br.x == center.x + p
      && g.rect.ul.y == g.rect.ur.y == g.bU
      && g.rect.bl.y == g.rect.br.y == g.bB
  {
    var bU := Intercept(Anchor(center, p, p, a, true, ext), m);
    var bB := Intercept(Anchor(center, p, p, a, false, ext), m);
    if bL.Some? && bR.Some? then
      CornerIsIntersection(m, bU, bL.value);
      CornerIsIntersection(m, bB, bL.value);
      CornerIsIntersection(m, bU, bR.value);
      CornerIsIntersection(m, bB, bR.value);
      MouthGeometry(bU, bB, R.Rect(Corner(m, bU, bL.value), Corner(m, bU, bR.value),
                                   Corner(m, bB, bR.value), Corner(m, bB, bL.value)))
    else
      MouthGeometry(bU, bB, R.Rect(Point(center.x - p, bU), Point(center.x + p, bU),
                                   Point(center.x + p, bB), Point(center.x - p, bB)))
  }

  // ---------------------------------------------------------------------------
  // Clip-space adjustments

  /** `post` is `pre` with each side moved along itself by `mP` times its own
      length: the side vectors are unchanged. */
  predicate HeightExtended(pre: R.Rect, post: R.Rect, mP: real) {
    && Sub(post.ul, post.bl) == Sub(pre.ul, pre.bl)
    && Sub(post.ur, post.br) == Sub(pre.ur, pre.br)
    && Sub(post.bl, pre.bl) == Mul(Sub(pre.ul, pre.bl), Point(mP, mP))
    && Sub(post.br, pre.br) == Mul(Sub(pre.ur, pre.br), Point(mP, mP))
  }

  /** The eye quad's vertical extension (lines 163-171). */
  function ExtendHeight(r: R.Rect, mP: real): (e: R.Rect)
    ensures HeightExtended(r, e, mP)
  {
    var mpPt := Point(mP, mP);
    var leftHeight := Mul(Sub(r.ul, r.bl), mpPt);
    var rightHeight := Mul(Sub(r.ur, r.br), mpPt);
    R.Rect(Add(r.ul, leftHeight), Add(r.ur, rightHeight), Add(r.br, rightHeight), Add(r.bl, leftHeight))
  }

  /** `post` is `pre` with each side translated so that its `bl` / `br` end
      lands on `left` / `right`: the side vectors are unchanged. */
  predicate GapClosed(pre: R.Rect, post: R.Rect, left: Point, right: Point) {
    && post.bl == left && post.br == right
    && Sub(post.ul, post.bl) == Sub(pre.ul, pre.bl)
    && Sub(post.ur, post.br) == Sub(pre.ur, pre.br)
  }

  /** The mouth quad's gap closing (lines 259-266). */
  function CloseGap(r: R.Rect, left: Point, right: Point): (c: R.Rect)
    ensures GapClosed(r, c, left, right)
  {
    var leftGap := Sub(left, r.bl);
    var rightGap := Sub(right, r.br);
    R.Rect(Add(r.ul, leftGap), Add(r.ur, rightGap), Add(r.br, rightGap), Add(r.bl, leftGap))
  }

  // ---------------------------------------------------------------------------
  // Eye and mouth folds

  /** What the generator asks of a detected face: the landmark groups it
      measures are not empty (face-api's 68-point layout gives 6 points per
      eye and 20 for the mouth), the eye line is not vertical, and the
      divisor has no zero component. */
  predicate WellFormed(lm: Landmarks, normDivisor: Point, ext: Externals) {
    && |lm.leftEye| > 0 && |lm.rightEye| > 0 && |lm.mouth| > 0
    && ext.centerPoint(lm.rightEye).x != ext.centerPoint(lm.leftEye).x
    && NonZero(normDivisor)
  }

  /** The larger of the two eye radii. */
  function EyeRadius(lm: Landmarks): (r: real)
    requires |lm.leftEye| > 0 && |lm.rightEye| > 0
    ensures r == Radius(lm.leftEye) || r == Radius(lm.rightEye)
    ensures r >= Radius(lm.leftEye) && r >= Radius(lm.rightEye)
  {
    Max(Radius(lm.leftEye), Radius(lm.rightEye))
  }

  /** The eye padding along x and y: the settings' factors times the larger
      eye radius. */
  function EyePadding(lm: Landmarks, s: S.FoldsSettings): Point
    requires |lm.leftEye| > 0 && |lm.rightEye| > 0
  {
    var r := EyeRadius(lm);
    Point(s.pX * r, s.pY * r)
  }

  /** The eye quad in pixels from the landmarks: padding proportional to the
      larger eye's radius. */
  function EyeGeometryOf(lm: Landmarks, s: S.FoldsSettings, ext: Externals): (g: EyeGeometry)
    requires |lm.leftEye| > 0 && |lm.rightEye| > 0
    requires ext.centerPoint(lm.rightEye).x != ext.centerPoint(lm.leftEye).x
    ensures g.bL.Some? <==> g.m != 0.0
    ensures g.m == 0.0 ==> g.rect.ul.y == g.rect.ur.y && g.rect.bl.y == g.rect.br.y
    ensures g.m == 0.0 ==>
      && g.rect.ul.x == g.rect.bl.x == ext.centerPoint(lm.leftEye).x - EyePadding(lm, s).x
      && g.rect.ur.x == g.rect.br.x == ext.centerPoint(lm.rightEye).x + EyePadding(lm, s).x
  {
    var pad := EyePadding(lm, s);
    EyePixelRect(ext.centerPoint(lm.leftEye), ext.centerPoint(lm.rightEye), pad.x, pad.y, ext)
  }

  datatype EyeFold = EyeFold(m: real, a: real, bL: Option<real>, bR: Option<real>, rects: R.RectPair)

  function ScaleAbout(r: R.Rect, faceCenter: Point, scale: real, ext: Externals): R.Rect {
    ext.scaleFromOrigin(r, faceCenter, Point(scale, scale))
  }

  /** `computeEyeFoldRects`: the texture rect is the normalised pixel rect;
      only the clip rect is scaled about the face center and extended. */
  function ComputeEyeFoldRects(lm: Landmarks, s: S.FoldsSettings, faceCenter: Point,
                               normDivisor: Point, ext: Externals): (e: EyeFold)
    requires |lm.leftEye| > 0 && |lm.rightEye| > 0
    requires ext.centerPoint(lm.rightEye).x != ext.centerPoint(lm.leftEye).x
    requires NonZero(normDivisor)
    ensures var g := EyeGeometryOf(lm, s, ext);
      && e.m == g.m && e.a == g.a && e.bL == g.bL && e.bR == g.bR
      && e.rects.textureSpace == R.Normalize(g.rect, normDivisor)
    ensures HeightExtended(ScaleAbout(R.ToClipSpace(e.rects.textureSpace), faceCenter, s.scale, ext),
                           e.rects.clipSpace, s.mP)
  {
    var g := EyeGeometryOf(lm, s, ext);
    var normRect := R.Normalize(g.rect, normDivisor);
    var clip := ExtendHeight(ScaleAbout(R.ToClipSpace(normRect), faceCenter, s.scale, ext), s.mP);
    EyeFold(g.m, g.a, g.bL, g.bR, R.RectPair(normRect, clip))
  }

  /** The mouth quad in pixels from the landmarks and the eye's lines. */
  function MouthGeometryOf(lm: Landmarks, s: S.FoldsSettings, m: real, a: real,
                           bL: Option<real>, bR: Option<real>, ext: Externals): (g: MouthGeometry)
    requires |lm.mouth| > 0
    ensures !(bL.Some? && bR.Some?) ==>
      && g.rect.ul.x == g.rect.bl.x == ext.centerPoint(lm.mouth).x - s.mP * Radius(lm.mouth)
      && g.rect.ur.x == g.rect.br.x == ext.centerPoint(lm.mouth).x + s.mP * Radius(lm.mouth)
      && g.rect.ul.y == g.rect.ur.y && g.rect.bl.y == g.rect.br.y
  {
    var p := s.mP * Radius(lm.mouth);
    MouthPixelRect(ext.centerPoint(lm.mouth), p, m, a, bL, bR, ext)
  }

  /** `computeMouthFoldRects`: the texture rect is the normalised pixel rect;
      the clip rect is scaled about the face center and then its sides are
      moved onto the two given eye corners. */
  function ComputeMouthFoldRects(lm: Landmarks, s: S.FoldsSettings, faceCenter: Point, normDivisor: Point,
                                 eyeBottomLeft: Point, eyeBottomRight: Point,
                                 m: real, a: real, bL: Option<real>, bR: Option<real>,
                                 ext: Externals): (rp: R.RectPair)
    requires |lm.mouth| > 0
    requires NonZero(normDivisor)
    ensures rp.textureSpace == R.Normalize(MouthGeometryOf(lm, s, m, a, bL, bR, ext).rect, normDivisor)
    ensures GapClosed(ScaleAbout(R.ToClipSpace(rp.textureSpace), faceCenter, s.scale, ext),
                      rp.clipSpace, eyeBottomLeft, eyeBottomRight)
  {
    var g := MouthGeometryOf(lm, s, m, a, bL, bR, ext);
    var normRect := R.Normalize(g.rect, normDivisor);
    var clip := CloseGap(ScaleAbout(R.ToClipSpace(normRect), faceCenter, s.scale, ext),
                         eyeBottomLeft, eyeBottomRight);
    R.RectPair(normRect, clip)
  }

  /** The jaw outline's center, in clip space. */
  function FaceCenter(lm: Landmarks, normDivisor: Point, ext: Externals): Point
    requires NonZero(normDivisor)
  {
    ToClipSpace(Normalize(ext.centerPoint(lm.jaw), normDivisor))
  }

  /** `generateFolds`: the mouth quad's `bl` and `br` sit on the eye quad's
      `ul` and `ur` in clip space, so the two quads share an edge. */
  function GenerateFolds(lm: Landmarks, normDivisor: Point, s: S.FoldsSettings, ext: Externals): (f: Fold)
    requires WellFormed(lm, normDivisor, ext)
    ensures f.mouth.clipSpace.bl == f.eyes.clipSpace.ul
    ensures f.mouth.clipSpace.br == f.eyes.clipSpace.ur
  {
    var faceCenter := FaceCenter(lm, normDivisor, ext);
    var eye := ComputeEyeFoldRects(lm, s, faceCenter, normDivisor, ext);
    var mouth := ComputeMouthFoldRects(lm, s, faceCenter, normDivisor,
                                       eye.rects.clipSpace.ul, eye.rects.clipSpace.ur,
                                       eye.m, eye.a, eye.bL, eye.bR, ext);
    Fold(eye.rects, mouth)
  }

  // ---------------------------------------------------------------------------
  // Properties of the generated fold

  /** Denormalising the eye texture rect gives back a quad whose `ul`/`ur`
      lie on the upper line and `bl`/`br` on the lower line, and, for a
      sloped eye line, whose left and right sides lie on the perpendicular
      side lines. */
  lemma EyeTextureCornersOnBoundaryLines(lm: Landmarks, normDivisor: Point, s: S.FoldsSettings, ext: Externals)
    requires WellFormed(lm, normDivisor, ext)
    ensures var px := R.Denormalize(GenerateFolds(lm, normDivisor, s, ext).eyes.textureSpace, normDivisor);
            var g := EyeGeometryOf(lm, s, ext);
      && OnLine(px.ul, g.m, g.bU) && OnLine(px.ur, g.m, g.bU)
      && OnLine(px.bl, g.m, g.bB) && OnLine(px.br, g.m, g.bB)
      && (g.m != 0.0 ==>
           && OnPerpendicular(px.ul, g.m, g.bL.value) && OnPerpendicular(px.bl, g.m, g.bL.value)
           && OnPerpendicular(px.ur, g.m, g.bR.value) && OnPerpendicular(px.br, g.m, g.bR.value))
  {
  }

  /** With a sloped eye line, the mouth's sides lie on the eye's side lines
      and its top and bottom are parallel to the eye line. */
  lemma MouthSharesEyeSideLines(lm: Landmarks, normDivisor: Point, s: S.FoldsSettings, ext: Externals)
    requires WellFormed(lm, normDivisor, ext)
    requires EyeGeometryOf(lm, s, ext).m != 0.0
    ensures var px := R.Denormalize(GenerateFolds(lm, normDivisor, s, ext).mouth.textureSpace, normDivisor);
            var e := EyeGeometryOf(lm, s, ext);
            var g := MouthGeometryOf(lm, s, e.m, e.a, e.bL, e.bR, ext);
      && OnPerpendicular(px.ul, e.m, e.bL.value) && OnPerpendicular(px.bl, e.m, e.bL.value)
      && OnPerpendicular(px.ur, e.m, e.bR.value) && OnPerpendicular(px.br, e.m, e.bR.value)
      && OnLine(px.ul, e.m, g.bU) && OnLine(px.ur, e.m, g.bU)
      && OnLine(px.bl, e.m, g.bB) && OnLine(px.br, e.m, g.bB)
  {
  }

  /** Both texture rects of a generated fold are the normalised pixel quads. */
  lemma GeneratedTexturesAreNormalizedPixels(lm: Landmarks, normDivisor: Point, s: S.FoldsSettings, ext: Externals)
    requires WellFormed(lm, normDivisor, ext)
    ensures var f := GenerateFolds(lm, normDivisor, s, ext);
            var e := EyeGeometryOf(lm, s, ext);
            var g := MouthGeometryOf(lm, s, e.m, e.a, e.bL, e.bR, ext);
      && f.eyes.textureSpace == R.Normalize(e.rect, normDivisor)
      && f.mouth.textureSpace == R.Normalize(g.rect, normDivisor)
  {
  }

  /** With a horizontal eye line both generated texture quads are level:
      their top corners share a y and so do their bottom corners. */
  lemma HorizontalEyeLineGivesLevelTextures(lm: Landmarks, normDivisor: Point, s: S.FoldsSettings, ext: Externals)
    requires WellFormed(lm, normDivisor, ext)
    requires EyeGeometryOf(lm, s, ext).m == 0.0
    ensures var f := GenerateFolds(lm, normDivisor, s, ext);
      && f.eyes.textureSpace.ul.y == f.eyes.textureSpace.ur.y
      && f.eyes.textureSpace.bl.y == f.eyes.textureSpace.br.y
      && f.mouth.textureSpace.ul.y == f.mouth.textureSpace.ur.y
      && f.mouth.textureSpace.bl.y == f.mouth.textureSpace.br.y
  {
    var e := EyeGeometryOf(lm, s, ext);
    var g := MouthGeometryOf(lm, s, e.m, e.a, e.bL, e.bR, ext);
    GeneratedTexturesAreNormalizedPixels(lm, normDivisor, s, ext);
    assert e.bL.None?;
    R.LevelStaysLevel(e.rect, normDivisor);
    R.LevelStaysLevel(g.rect, normDivisor);
  }
}

=== FILE: image.dfy ===
/** The image source (src/image.ts): a user-chosen picture. Decoding is the
    browser's: `load` is driven by which image event fires. */
module Image {
  import opened Base
  import opened AppErrors

  /** `hasLoaded` and the dimensions are the source's fields; `urlRevoked`
      records that `destroy` released the object URL. */
  datatype ImageState = ImageState(url: string, hasLoaded: bool, dimensions: Dimensions, urlRevoked: bool)

  /** The event the image element fires after its `src` is set. */
  datatype ImageEvent = OnLoad(width: nat, height: nat) | OnError

  const ImageLoadError: AppError :=
    AppError("ImageLoadErr", Lines(["Image not supported.",
                                    "gif, jpg, png and webp typically work best with this app."]))

  /** `new ImageSource(chosenFile)`: not loaded, 0x0. */
  function NewImage(url: string): (img: ImageState)
    ensures img.url == url && !img.hasLoaded && GetDimensions(img) == Dimensions(0, 0)
  {
    ImageState(url, false, Dimensions(0, 0), false)
  }

  function GetDimensions(img: ImageState): Dimensions {
    img.dimensions
  }

  /** `load`: resolves on `onload` with the decoded size recorded, rejects
      on `onerror` with `ImageLoadErr` and nothing changed. */
  function Load(img: ImageState, event: ImageEvent): (r: Outcome<ImageState, AppError>)
    ensures r.Done? <==> event.OnLoad?
    ensures r.Done? ==>
      && r.state.hasLoaded
      && GetDimensions(r.state) == Dimensions(event.width, event.height)
      && r.state.url == img.url
    ensures r.Threw? ==>
      && r.state == img
      && r.error.name == "ImageLoadErr"
      && Message(r.error) == "Image not supported." + "\r\n" + "gif, jpg, png and webp typically work best with this app."
  {
    match event
    case OnLoad(w, h) => Done(img.(hasLoaded := true, dimensions := Dimensions(w, h)))
    case OnError =>
      MessageOfTwoLines(ImageLoadError.name, ImageLoadError.messageLines.lines[0],
                        ImageLoadError.messageLines.lines[1]);
      Threw(img, ImageLoadError)
  }

  /** `destroy`: releases the URL and clears `hasLoaded`; the last size stays. */
  function Destroy(img: ImageState): (d: ImageState)
    ensures !d.hasLoaded && d.urlRevoked
    ensures d.url == img.url && GetDimensions(d) == GetDimensions(img)
  {
    img.(hasLoaded := false, urlRevoked := true)
  }

  /** `destroy` after a successful load: the flag is cleared but the
      loaded image's size is still reported, and the URL is released. */
  lemma DestroyKeepsLoadedSize(img: ImageState, w: nat, h: nat)
    ensures var d := Destroy(Load(img, OnLoad(w, h)).state);
      !d.hasLoaded && d.urlRevoked && GetDimensions(d) == Dimensions(w, h)
  {
  }
}

=== FILE: ios.dfy ===
/** The iOS test (src/utils/is-on-ios.ts): an iPad, iPhone or iPod user
    agent, or a "Mac" one on a touch screen (iPadOS presents itself as a
    Mac). */
module IOS {
  import opened Base
  import opened Strings

  /** The parts of `navigator` the test reads; `maxTouchPoints` may be
      missing. */
  datatype Navigator = Navigator(userAgent: string, maxTouchPoints: Option<int>)

  /** `/iPad|iPhone|iPod/i.test(userAgent)`. */
  predicate NamesIOSDevice(userAgent: string) {
    ContainsIgnoringCase(userAgent, "iPad")
    || ContainsIgnoringCase(userAgent, "iPhone")
    || ContainsIgnoringCase(userAgent, "iPod")
  }

  /** `isOniOS()`. `env` is `None` when `window` or `navigator` is
      undefined. The source returns `true`, `false`, `null` (no "Mac" in
      the user agent) or the boolean `maxTouchPoints > 2`; the result here
      is its truth value. */
  function IsOnIOS(env: Option<Navigator>): (b: bool)
    ensures env.None? ==> !b
    ensures env.Some? && NamesIOSDevice(env.value.userAgent) ==> b
    ensures env.Some? && !NamesIOSDevice(env.value.userAgent) ==>
      (b <==> (exists i :: MatchesAt(env.value.userAgent, "Mac", i)) && env.value.maxTouchPoints.GetOr(0) > 2)
  {
    match env
    case None => false
    case Some(nav) =>
      if NamesIOSDevice(nav.userAgent) then true
      else ContainsIgnoringCase(nav.userAgent, "Mac") && nav.maxTouchPoints.GetOr(0) > 2
  }

  /** A navigator without `maxTouchPoints` is iOS only by its user agent. */
  lemma MissingTouchPointsNeedsDeviceName(nav: Navigator)
    requires nav.maxTouchPoints.None?
    ensures IsOnIOS(Some(nav)) <==> NamesIOSDevice(nav.userAgent)
  {
  }

  /** Case does not matter: an upper-case "IPHONE" counts. */
  lemma UpperCaseDeviceName(prefix: string, suffix: string)
    ensures IsOnIOS(Some(Navigator(prefix + "IPHONE" + suffix, None)))
  {
    var ua := prefix + "IPHONE" + suffix;
    assert forall k :: 0 <= k < 6 ==> ua[|prefix| + k] == "IPHONE"[k];
    assert MatchesAt(ua, "iPhone", |prefix|);
  }
}

=== FILE: orientation.dfy ===
/** The orientation type the layout follows (src/utils/get-orientation-type.ts,
    repeated as a static method in src/app.tsx): `landscape-` or `portrait-`
    from the media query, then the angle name taken from the screen's own
    orientation type. */
module Orientation {
  import opened Base
  import opened Strings

  /** What `screen?.orientation.type ?? 'unknown'` reads: `None` when there
      is no `screen`. */
  function ScreenType(screenType: Option<string>): (t: string)
    ensures screenType.Some? ==> t == screenType.value
    ensures screenType.None? ==> t == "unknown"
  {
    screenType.GetOr("unknown")
  }

  /** The second `-`-separated segment, or "primary" when there is none. */
  function AngleName(t: string): (a: string)
    ensures |Split(t, '-')| >= 2 ==> a == Split(t, '-')[1]
    ensures |Split(t, '-')| < 2 ==> a == "primary"
  {
    var parts := Split(t, '-');
    if |parts| >= 2 then parts[1] else "primary"
  }

  /** `getOrientationType()`, given whether the landscape media query
      matches and the screen's orientation type. */
  function GetOrientationType(landscape: bool, screenType: Option<string>): (o: string)
    ensures landscape ==> o == "landscape-" + AngleName(ScreenType(screenType))
    ensures !landscape ==> o == "portrait-" + AngleName(ScreenType(screenType))
  {
    (if landscape then "landscape-" else "portrait-") + AngleName(ScreenType(screenType))
  }

  predicate StartsWith(s: string, prefix: string) {
    |prefix| <= |s| && s[..|prefix|] == prefix
  }

  /** The result starts with `landscape-` exactly when the media query
      matches, and with `portrait-` otherwise. */
  lemma PrefixFollowsMediaQuery(landscape: bool, screenType: Option<string>)
    ensures StartsWith(GetOrientationType(landscape, screenType), "landscape-") <==> landscape
    ensures StartsWith(GetOrientationType(landscape, screenType), "portrait-") <==> !landscape
  {
    var a := AngleName(ScreenType(screenType));
    if landscape {
      StartsWithOwnPrefix("landscape-", a);
      DifferentFirstLetter("landscape-", a, "portrait-");
    } else {
      StartsWithOwnPrefix("portrait-", a);
      DifferentFirstLetter("portrait-", a, "landscape-");
    }
  }

  lemma StartsWithOwnPrefix(prefix: string, rest: string)
    ensures StartsWith(prefix + rest, prefix)
  {
    assert (prefix + rest)[..|prefix|] == prefix;
  }

  /** A string cannot start with a prefix whose first letter differs. */
  lemma DifferentFirstLetter(head: string, rest: string, other: string)
    requires |head| > 0 && |other| > 0 && head[0] != other[0]
    ensures !StartsWith(head + rest, other)
  {
    var s := head + rest;
    assert s[0] == head[0];
    if |other| <= |s| {
      assert s[..|other|][0] == s[0];
    }
  }

  /** A type with a dash contributes the segment after its first dash, up
      to the next one. */
  lemma SuffixIsSecondSegment(landscape: bool, first: string, second: string, more: string)
    requires '-' !in first && '-' !in second
    ensures GetOrientationType(landscape, Some(first + "-" + second)) ==
      (if landscape then "landscape-" else "portrait-") + second
    ensures GetOrientationType(landscape, Some(first + "-" + second + "-" + more)) ==
      (if landscape then "landscape-" else "portrait-") + second
  {
    SplitAfterPrefix(first, '-', second);
    SplitWithoutSeparator(second, '-');
    assert first + "-" + second + "-" + more == first + ['-'] + (second + ['-'] + more);
    SplitAfterPrefix(first, '-', second + ['-'] + more);
    SplitAfterPrefix(second, '-', more);
  }

  /** A type without a dash, such as "unknown" when there is no screen,
      gives the angle name "primary". */
  lemma NoDashGivesPrimary(landscape: bool, screenType: Option<string>)
    requires '-' !in ScreenType(screenType)
    ensures GetOrientationType(landscape, screenType) ==
      (if landscape then "landscape-primary" else "portrait-primary")
  {
    DashlessAngleIsPrimary(ScreenType(screenType));
  }

  lemma DashlessAngleIsPrimary(t: string)
    requires '-' !in t
    ensures AngleName(t) == "primary"
  {
    SplitWithoutSeparator(t, '-');
  }

  /** The first segment of the screen's type plays no part. */
  lemma IndependentOfFirstSegment(landscape: bool, a: string, b: string, rest: string)
    requires '-' !in a && '-' !in b
    ensures GetOrientationType(landscape, Some(a + "-" + rest)) == GetOrientationType(landscape, Some(b + "-" + rest))
  {
    SplitAfterPrefix(a, '-', rest);
    SplitAfterPrefix(b, '-', rest);
  }
}

=== FILE: point.dfy ===
/** Point geometry (src/utils/point.ts): bounding over a point list, the
    radius used as the size unit for fold padding, pixel to texture space
    normalisation with its y-flip, and texture to clip space mapping.
    Coordinates are exact reals, not IEEE doubles. */
module Points {
  import opened Base

  datatype Point = Point(x: real, y: real)

  function Add(p: Point, q: Point): Point {
    Point(p.x + q.x, p.y + q.y)
  }

  function Sub(p: Point, q: Point): Point {
    Point(p.x - q.x, p.y - q.y)
  }

  /** Component-wise product, face-api's `Point.mul`. */
  function Mul(p: Point, q: Point): Point {
    Point(p.x * q.x, p.y * q.y)
  }

  // ---------------------------------------------------------------------------
  // Bounding

  /** A coordinate that may be one of the infinities `getMinMax` starts from. */
  datatype Extended = NegInf | Finite(v: real) | PosInf

  predicate AtMost(e: Extended, r: real) {
    e.NegInf? || (e.Finite? && e.v <= r)
  }

  predicate AtLeast(e: Extended, r: real) {
    e.PosInf? || (e.Finite? && e.v >= r)
  }

  /** `Math.min(r, e)` for a finite `r`. */
  function MinWith(r: real, e: Extended): Extended {
    match e
    case NegInf => NegInf
    case Finite(v) => Finite(Min(r, v))
    case PosInf => Finite(r)
  }

  /** `Math.max(r, e)` for a finite `r`. */
  function MaxWith(r: real, e: Extended): Extended {
    match e
    case NegInf => Finite(r)
    case Finite(v) => Finite(Max(r, v))
    case PosInf => PosInf
  }

  datatype ExtPoint = ExtPoint(x: Extended, y: Extended)

  datatype MinMax = MinMax(min: ExtPoint, max: ExtPoint)

  /** The seed of the reduction: min at +infinity, max at -infinity. */
  const WorstMinMax: MinMax := MinMax(ExtPoint(PosInf, PosInf), ExtPoint(NegInf, NegInf))

  /** One step of the reduction in `getMinMax`. */
  function MinMaxStep(acc: MinMax, p: Point): MinMax {
    MinMax(ExtPoint(MinWith(p.x, acc.min.x), MinWith(p.y, acc.min.y)),
           ExtPoint(MaxWith(p.x, acc.max.x), MaxWith(p.y, acc.max.y)))
  }

  predicate Bounds(mm: MinMax, p: Point) {
    AtMost(mm.min.x, p.x) && AtMost(mm.min.y, p.y) && AtLeast(mm.max.x, p.x) && AtLeast(mm.max.y, p.y)
  }

  predicate IsFinite(e: ExtPoint) {
    e.x.Finite? && e.y.Finite?
  }

  /** The reduction of `getMinMax`, folded from the left over `pts`. */
  function GetMinMax(pts: seq<Point>): (r: MinMax)
    ensures |pts| == 0 ==> r == WorstMinMax
    ensures |pts| > 0 ==> IsFinite(r.min) && IsFinite(r.max)
    ensures forall i :: 0 <= i < |pts| ==> Bounds(r, pts[i])
    ensures |pts| > 0 ==> exists i :: 0 <= i < |pts| && r.min.x == Finite(pts[i].x)
    ensures |pts| > 0 ==> exists i :: 0 <= i < |pts| && r.min.y == Finite(pts[i].y)
    ensures |pts| > 0 ==> exists i :: 0 <= i < |pts| && r.max.x == Finite(pts[i].x)
    ensures |pts| > 0 ==> exists i :: 0 <= i < |pts| && r.max.y == Finite(pts[i].y)
    decreases |pts|
  {
    if |pts| == 0 then WorstMinMax
    else
      var init := pts[..|pts| - 1];
      var last := pts[|pts| - 1];
      var acc := GetMinMax(init);
      assert forall i :: 0 <= i < |init| ==> init[i] == pts[i];
      MinMaxStep(acc, last)
  }

  // ---------------------------------------------------------------------------
  // Radius

  /** `a - b` on extended reals; infinity minus the same infinity is NaN in
      JavaScript and never arises here. */
  function ExtSub(a: Extended, b: Extended): Extended
    requires !(a.PosInf? && b.PosInf?) && !(a.NegInf? && b.NegInf?)
  {
    match a
    case NegInf => NegInf
    case PosInf => PosInf
    case Finite(u) =>
      match b
      case Finite(w) => Finite(u - w)
      case NegInf => PosInf
      case PosInf => NegInf
  }

  function ExtMax(a: Extended, b: Extended): Extended {
    match a
    case NegInf => b
    case PosInf => PosInf
    case Finite(u) =>
      match b
      case NegInf => a
      case PosInf => PosInf
      case Finite(w) => Finite(Max(u, w))
  }

  function ExtHalf(a: Extended): Extended {
    match a
    case Finite(u) => Finite(u / 2.0)
    case _ => a
  }

  /** `getRadius`: half the larger of the x and y extents of the points.
      On an empty list both extents are -infinity, and so is the radius. */
  function GetRadius(pts: seq<Point>): (r: Extended)
    ensures |pts| == 0 <==> r == NegInf
    ensures |pts| > 0 ==> r.Finite? && r.v >= 0.0
    ensures |pts| > 0 ==> forall i, j :: 0 <= i < |pts| && 0 <= j < |pts| ==>
      pts[i].x - pts[j].x <= 2.0 * r.v && pts[i].y - pts[j].y <= 2.0 * r.v
    ensures |pts| > 0 ==>
      exists i, j :: 0 <= i < |pts| && 0 <= j < |pts| && (pts[i].x - pts[j].x == 2.0 * r.v || pts[i].y - pts[j].y == 2.0 * r.v)
  {
    var mm := GetMinMax(pts);
    ExtHalf(ExtMax(ExtSub(mm.max.x, mm.min.x), ExtSub(mm.max.y, mm.min.y)))
  }

  /** The radius of a non-empty list as a plain real. */
  function Radius(pts: seq<Point>): (r: real)
    requires |pts| > 0
    ensures GetRadius(pts) == Finite(r)
  {
    GetRadius(pts).v
  }

  /** Every point moved by `d`. */
  function Translate(pts: seq<Point>, d: Point): (t: seq<Point>)
    ensures |t| == |pts|
    ensures forall i :: 0 <= i < |pts| ==> t[i] == Add(pts[i], d)
  {
    seq(|pts|, i requires 0 <= i < |pts| => Add(pts[i], d))
  }

  function ShiftExt(e: Extended, r: real): Extended {
    match e
    case Finite(v) => Finite(v + r)
    case _ => e
  }

  function ShiftMinMax(mm: MinMax, d: Point): MinMax {
    MinMax(ExtPoint(ShiftExt(mm.min.x, d.x), ShiftExt(mm.min.y, d.y)),
           ExtPoint(ShiftExt(mm.max.x, d.x), ShiftExt(mm.max.y, d.y)))
  }

  /** Translating the points translates their bounds. */
  lemma {:induction false} MinMaxTranslate(pts: seq<Point>, d: Point)
    ensures GetMinMax(Translate(pts, d)) == ShiftMinMax(GetMinMax(pts), d)
    decreases |pts|
  {
    if |pts| > 0 {
      var t := Translate(pts, d);
      var init := pts[..|pts| - 1];
      assert t[..|t| - 1] == Translate(init, d);
      MinMaxTranslate(init, d);
      StepTranslate(GetMinMax(init), pts[|pts| - 1], d);
    }
  }

  lemma StepTranslate(acc: MinMax, p: Point, d: Point)
    ensures MinMaxStep(ShiftMinMax(acc, d), Add(p, d)) == ShiftMinMax(MinMaxStep(acc, p), d)
  {
  }

  /** The radius does not depend on where the points are, only on their spread. */
  lemma RadiusTranslationInvariant(pts: seq<Point>, d: Point)
    ensures GetRadius(Translate(pts, d)) == GetRadius(pts)
  {
    MinMaxTranslate(pts, d);
    if |pts| > 0 {
      var mm := GetMinMax(pts);
      var xs := ExtSub(mm.max.x, mm.min.x);
      var ys := ExtSub(mm.max.y, mm.min.y);
      assert ExtSub(ShiftExt(mm.max.x, d.x), ShiftExt(mm.min.x, d.x)) == xs;
      assert ExtSub(ShiftExt(mm.max.y, d.y), ShiftExt(mm.min.y, d.y)) == ys;
    }
  }

  /** Points that all coincide have radius zero. */
  lemma RadiusOfCoincidentPoints(pts: seq<Point>)
    requires |pts| > 0
    requires forall i :: 0 <= i < |pts| ==> pts[i] == pts[0]
    ensures GetRadius(pts) == Finite(0.0)
  {
  }

  // ---------------------------------------------------------------------------
  // Coordinate spaces

  predicate NonZero(divisor: Point) {
    divisor.x != 0.0 && divisor.y != 0.0
  }

  /** `normalize`: pixel to texture space, dividing by `divisor` and flipping y
      because image rows run top to bottom while texture v runs bottom to top. */
  function Normalize(p: Point, divisor: Point): (q: Point)
    requires NonZero(divisor)
    ensures Denormalize(q, divisor) == p
  {
    Point(p.x / divisor.x, 1.0 - (p.y / divisor.y))
  }

  /** The inverse of `Normalize` for the same divisor. */
  function Denormalize(q: Point, divisor: Point): Point {
    Point(q.x * divisor.x, (1.0 - q.y) * divisor.y)
  }

  lemma NormalizeDenormalize(q: Point, divisor: Point)
    requires NonZero(divisor)
    ensures Normalize(Denormalize(q, divisor), divisor) == q
  {
  }

  /** The top image row maps to texture v = 1 and the bottom row to v = 0. */
  lemma NormalizeFlipsY(x: real, divisor: Point)
    requires NonZero(divisor)
    ensures Normalize(Point(x, 0.0), divisor).y == 1.0
    ensures Normalize(Point(x, divisor.y), divisor).y == 0.0
  {
  }

  predicate InBox(p: Point, lo: real, hi: real) {
    lo <= p.x <= hi && lo <= p.y <= hi
  }

  predicate InFrame(p: Point, divisor: Point) {
    0.0 <= p.x <= divisor.x && 0.0 <= p.y <= divisor.y
  }

  /** The pixel frame `[0, d.x] x [0, d.y]` lands inside `[0, 1]^2`. */
  lemma NormalizeIntoUnitSquare(p: Point, divisor: Point)
    requires divisor.x > 0.0 && divisor.y > 0.0
    requires InFrame(p, divisor)
    ensures InBox(Normalize(p, divisor), 0.0, 1.0)
  {
    QuotientWithinOne(p.x, divisor.x);
    QuotientWithinOne(p.y, divisor.y);
  }

  /** A share of a positive whole lies between 0 and 1. */
  lemma QuotientWithinOne(a: real, b: real)
    requires 0.0 <= a <= b && b > 0.0
    ensures 0.0 <= a / b <= 1.0
  {
    var q := a / b;
    assert q * b == a;
    assert (1.0 - q) * b == b - a;
    ProductSign(q, b);
    ProductSign(1.0 - q, b);
  }

  /** A product with a positive factor has the other factor's sign. */
  lemma ProductSign(x: real, b: real)
    requires b > 0.0
    ensures x * b >= 0.0 ==> x >= 0.0
  {
  }

  /** `toClipSpace`: `2p - 1` on both axes. */
  function ToClipSpace(p: Point): (q: Point)
    ensures FromClipSpace(q) == p
  {
    Sub(Mul(p, Point(2.0, 2.0)), Point(1.0, 1.0))
  }

  /** The inverse of `ToClipSpace`: `(q + 1) / 2`. */
  function FromClipSpace(q: Point): Point {
    Point((q.x + 1.0) / 2.0, (q.y + 1.0) / 2.0)
  }

  lemma ClipSpaceRoundTrip(q: Point)
    ensures ToClipSpace(FromClipSpace(q)) == q
  {
  }

  /** 0 maps to -1, 1 maps to 1, and the map is strictly increasing per axis. */
  lemma ClipSpaceEndpointsAndOrder(p: Point, q: Point)
    ensures p.x == 0.0 ==> ToClipSpace(p).x == -1.0
    ensures p.y == 0.0 ==> ToClipSpace(p).y == -1.0
    ensures p.x == 1.0 ==> ToClipSpace(p).x == 1.0
    ensures p.y == 1.0 ==> ToClipSpace(p).y == 1.0
    ensures p.x < q.x <==> ToClipSpace(p).x < ToClipSpace(q).x
    ensures p.y < q.y <==> ToClipSpace(p).y < ToClipSpace(q).y
  {
  }

  /** The unit square lands inside the clip square `[-1, 1]^2`. */
  lemma ClipSpaceOfUnitSquare(p: Point)
    requires InBox(p, 0.0, 1.0)
    ensures InBox(ToClipSpace(p), -1.0, 1.0)
  {
  }
}

=== FILE: rect.dfy ===
/** Four-corner fold rectangles (src/types/rect.ts, src/types/face.ts) and the
    corner-wise lifting of the point maps. A `Rect` is any quadrilateral; its
    corners are named, never reordered. */
module Rects {
  import P = Points

  datatype Rect = Rect(ul: P.Point, ur: P.Point, br: P.Point, bl: P.Point)

  /** A rect in texture space ([0, 1]) and in clip space ([-1, 1]). */
  datatype RectPair = RectPair(textureSpace: Rect, clipSpace: Rect)

  datatype Corner = UL | UR | BR | BL

  function At(r: Rect, c: Corner): P.Point {
    match c
    case UL => r.ul
    case UR => r.ur
    case BR => r.br
    case BL => r.bl
  }

  /** `normalize` of a rect: each output corner is the normalised corner of
      the same name, and the rect is recovered by denormalising. */
  function Normalize(r: Rect, divisor: P.Point): (n: Rect)
    requires P.NonZero(divisor)
    ensures forall c :: At(n, c) == P.Normalize(At(r, c), divisor)
    ensures Denormalize(n, divisor) == r
  {
    Rect(P.Normalize(r.ul, divisor), P.Normalize(r.ur, divisor),
         P.Normalize(r.br, divisor), P.Normalize(r.bl, divisor))
  }

  function Denormalize(n: Rect, divisor: P.Point): Rect {
    Rect(P.Denormalize(n.ul, divisor), P.Denormalize(n.ur, divisor),
         P.Denormalize(n.br, divisor), P.Denormalize(n.bl, divisor))
  }

  /** `toClipSpace` of a rect: each output corner is the mapped corner of the
      same name, and the rect is recovered by the inverse map. */
  function ToClipSpace(r: Rect): (c: Rect)
    ensures forall k :: At(c, k) == P.ToClipSpace(At(r, k))
    ensures FromClipSpace(c) == r
  {
    Rect(P.ToClipSpace(r.ul), P.ToClipSpace(r.ur), P.ToClipSpace(r.br), P.ToClipSpace(r.bl))
  }

  function FromClipSpace(c: Rect): Rect {
    Rect(P.FromClipSpace(c.ul), P.FromClipSpace(c.ur), P.FromClipSpace(c.br), P.FromClipSpace(c.bl))
  }

  /** Corners that share a coordinate still share it after either map: an
      axis-aligned edge stays axis-aligned. */
  lemma MapsKeepSharedCoordinates(r: Rect, divisor: P.Point, c1: Corner, c2: Corner)
    requires P.NonZero(divisor)
    ensures At(r, c1).x == At(r, c2).x ==> At(Normalize(r, divisor), c1).x == At(Normalize(r, divisor), c2).x
    ensures At(r, c1).y == At(r, c2).y ==> At(Normalize(r, divisor), c1).y == At(Normalize(r, divisor), c2).y
    ensures At(r, c1).x == At(r, c2).x ==> At(ToClipSpace(r), c1).x == At(ToClipSpace(r), c2).x
    ensures At(r, c1).y == At(r, c2).y ==> At(ToClipSpace(r), c1).y == At(ToClipSpace(r), c2).y
  {
  }

  predicate Level(r: Rect) {
    r.ul.y == r.ur.y && r.bl.y == r.br.y
  }

  /** A level rect (top corners at one height, bottom corners at another)
      stays level when normalised. */
  lemma LevelStaysLevel(r: Rect, divisor: P.Point)
    requires P.NonZero(divisor)
    requires Level(r)
    ensures Level(Normalize(r, divisor))
  {
  }

  predicate InFrame(r: Rect, divisor: P.Point) {
    forall c :: P.InFrame(At(r, c), divisor)
  }

  predicate InClipSquare(r: Rect) {
    forall c :: P.InBox(At(r, c), -1.0, 1.0)
  }

  /** A rect inside the pixel frame lands inside the clip square. */
  lemma FrameToClipSquare(r: Rect, divisor: P.Point)
    requires divisor.x > 0.0 && divisor.y > 0.0
    requires InFrame(r, divisor)
    ensures InClipSquare(ToClipSpace(Normalize(r, divisor)))
  {
    forall c: Corner
      ensures P.InBox(At(ToClipSpace(Normalize(r, divisor)), c), -1.0, 1.0)
    {
      P.NormalizeIntoUnitSquare(At(r, c), divisor);
      P.ClipSpaceOfUnitSquare(P.Normalize(At(r, c), divisor));
    }
  }
}

=== FILE: render_canvas.dfy ===
/** The render canvas (src/render-canvas.tsx): a resize observer records
    each observed element's display size in device pixels, and
    `resizeToContainer` copies the recorded size onto the canvas. Elements
    are identified by number. */
module RenderCanvas {
  import opened Base

  /** A width and height as the canvas and the size map hold them. */
  datatype Size = Size(width: int, height: int)

  /** The drawing buffer size JavaScript gives a new canvas. */
  const DefaultCanvasSize: Size := Size(300, 150)

  datatype Canvas = Canvas(id: nat, size: Size)

  /** `canvas` is `ref.current` (absent before mounting); `sizes` is
      `canvasCtrSizeMap`; `observing` whether the observer watches the
      canvas. */
  datatype CanvasState = CanvasState(canvas: Option<Canvas>, sizes: map<nat, Size>, observing: bool)

  /** `Math.round`: the nearest integer, halves rounded up. */
  function Round(x: real): (n: int)
    ensures n as real <= x + 0.5 < n as real + 1.0
  {
    (x + 0.5).Floor
  }

  /** The part of a `ResizeObserverSize` the component reads. */
  datatype BoxSize = BoxSize(inlineSize: real, blockSize: real)

  /** One observer entry: its target, `contentRect`, the window's device
      pixel ratio, and the device-pixel and content box sizes when the
      browser reports them (either shape of `contentBoxSize` gives the same
      box). */
  datatype ResizeEntry = ResizeEntry(
    target: nat,
    contentRect: BoxSize,
    dpr: real,
    devicePixelBox: Option<BoxSize>,
    contentBox: Option<BoxSize>)

  /** The display size `onResize` records for one entry. */
  function DisplaySize(e: ResizeEntry): (s: Size)
    ensures e.devicePixelBox.Some? ==>
      s == Size(Round(e.devicePixelBox.value.inlineSize), Round(e.devicePixelBox.value.blockSize))
    ensures e.devicePixelBox.None? && e.contentBox.Some? ==>
      s == Size(Round(e.contentBox.value.inlineSize * e.dpr), Round(e.contentBox.value.blockSize * e.dpr))
    ensures e.devicePixelBox.None? && e.contentBox.None? ==>
      s == Size(Round(e.contentRect.inlineSize * e.dpr), Round(e.contentRect.blockSize * e.dpr))
  {
    var (box, dpr) :=
      if e.devicePixelBox.Some? then (e.devicePixelBox.value, 1.0)
      else if e.contentBox.Some? then (e.contentBox.value, e.dpr)
      else (e.contentRect, e.dpr);
    Size(Round(box.inlineSize * dpr), Round(box.blockSize * dpr))
  }

  /** A device-pixel box of whole pixels is recorded as it is. */
  lemma WholeDevicePixelsKept(e: ResizeEntry, w: int, h: int)
    requires e.devicePixelBox == Some(BoxSize(w as real, h as real))
    ensures DisplaySize(e) == Size(w, h)
  {
  }

  /** `e` is the last entry in `entries` for its target. */
  predicate LastFor(entries: seq<ResizeEntry>, i: int) {
    0 <= i < |entries| && forall j :: i < j < |entries| ==> entries[j].target != entries[i].target
  }

  /** What applying `entries` to `sizes` must give: the named targets are
      added, elements no entry names keep their size, and each target gets
      the size of its last entry. */
  ghost predicate Resized(sizes: map<nat, Size>, entries: seq<ResizeEntry>, r: map<nat, Size>) {
    && r.Keys == sizes.Keys + (set e | e in entries :: e.target)
    && (forall k :: k in sizes && (forall e :: e in entries ==> e.target != k) ==> r[k] == sizes[k])
    && (forall i :: LastFor(entries, i) ==> r[entries[i].target] == DisplaySize(entries[i]))
  }

  /** `onResize`: the entries are applied in order, so the last one for a
      target wins; elements no entry names keep their size. */
  function OnResize(sizes: map<nat, Size>, entries: seq<ResizeEntry>): (r: map<nat, Size>)
    ensures r.Keys == sizes.Keys + set e | e in entries :: e.target
    ensures forall k :: k in sizes && (forall e :: e in entries ==> e.target != k) ==> r[k] == sizes[k]
    ensures forall i :: LastFor(entries, i) ==> r[entries[i].target] == DisplaySize(entries[i])
    decreases |entries|
  {
    if |entries| == 0 then sizes
    else
      var e := entries[0];
      var r := OnResize(sizes[e.target := DisplaySize(e)], entries[1..]);
      ResizeKeysStep(sizes, entries, r);
      ResizeUntouchedStep(sizes, entries, r);
      ResizeLastStep(sizes, entries, r);
      r
  }

  /** Applying the first entry and then the rest names the same targets. */
  lemma ResizeKeysStep(sizes: map<nat, Size>, entries: seq<ResizeEntry>, r: map<nat, Size>)
    requires |entries| > 0
    requires Resized(sizes[entries[0].target := DisplaySize(entries[0])], entries[1..], r)
    ensures r.Keys == sizes.Keys + (set e | e in entries :: e.target)
  {
    assert forall x :: x in entries <==> x == entries[0] || x in entries[1..];
  }

  /** ... and leaves the same elements alone. */
  lemma ResizeUntouchedStep(sizes: map<nat, Size>, entries: seq<ResizeEntry>, r: map<nat, Size>)
    requires |entries| > 0
    requires Resized(sizes[entries[0].target := DisplaySize(entries[0])], entries[1..], r)
    ensures forall k :: k in sizes && (forall e :: e in entries ==> e.target != k) ==> r[k] == sizes[k]
  {
    assert forall x :: x in entries[1..] ==> x in entries;
  }

  /** ... and gives each target the size of its last entry. */
  lemma ResizeLastStep(sizes: map<nat, Size>, entries: seq<ResizeEntry>, r: map<nat, Size>)
    requires |entries| > 0
    requires Resized(sizes[entries[0].target := DisplaySize(entries[0])], entries[1..], r)
    ensures forall i :: LastFor(entries, i) ==> r[entries[i].target] == DisplaySize(entries[i])
  {
    var e := entries[0];
    var rest := entries[1..];
    assert forall i :: LastFor(entries, i) && i > 0 ==> LastFor(rest, i - 1);
    assert LastFor(entries, 0) ==> forall x :: x in rest ==> x.target != e.target;
  }

  /** The observer callback on a state. */
  function Observe(st: CanvasState, entries: seq<ResizeEntry>): (t: CanvasState)
    ensures t.canvas == st.canvas && t.observing == st.observing
    ensures t.sizes == OnResize(st.sizes, entries)
  {
    st.(sizes := OnResize(st.sizes, entries))
  }

  /** `new RenderCanvas()` before mounting. */
  function NewRenderCanvas(): (st: CanvasState)
    ensures st.canvas.None? && st.sizes == map[] && !st.observing
  {
    CanvasState(None, map[], false)
  }

  /** Mounting attaches a new canvas element. */
  function Mount(st: CanvasState, id: nat): (t: CanvasState)
    ensures t.canvas == Some(Canvas(id, DefaultCanvasSize)) && t.sizes == st.sizes
  {
    st.(canvas := Some(Canvas(id, DefaultCanvasSize)))
  }

  /** `watchForResizes`: seeds the canvas's entry with 300x150 and starts
      observing it; without a canvas nothing happens. */
  function WatchForResizes(st: CanvasState): (t: CanvasState)
    ensures st.canvas.None? ==> t == st
    ensures st.canvas.Some? ==>
      && t.canvas == st.canvas && t.observing
      && t.sizes == st.sizes[st.canvas.value.id := Size(300, 150)]
  {
    match st.canvas
    case None => st
    case Some(c) => st.(sizes := st.sizes[c.id := DefaultCanvasSize], observing := true)
  }

  /** `stopWatchingForResizes`: the recorded sizes stay. */
  function StopWatchingForResizes(st: CanvasState): (t: CanvasState)
    ensures st.canvas.None? ==> t == st
    ensures st.canvas.Some? ==> t == st.(observing := false)
  {
    if st.canvas.None? then st else st.(observing := false)
  }

  /** What `resizeToContainer` returned (`None` for `undefined`) and the
      state after it. */
  datatype ResizeOutcome = ResizeOutcome(returned: Option<bool>, state: CanvasState)

  /** `resizeToContainer`: copies the recorded size onto the canvas and
      reports whether that changed it. */
  function ResizeToContainer(st: CanvasState): (r: ResizeOutcome)
    ensures st.canvas.None? ==> r == ResizeOutcome(None, st)
    ensures st.canvas.Some? && st.canvas.value.id !in st.sizes ==> r == ResizeOutcome(Some(false), st)
    ensures st.canvas.Some? && st.canvas.value.id in st.sizes ==>
      && r.returned == Some(st.canvas.value.size != st.sizes[st.canvas.value.id])
      && r.state == st.(canvas := Some(st.canvas.value.(size := st.sizes[st.canvas.value.id])))
  {
    match st.canvas
    case None => ResizeOutcome(None, st)
    case Some(c) =>
      if c.id !in st.sizes then ResizeOutcome(Some(false), st)
      else
        var recorded := st.sizes[c.id];
        var resize := c.size.width != recorded.width || c.size.height != recorded.height;
        if resize then ResizeOutcome(Some(true), st.(canvas := Some(c.(size := recorded))))
        else ResizeOutcome(Some(false), st)
  }

  /** A second `resizeToContainer` right after the first changes nothing
      and does not report a change. */
  lemma ResizeIdempotent(st: CanvasState)
    ensures var r2 := ResizeToContainer(ResizeToContainer(st).state);
      r2.state == ResizeToContainer(st).state && r2.returned != Some(true)
  {
  }

  /** After a resize the canvas has the recorded size of its container. */
  lemma ResizeMatchesContainer(st: CanvasState)
    requires st.canvas.Some? && st.canvas.value.id in st.sizes
    ensures ResizeToContainer(st).state.canvas.value.size == st.sizes[st.canvas.value.id]
  {
  }

  /** A freshly mounted and watched canvas is already 300x150, so the
      first resize before any observer report changes nothing. */
  lemma FirstResizeAfterMountIsNoOp(id: nat)
    ensures var st := WatchForResizes(Mount(NewRenderCanvas(), id));
      ResizeToContainer(st) == ResizeOutcome(Some(false), st)
  {
  }
}

=== FILE: renderer.dfy ===
/** The renderer (src/renderer.ts). WebGL is abstracted twice: the outcome
    of every object-creating call is an input (`GLEnv`), and everything a
    frame does is a list of `GLCommand`s that a small interpreter (`Exec`)
    turns into the quads the GPU is asked to draw. */
module Renderer {
  import opened Base
  import opened AppErrors
  import P = Points
  import R = Rects
  import FG = FoldGenerator
  import Src = Sources

  // ---------------------------------------------------------------------------
  // The full-screen quad

  /** Clip-space corners in the order bl, br, ur, ul. */
  const FullQuadVertices: seq<real> := [-1.0, -1.0, 1.0, -1.0, 1.0, 1.0, -1.0, 1.0]

  /** The bottom-right triangle (0, 1, 2) and the upper-left one (0, 2, 3). */
  const FullQuadIndices: seq<nat> := [0, 1, 2, 0, 2, 3]

  /** Texture-space corners in the order bl, br, ur, ul. */
  const FullQuadTexcoords: seq<real> := [0.0, 0.0, 1.0, 0.0, 1.0, 1.0, 0.0, 1.0]

  /** `drawQuad`'s vertex count. */
  const QuadVertexCount: nat := 6

  /** The 1x1 RGBA pixel a new texture holds until a source is uploaded. */
  const InitialTexel: seq<nat> := [10, 10, 20, 255]

  /** The eight numbers a fold quad writes into a buffer: x and y of the
      corners bl, br, ur, ul, in that order. */
  function CornerData(r: R.Rect): (d: seq<real>)
    ensures |d| == 8
    ensures d[0] == r.bl.x && d[1] == r.bl.y && d[2] == r.br.x && d[3] == r.br.y
    ensures d[4] == r.ur.x && d[5] == r.ur.y && d[6] == r.ul.x && d[7] == r.ul.y
  {
    [r.bl.x, r.bl.y, r.br.x, r.br.y, r.ur.x, r.ur.y, r.ul.x, r.ul.y]
  }

  /** The whole frame as a clip-space rect and as a texture-space rect. */
  const FullClipRect: R.Rect :=
    R.Rect(P.Point(-1.0, 1.0), P.Point(1.0, 1.0), P.Point(1.0, -1.0), P.Point(-1.0, -1.0))

  const FullTextureRect: R.Rect :=
    R.Rect(P.Point(0.0, 1.0), P.Point(1.0, 1.0), P.Point(1.0, 0.0), P.Point(0.0, 0.0))

  /** The background constants are the corner data of the full frame, so a
      fold quad's corner order mirrors the background's. */
  lemma BackgroundIsFullFrame()
    ensures CornerData(FullClipRect) == FullQuadVertices
    ensures CornerData(FullTextureRect) == FullQuadTexcoords
    ensures BackgroundQuad() == FoldQuad(R.RectPair(FullTextureRect, FullClipRect))
  {
    var c, t := CornerData(FullClipRect), CornerData(FullTextureRect);
    assert c == [c[0], c[1], c[2], c[3], c[4], c[5], c[6], c[7]];
    assert t == [t[0], t[1], t[2], t[3], t[4], t[5], t[6], t[7]];
  }

  /** The index buffer addresses only the four corners, uses every one of
      them, and holds as many indices as `drawQuad` draws. */
  lemma IndexBufferCoversQuad()
    ensures |FullQuadIndices| == QuadVertexCount
    ensures |FullQuadVertices| == 2 * 4 && |FullQuadTexcoords| == 2 * 4
    ensures forall i :: 0 <= i < |FullQuadIndices| ==> FullQuadIndices[i] < 4
    ensures forall v: nat :: v < 4 ==> v in FullQuadIndices
  {
    assert FullQuadIndices[0] == 0 && FullQuadIndices[1] == 1;
    assert FullQuadIndices[2] == 2 && FullQuadIndices[5] == 3;
  }

  // ---------------------------------------------------------------------------
  // Context creation

  datatype GLVersion = WebGL1 | WebGL2

  datatype ShaderKind = VertexShader | FragmentShader

  datatype ShaderFile = Gl2Vert | Gl1Vert | Gl2Frag | Gl1Frag

  /** The shader source files, under `src/shaders/`. */
  function ShaderPath(f: ShaderFile): string {
    match f
    case Gl2Vert => "2d.vert"
    case Gl1Vert => "2d-gl1.vert"
    case Gl2Frag => "2d.frag"
    case Gl1Frag => "2d-gl1.frag"
  }

  datatype BufferRole = PositionBuffer | TexCoordBuffer | IndexBuffer

  /** What the browser's WebGL calls return: which contexts exist, whether
      each object is created, the compiler's log for a shader that fails
      to compile and the linker's log when linking fails. */
  datatype GLEnv = GLEnv(
    webgl2: bool,
    webgl1: bool,
    shaderCreated: ShaderKind -> bool,
    compileLog: ShaderFile -> Option<string>,
    programCreated: bool,
    linkLog: Option<string>,
    bufferCreated: BufferRole -> bool,
    textureCreated: bool)

  datatype Program = Program(vertex: ShaderFile, fragment: ShaderFile)

  /** The buffers' initial contents. */
  datatype Buffers = Buffers(position: seq<real>, texCoord: seq<real>, index: seq<nat>)

  datatype Context = Context(version: GLVersion, program: Program, buffers: Buffers, texture: seq<nat>)

  const WebGLUnsupportedError: AppError :=
    AppError("WebGLUnsupportedErr", Lines(["This app requires your browser to support WebGL.",
                                           "It could also be disabled. Please check your browser settings."]))

  const ShaderCreationError: AppError := AppError("ShaderCreationErr", Text("Error occurred creating a shader."))

  const CompilePrefix: string := "Error occurred compiling a shader: "

  const ProgramCreationError: AppError :=
    AppError("ShaderProgramCreationErr", Text("Error occurred creating the shader program."))

  const LinkPrefix: string := "Error occurred linking a shader: "

  const PositionBufferError: AppError :=
    AppError("PositionBufferCreationErr", Text("Error occurred creating position buffer."))

  const TexCoordBufferError: AppError :=
    AppError("TexCoordBufferCreationErr", Text("Error occurred creating texture coord buffer."))

  const IndexBufferError: AppError :=
    AppError("IndexBufferCreationErr", Text("Error occurred creating index buffer."))

  const TextureError: AppError := AppError("TextureCreationErr", Text("Error occurred creating the source texture."))

  /** `canvas.getContext`: WebGL 2, else WebGL 1, else `WebGLUnsupportedErr`. */
  function GetContext(env: GLEnv): (r: Result<GLVersion, AppError>)
    ensures r == Ok(WebGL2) <==> env.webgl2
    ensures r == Ok(WebGL1) <==> !env.webgl2 && env.webgl1
    ensures r.Err? <==> !env.webgl2 && !env.webgl1
    ensures r.Err? ==> r.error == WebGLUnsupportedError
  {
    if env.webgl2 then Ok(WebGL2)
    else if env.webgl1 then Ok(WebGL1)
    else Err(WebGLUnsupportedError)
  }

  function VertexShaderFile(v: GLVersion): ShaderFile {
    if v == WebGL2 then Gl2Vert else Gl1Vert
  }

  function FragmentShaderFile(v: GLVersion): ShaderFile {
    if v == WebGL2 then Gl2Frag else Gl1Frag
  }

  /** `loadShader`: creation, then compilation, each with its own error. */
  function LoadShader(env: GLEnv, kind: ShaderKind, file: ShaderFile): (r: Result<ShaderFile, AppError>)
    ensures r.Ok? <==> env.shaderCreated(kind) && env.compileLog(file).None?
    ensures r.Ok? ==> r.value == file
    ensures !env.shaderCreated(kind) ==> r == Err(ShaderCreationError)
    ensures env.shaderCreated(kind) && env.compileLog(file).Some? ==>
      && r.Err? && r.error.name == "ShaderCompilationErr"
      && Message(r.error) == CompilePrefix + env.compileLog(file).value
  {
    if !env.shaderCreated(kind) then Err(ShaderCreationError)
    else match env.compileLog(file)
      case Some(log) => Err(AppError("ShaderCompilationErr", Text(CompilePrefix + log)))
      case None => Ok(file)
  }

  /** `initShaderProgram`: the vertex shader, then the fragment shader, of
      the version's pair; then the program, then linking. */
  function InitShaderProgram(env: GLEnv, version: GLVersion): (r: Result<Program, AppError>)
    ensures var vs := LoadShader(env, VertexShader, VertexShaderFile(version));
            var fs := LoadShader(env, FragmentShader, FragmentShaderFile(version));
      && (r.Ok? <==> vs.Ok? && fs.Ok? && env.programCreated && env.linkLog.None?)
      && (r.Ok? ==> r.value == Program(VertexShaderFile(version), FragmentShaderFile(version)))
      && (vs.Err? ==> r == vs.PropagateFailure())
      && (vs.Ok? && fs.Err? ==> r == fs.PropagateFailure())
      && (vs.Ok? && fs.Ok? && !env.programCreated ==> r == Err(ProgramCreationError))
      && (vs.Ok? && fs.Ok? && env.programCreated && env.linkLog.Some? ==>
            r.Err? && r.error.name == "ShaderLinkErr" && Message(r.error) == LinkPrefix + env.linkLog.value)
  {
    var vert :- LoadShader(env, VertexShader, VertexShaderFile(version));
    var frag :- LoadShader(env, FragmentShader, FragmentShaderFile(version));
    if !env.programCreated then Err(ProgramCreationError)
    else match env.linkLog
      case Some(log) => Err(AppError("ShaderLinkErr", Text(LinkPrefix + log)))
      case None => Ok(Program(vert, frag))
  }

  /** The error `initBuffers` raises when the buffer `role` is not created,
      as each `init...Buffer` function writes it: the index buffer's reuses
      the position buffer's name and message. */
  function BufferErrorAsWritten(role: BufferRole): AppError {
    match role
    case PositionBuffer => PositionBufferError
    case TexCoordBuffer => TexCoordBufferError
    case IndexBuffer => PositionBufferError
  }

  /** The error each buffer's failure evidently means to raise. */
  function BufferError(role: BufferRole): AppError {
    match role
    case PositionBuffer => PositionBufferError
    case TexCoordBuffer => TexCoordBufferError
    case IndexBuffer => IndexBufferError
  }

  /** The first buffer, in creation order, that is not created. */
  function FirstFailedBuffer(env: GLEnv): (f: Option<BufferRole>)
    ensures f.None? <==> env.bufferCreated(PositionBuffer) && env.bufferCreated(TexCoordBuffer) && env.bufferCreated(IndexBuffer)
    ensures f.Some? ==> !env.bufferCreated(f.value)
    ensures f == Some(TexCoordBuffer) ==> env.bufferCreated(PositionBuffer)
    ensures f == Some(IndexBuffer) ==> env.bufferCreated(PositionBuffer) && env.bufferCreated(TexCoordBuffer)
  {
    if !env.bufferCreated(PositionBuffer) then Some(PositionBuffer)
    else if !env.bufferCreated(TexCoordBuffer) then Some(TexCoordBuffer)
    else if !env.bufferCreated(IndexBuffer) then Some(IndexBuffer)
    else None
  }

  /** `initBuffers` with the given error per buffer: position, texture
      coordinates and index buffers, in that order, filled with the quad
      constants. */
  function InitBuffersWith(env: GLEnv, errorOf: BufferRole -> AppError): (r: Result<Buffers, AppError>)
    ensures r.Ok? <==> FirstFailedBuffer(env).None?
    ensures r.Ok? ==> r.value == Buffers(FullQuadVertices, FullQuadTexcoords, FullQuadIndices)
    ensures r.Err? ==> FirstFailedBuffer(env).Some? && r.error == errorOf(FirstFailedBuffer(env).value)
  {
    if !env.bufferCreated(PositionBuffer) then Err(errorOf(PositionBuffer))
    else if !env.bufferCreated(TexCoordBuffer) then Err(errorOf(TexCoordBuffer))
    else if !env.bufferCreated(IndexBuffer) then Err(errorOf(IndexBuffer))
    else Ok(Buffers(FullQuadVertices, FullQuadTexcoords, FullQuadIndices))
  }

  function InitBuffersAsWritten(env: GLEnv): Result<Buffers, AppError> {
    InitBuffersWith(env, BufferErrorAsWritten)
  }

  function InitBuffers(env: GLEnv): Result<Buffers, AppError> {
    InitBuffersWith(env, BufferError)
  }

  /** As written, a missing index buffer is reported as a missing position
      buffer, although the position buffer was created. */
  lemma IndexBufferFailureBlamesPositionBuffer(env: GLEnv)
    requires env.bufferCreated(PositionBuffer) && env.bufferCreated(TexCoordBuffer)
    requires !env.bufferCreated(IndexBuffer)
    ensures InitBuffersAsWritten(env) == Err(PositionBufferError)
    ensures InitBuffersAsWritten(env).error.name == "PositionBufferCreationErr"
  {
  }

  /** Corrected, the error always names a buffer that really failed, and
      different failures give different errors. */
  lemma BufferErrorNamesFailedBuffer(env: GLEnv, a: BufferRole, b: BufferRole)
    ensures InitBuffers(env).Err? ==> exists role :: !env.bufferCreated(role) && InitBuffers(env).error == BufferError(role)
    ensures BufferError(a) == BufferError(b) ==> a == b
  {
  }

  /** `initTexture`: a 1x1 texture holding `InitialTexel`. */
  function InitTexture(env: GLEnv): (r: Result<seq<nat>, AppError>)
    ensures r.Ok? <==> env.textureCreated
    ensures r.Err? ==> r.error == TextureError
  {
    if env.textureCreated then Ok(InitialTexel) else Err(TextureError)
  }

  /** `initContextFromCanvas` without the state update: the context, the
      version-matched program, the buffers and the texture. The buffers are
      made by `initBuffers` as written, so a missing index buffer is
      reported as a missing position buffer. */
  function InitContext(env: GLEnv): (r: Result<Context, AppError>)
    ensures r.Ok? <==>
      && GetContext(env).Ok?
      && InitShaderProgram(env, GetContext(env).value).Ok?
      && FirstFailedBuffer(env).None?
      && env.textureCreated
    ensures GetContext(env).Err? ==> r == Err(WebGLUnsupportedError)
    ensures GetContext(env).Ok? && InitShaderProgram(env, GetContext(env).value).Err? ==>
      r == Err(InitShaderProgram(env, GetContext(env).value).error)
    ensures GetContext(env).Ok? && InitShaderProgram(env, GetContext(env).value).Ok? && FirstFailedBuffer(env).Some? ==>
      r == Err(BufferErrorAsWritten(FirstFailedBuffer(env).value))
    ensures GetContext(env).Ok? && InitShaderProgram(env, GetContext(env).value).Ok? && FirstFailedBuffer(env).None? && !env.textureCreated ==>
      r == Err(TextureError)
    ensures r.Ok? ==>
      && r.value.version == GetContext(env).value
      && r.value.program == Program(VertexShaderFile(r.value.version), FragmentShaderFile(r.value.version))
      && r.value.buffers == Buffers(FullQuadVertices, FullQuadTexcoords, FullQuadIndices)
      && r.value.texture == InitialTexel
  {
    var version :- GetContext(env);
    var program :- InitShaderProgram(env, version);
    var buffers :- InitBuffersAsWritten(env);
    var texture :- InitTexture(env);
    Ok(Context(version, program, buffers, texture))
  }

  /** `WebGLUnsupportedErr` is raised exactly when neither context exists;
      with WebGL 2 the GL 2 shader pair is used, with only WebGL 1 the GL 1
      pair. */
  lemma ContextNegotiation(env: GLEnv)
    ensures InitContext(env).Err? && InitContext(env).error.name == "WebGLUnsupportedErr" <==> !env.webgl2 && !env.webgl1
    ensures InitContext(env).Ok? && env.webgl2 ==> InitContext(env).value.program == Program(Gl2Vert, Gl2Frag)
    ensures InitContext(env).Ok? && !env.webgl2 ==> InitContext(env).value.program == Program(Gl1Vert, Gl1Frag)
  {
    if InitContext(env).Err? && (env.webgl2 || env.webgl1) {
      var version := GetContext(env).value;
      var e := InitContext(env).error;
      assert e != WebGLUnsupportedError;
    }
  }

  /** The context build reports the as-written buffer error: with WebGL 2,
      working shaders and every buffer but the index buffer,
      `initContextFromCanvas` throws `PositionBufferCreationErr`. */
  lemma ContextIndexBufferFailure(env: GLEnv)
    requires env.webgl2 && InitShaderProgram(env, WebGL2).Ok?
    requires env.bufferCreated(PositionBuffer) && env.bufferCreated(TexCoordBuffer)
    requires !env.bufferCreated(IndexBuffer)
    ensures InitContext(env) == Err(PositionBufferError)
  {
  }

  // ---------------------------------------------------------------------------
  // Frames as command lists

  datatype GLCommand =
    | Viewport(width: nat, height: nat)
    | ClearColorBuffer
    | UseProgram(program: Program)
    | BindPositionAttribute
    | BindTexCoordAttribute
    | BindIndexBuffer
    | BindSourceTexture
    | SetSampler(unit: nat)
    | BufferData(role: BufferRole, data: seq<real>)
    | DrawElements(count: nat)
    | TexImage(source: Src.Source)
    | TexSubImage(source: Src.Source)

  /** `drawQuad` after filling the two array buffers. */
  function QuadCommands(positions: seq<real>, texCoords: seq<real>): seq<GLCommand> {
    [BufferData(PositionBuffer, positions), BufferData(TexCoordBuffer, texCoords), DrawElements(QuadVertexCount)]
  }

  /** `drawBackground`: draws the full-frame quad and nothing else. */
  function DrawBackground(): (cmds: seq<GLCommand>)
    ensures forall st :: Run(st, cmds).draws == st.draws + [BackgroundQuad()]
  {
    var cmds := QuadCommands(FullQuadVertices, FullQuadTexcoords);
    assert forall st :: Run(st, cmds).draws == st.draws + [BackgroundQuad()] by {
      forall st ensures Run(st, cmds).draws == st.draws + [BackgroundQuad()] {
        QuadDrawsItself(st, FullQuadVertices, FullQuadTexcoords);
      }
    }
    cmds
  }

  /** `drawFaceFold`: draws one quad whose vertices are the pair's
      clip-space corners and whose texture coordinates are its
      texture-space corners. */
  function DrawFaceFold(pair: R.RectPair): (cmds: seq<GLCommand>)
    ensures forall st :: Run(st, cmds).draws == st.draws + [FoldQuad(pair)]
  {
    var cmds := QuadCommands(CornerData(pair.clipSpace), CornerData(pair.textureSpace));
    assert forall st :: Run(st, cmds).draws == st.draws + [FoldQuad(pair)] by {
      forall st ensures Run(st, cmds).draws == st.draws + [FoldQuad(pair)] {
        QuadDrawsItself(st, CornerData(pair.clipSpace), CornerData(pair.textureSpace));
      }
    }
    cmds
  }

  /** The loop of `renderFolds`: every fold's eyes and then its mouth, in
      list order. */
  function DrawFolds(folds: seq<FG.Fold>): (cmds: seq<GLCommand>)
    ensures forall st :: Run(st, cmds).draws == st.draws + ExpectedFoldQuads(folds)
    decreases |folds|
  {
    if |folds| == 0 then
      assert ExpectedFoldQuads(folds) == [];
      []
    else
      var rest := DrawFolds(folds[1..]);
      var cmds := DrawFaceFold(folds[0].eyes) + DrawFaceFold(folds[0].mouth) + rest;
      assert forall st :: Run(st, cmds).draws == st.draws + ExpectedFoldQuads(folds) by {
        forall st ensures Run(st, cmds).draws == st.draws + ExpectedFoldQuads(folds) {
          DrawFoldsStep(st, folds, rest);
        }
      }
      cmds
  }

  /** One step of the fold loop: the head fold's two quads, then whatever
      the rest draws. */
  lemma DrawFoldsStep(st: GLState, folds: seq<FG.Fold>, rest: seq<GLCommand>)
    requires |folds| > 0
    requires forall s :: Run(s, rest).draws == s.draws + ExpectedFoldQuads(folds[1..])
    ensures Run(st, DrawFaceFold(folds[0].eyes) + DrawFaceFold(folds[0].mouth) + rest).draws
         == st.draws + ExpectedFoldQuads(folds)
  {
    var eyes := DrawFaceFold(folds[0].eyes);
    var mouth := DrawFaceFold(folds[0].mouth);
    ThreeDrawRuns(st, eyes, mouth, rest, FoldQuad(folds[0].eyes), FoldQuad(folds[0].mouth),
                  ExpectedFoldQuads(folds[1..]));
    ExpectedFoldQuadsCons(folds);
  }

  /** Running three pieces one after the other draws what each draws, in
      that order. */
  lemma ThreeDrawRuns(st: GLState, a: seq<GLCommand>, b: seq<GLCommand>, c: seq<GLCommand>,
                      qa: Quad, qb: Quad, tail: seq<Quad>)
    requires Run(st, a).draws == st.draws + [qa]
    requires Run(Run(st, a), b).draws == Run(st, a).draws + [qb]
    requires Run(Run(Run(st, a), b), c).draws == Run(Run(st, a), b).draws + tail
    ensures Run(st, a + b + c).draws == st.draws + ([qa, qb] + tail)
  {
    RunAppend(st, a + b, c);
    RunAppend(st, a, b);
    assert st.draws + [qa] + [qb] + tail == st.draws + ([qa, qb] + tail);
  }

  /** The start of `renderFolds`: viewport, clear, program, attributes,
      index buffer and sampler; nothing is drawn. */
  function RenderSetup(ctx: Context, canvas: Dimensions): (cmds: seq<GLCommand>)
    ensures forall i :: 0 <= i < |cmds| ==> !cmds[i].DrawElements? && !cmds[i].BufferData?
  {
    [Viewport(canvas.width, canvas.height), ClearColorBuffer, UseProgram(ctx.program),
     BindPositionAttribute, BindTexCoordAttribute, BindIndexBuffer, BindSourceTexture, SetSampler(0)]
  }

  /** `renderFolds`: the background first, then every fold's eyes and
      mouth; 1 + 2|folds| draws in all. */
  function RenderFolds(ctx: Context, canvas: Dimensions, folds: seq<FG.Fold>): (cmds: seq<GLCommand>)
    ensures forall st :: Run(st, cmds).draws == st.draws + [BackgroundQuad()] + ExpectedFoldQuads(folds)
    ensures forall st :: |Run(st, cmds).draws| == |st.draws| + 1 + 2 * |folds|
  {
    var cmds := RenderSetup(ctx, canvas) + DrawBackground() + DrawFolds(folds);
    assert forall st :: Run(st, cmds).draws == st.draws + [BackgroundQuad()] + ExpectedFoldQuads(folds) by {
      forall st ensures Run(st, cmds).draws == st.draws + [BackgroundQuad()] + ExpectedFoldQuads(folds) {
        RenderFoldsStep(st, ctx, canvas, folds);
      }
    }
    cmds
  }

  lemma RenderFoldsStep(st: GLState, ctx: Context, canvas: Dimensions, folds: seq<FG.Fold>)
    ensures Run(st, RenderSetup(ctx, canvas) + DrawBackground() + DrawFolds(folds)).draws
         == st.draws + [BackgroundQuad()] + ExpectedFoldQuads(folds)
  {
    var setup := RenderSetup(ctx, canvas);
    RunAppend(st, setup + DrawBackground(), DrawFolds(folds));
    RunAppend(st, setup, DrawBackground());
    RunWithoutDraws(st, setup);
  }

  /** `updateTexture`: re-reads the source's current frame into the bound
      texture; it neither fills a buffer nor draws. */
  function UpdateTexture(source: Src.Source): (cmds: seq<GLCommand>)
    ensures forall st :: Run(st, cmds) == st
    ensures |cmds| == 2 && cmds[1] == TexSubImage(source)
  {
    var cmds := [BindSourceTexture, TexSubImage(source)];
    assert forall st :: Run(st, cmds) == st by {
      forall st ensures Run(st, cmds) == st {
        RunWithoutDraws(st, cmds);
      }
    }
    cmds
  }

  /** `replaceTexture`: uploads the source into the bound texture at its
      own size; it neither fills a buffer nor draws. */
  function ReplaceTexture(source: Src.Source): (cmds: seq<GLCommand>)
    ensures forall st :: Run(st, cmds) == st
    ensures |cmds| == 2 && cmds[1] == TexImage(source)
  {
    var cmds := [BindSourceTexture, TexImage(source)];
    assert forall st :: Run(st, cmds) == st by {
      forall st ensures Run(st, cmds) == st {
        RunWithoutDraws(st, cmds);
      }
    }
    cmds
  }

  // ---------------------------------------------------------------------------
  // What a command list draws

  /** One `drawElements` call with the array buffers' contents. */
  datatype Quad = Quad(positions: seq<real>, texCoords: seq<real>, count: nat)

  datatype GLState = GLState(position: seq<real>, texCoord: seq<real>, draws: seq<Quad>)

  function Exec(st: GLState, cmd: GLCommand): GLState {
    match cmd
    case BufferData(PositionBuffer, d) => st.(position := d)
    case BufferData(TexCoordBuffer, d) => st.(texCoord := d)
    case DrawElements(n) => st.(draws := st.draws + [Quad(st.position, st.texCoord, n)])
    case _ => st
  }

  function Run(st: GLState, cmds: seq<GLCommand>): GLState
    decreases |cmds|
  {
    if |cmds| == 0 then st else Run(Exec(st, cmds[0]), cmds[1..])
  }

  lemma {:induction false} RunAppend(st: GLState, a: seq<GLCommand>, b: seq<GLCommand>)
    ensures Run(st, a + b) == Run(Run(st, a), b)
    decreases |a|
  {
    if |a| == 0 {
      assert a + b == b;
    } else {
      assert (a + b)[0] == a[0];
      assert (a + b)[1..] == a[1..] + b;
      RunAppend(Exec(st, a[0]), a[1..], b);
    }
  }

  /** A command list with no draw call draws nothing. */
  function DrawCount(cmds: seq<GLCommand>): nat
    decreases |cmds|
  {
    if |cmds| == 0 then 0 else (if cmds[0].DrawElements? then 1 else 0) + DrawCount(cmds[1..])
  }

  lemma {:induction false} RunDrawsCount(st: GLState, cmds: seq<GLCommand>)
    ensures |Run(st, cmds).draws| == |st.draws| + DrawCount(cmds)
    ensures Run(st, cmds).draws[..|st.draws|] == st.draws
    decreases |cmds|
  {
    if |cmds| > 0 {
      var st1 := Exec(st, cmds[0]);
      RunDrawsCount(st1, cmds[1..]);
      assert st1.draws[..|st.draws|] == st.draws;
      assert Run(st, cmds).draws[..|st1.draws|] == st1.draws;
    }
  }

  /** Commands that neither fill a buffer nor draw change nothing the
      draws depend on. */
  lemma {:induction false} RunWithoutDraws(st: GLState, cmds: seq<GLCommand>)
    requires forall i :: 0 <= i < |cmds| ==> !cmds[i].DrawElements? && !cmds[i].BufferData?
    ensures Run(st, cmds) == st
    decreases |cmds|
  {
    if |cmds| > 0 {
      RunWithoutDraws(Exec(st, cmds[0]), cmds[1..]);
    }
  }

  /** A quad's commands draw exactly that quad. */
  lemma QuadDrawsItself(st: GLState, positions: seq<real>, texCoords: seq<real>)
    ensures Run(st, QuadCommands(positions, texCoords)).draws == st.draws + [Quad(positions, texCoords, QuadVertexCount)]
  {
    var cmds := QuadCommands(positions, texCoords);
    var s1 := Exec(st, cmds[0]);
    var s2 := Exec(s1, cmds[1]);
    var s3 := Exec(s2, cmds[2]);
    assert cmds[1..][0] == cmds[1] && cmds[1..][1..][0] == cmds[2] && cmds[1..][1..][1..] == [];
    assert Run(s2, cmds[1..][1..]) == Run(s3, []);
    assert Run(s1, cmds[1..]) == Run(s2, cmds[1..][1..]);
  }

  function BackgroundQuad(): Quad {
    Quad(FullQuadVertices, FullQuadTexcoords, QuadVertexCount)
  }

  function FoldQuad(pair: R.RectPair): Quad {
    Quad(CornerData(pair.clipSpace), CornerData(pair.textureSpace), QuadVertexCount)
  }

  /** The draws the folds should produce, written in closed form: position
      `2i` holds fold `i`'s eyes and `2i + 1` its mouth. */
  function ExpectedFoldQuads(folds: seq<FG.Fold>): (qs: seq<Quad>)
    ensures |qs| == 2 * |folds|
  {
    seq(2 * |folds|, k requires 0 <= k < 2 * |folds| =>
      if k % 2 == 0 then FoldQuad(folds[k / 2].eyes) else FoldQuad(folds[k / 2].mouth))
  }

  lemma ExpectedFoldQuadsCons(folds: seq<FG.Fold>)
    requires |folds| > 0
    ensures ExpectedFoldQuads(folds)
         == [FoldQuad(folds[0].eyes), FoldQuad(folds[0].mouth)] + ExpectedFoldQuads(folds[1..])
  {
    var lhs := ExpectedFoldQuads(folds);
    var rhs := [FoldQuad(folds[0].eyes), FoldQuad(folds[0].mouth)] + ExpectedFoldQuads(folds[1..]);
    assert |lhs| == |rhs|;
    forall k | 2 <= k < |lhs|
      ensures lhs[k] == rhs[k]
    {
      assert rhs[k] == ExpectedFoldQuads(folds[1..])[k - 2];
      assert (k - 2) / 2 == k / 2 - 1 && (k - 2) % 2 == k % 2;
    }
  }

  // ---------------------------------------------------------------------------
  // The renderer's state

  /** `requestId` is the last animation-frame request; `context` is
      `rendererContext`; `trace` is every GL command issued after context
      creation; `resizeRequests` counts calls of `onRequestResize`;
      `cancelled` lists the requests `stop` cancelled. */
  datatype RendererState = RendererState(
    requestId: Option<nat>,
    context: Option<Context>,
    source: Src.Source,
    folds: seq<FG.Fold>,
    trace: seq<GLCommand>,
    resizeRequests: nat,
    cancelled: seq<nat>)

  /** `new Renderer(onRequestResize)`: no context, a blank source, no folds. */
  function NewRenderer(): (r: RendererState)
    ensures r.context.None? && r.source == Src.FreshBlank() && GetFolds(r) == []
    ensures r.trace == [] && r.requestId.None?
  {
    RendererState(None, None, Src.FreshBlank(), [], [], 0, [])
  }

  /** `initContextFromCanvas`: on success the context is replaced; on a
      throw the renderer keeps whatever context it had. */
  function InitContextFromCanvas(r: RendererState, env: GLEnv): (o: Outcome<RendererState, AppError>)
    ensures o.Done? <==> InitContext(env).Ok?
    ensures o.Done? ==> o.state == r.(context := Some(InitContext(env).value))
    ensures o.Threw? ==> o.state == r && o.error == InitContext(env).error
  {
    match InitContext(env)
    case Ok(ctx) => Done(r.(context := Some(ctx)))
    case Err(e) => Threw(r, e)
  }

  /** The `source` setter: always stores the source; re-uploads the texture
      only when there is a context. */
  function SetSource(r: RendererState, source: Src.Source): (t: RendererState)
    ensures t.source == source
    ensures t.context == r.context && t.folds == r.folds && t.requestId == r.requestId
    ensures r.context.Some? ==> t.trace == r.trace + [BindSourceTexture, TexImage(source)]
    ensures r.context.None? ==> t.trace == r.trace
  {
    if r.context.Some? then r.(source := source, trace := r.trace + ReplaceTexture(source))
    else r.(source := source)
  }

  /** The `folds` getter. */
  function GetFolds(r: RendererState): seq<FG.Fold> {
    r.folds
  }

  /** The `folds` setter: nothing is drawn until the next frame. */
  function SetFolds(r: RendererState, folds: seq<FG.Fold>): (t: RendererState)
    ensures GetFolds(t) == folds
    ensures t.trace == r.trace && t.source == r.source && t.context == r.context
  {
    r.(folds := folds)
  }

  /** The getter returns what the setter stored, whatever came before. */
  lemma FoldsRoundTrip(r: RendererState, a: seq<FG.Fold>, b: seq<FG.Fold>)
    ensures GetFolds(SetFolds(r, a)) == a
    ensures SetFolds(SetFolds(r, a), b) == SetFolds(r, b)
  {
  }

  /** `start`: a new frame request. */
  function Start(r: RendererState, id: nat): (t: RendererState)
    ensures t.requestId == Some(id) && t.trace == r.trace
  {
    r.(requestId := Some(id))
  }

  /** `stop`: cancels the last request when its id is truthy (not 0); the id
      itself is kept. */
  function Stop(r: RendererState): (t: RendererState)
    ensures t.requestId == r.requestId && t.trace == r.trace
    ensures (r.requestId.Some? && r.requestId.value != 0) <==> t.cancelled == r.cancelled + [r.requestId.GetOr(0)]
  {
    match r.requestId
    case Some(id) => if id != 0 then r.(cancelled := r.cancelled + [id]) else r
    case None => r
  }

  /** One frame's commands: the texture is refreshed from the source
      first, then the background and every fold's eyes and mouth are drawn. */
  function Frame(ctx: Context, canvas: Dimensions, source: Src.Source, folds: seq<FG.Fold>): (cmds: seq<GLCommand>)
    ensures forall st :: Run(st, cmds).draws == st.draws + [BackgroundQuad()] + ExpectedFoldQuads(folds)
    ensures |cmds| >= 2 && cmds[1] == TexSubImage(source)
  {
    var cmds := UpdateTexture(source) + RenderFolds(ctx, canvas, folds);
    assert cmds[1] == UpdateTexture(source)[1];
    assert forall st :: Run(st, cmds).draws == st.draws + [BackgroundQuad()] + ExpectedFoldQuads(folds) by {
      forall st ensures Run(st, cmds).draws == st.draws + [BackgroundQuad()] + ExpectedFoldQuads(folds) {
        RunAppend(st, UpdateTexture(source), RenderFolds(ctx, canvas, folds));
      }
    }
    cmds
  }

  /** `tickFrame`: without a context it returns at once and does not
      request another frame; otherwise it asks for a resize, draws, and
      requests frame `nextId`. `canvas` is the canvas size after the
      resize. */
  function TickFrame(r: RendererState, canvas: Dimensions, nextId: nat): (t: RendererState)
    ensures r.context.None? ==> t == r
    ensures r.context.Some? ==>
      && t.trace == r.trace + Frame(r.context.value, canvas, r.source, r.folds)
      && t.resizeRequests == r.resizeRequests + 1
      && t.requestId == Some(nextId)
      && t.source == r.source && t.folds == r.folds && t.context == r.context
  {
    match r.context
    case None => r
    case Some(ctx) =>
      r.(resizeRequests := r.resizeRequests + 1,
         trace := r.trace + Frame(ctx, canvas, r.source, r.folds),
         requestId := Some(nextId))
  }

  /** `forceRender`: a frame without the resize request or a new request. */
  function ForceRender(r: RendererState, canvas: Dimensions): (t: RendererState)
    ensures r.context.None? ==> t == r
    ensures r.context.Some? ==>
      t == r.(trace := r.trace + Frame(r.context.value, canvas, r.source, r.folds))
  {
    match r.context
    case None => r
    case Some(ctx) => r.(trace := r.trace + Frame(ctx, canvas, r.source, r.folds))
  }

  /** After a tick with a context, replaying the whole trace shows this
      frame's quads last: the background and the current folds. */
  lemma TickDrawsCurrentFolds(r: RendererState, canvas: Dimensions, nextId: nat)
    requires r.context.Some?
    ensures var before := Run(GLState([], [], []), r.trace).draws;
            var after := Run(GLState([], [], []), TickFrame(r, canvas, nextId).trace).draws;
      after == before + [BackgroundQuad()] + ExpectedFoldQuads(r.folds)
  {
    var empty := GLState([], [], []);
    RunAppend(empty, r.trace, Frame(r.context.value, canvas, r.source, r.folds));
  }

  /** When every fold's mouth starts where its eyes end (the generator's
      gap closing), each mouth quad's first vertex is its eyes quad's last. */
  lemma JoinedFoldsDrawJoinedQuads(folds: seq<FG.Fold>)
    requires Joined(folds)
    ensures forall i :: 0 <= i < |folds| ==>
      StartsAtEnd(ExpectedFoldQuads(folds)[2 * i + 1], ExpectedFoldQuads(folds)[2 * i])
  {
    forall i | 0 <= i < |folds|
      ensures StartsAtEnd(ExpectedFoldQuads(folds)[2 * i + 1], ExpectedFoldQuads(folds)[2 * i])
    {
      var e := CornerData(folds[i].eyes.clipSpace);
      var m := CornerData(folds[i].mouth.clipSpace);
      assert (2 * i + 1) / 2 == i && (2 * i) / 2 == i;
      assert m[0..2] == [m[0], m[1]] && e[6..8] == [e[6], e[7]];
    }
  }

  /** Quad `m`'s first vertex is quad `e`'s last. */
  predicate StartsAtEnd(m: Quad, e: Quad) {
    |m.positions| >= 2 && |e.positions| >= 8 && m.positions[0..2] == e.positions[6..8]
  }

  /** Every fold's mouth starts where its eyes end. */
  predicate Joined(folds: seq<FG.Fold>) {
    forall i :: 0 <= i < |folds| ==> folds[i].mouth.clipSpace.bl == folds[i].eyes.clipSpace.ul
  }

  /** A tick with joined folds draws the background and two quads per
      fold, each mouth quad starting at its eyes quad's last vertex. */
  lemma TickDrawsJoinedFolds(r: RendererState, canvas: Dimensions, nextId: nat)
    requires r.context.Some? && Joined(r.folds)
    ensures var before := Run(GLState([], [], []), r.trace).draws;
      var after := Run(GLState([], [], []), TickFrame(r, canvas, nextId).trace).draws;
      && |after| == |before| + 1 + 2 * |GetFolds(r)|
      && forall i :: 0 <= i < |GetFolds(r)| ==>
           StartsAtEnd(after[|before| + 2 + 2 * i], after[|before| + 1 + 2 * i])
  {
    TickDrawsCurrentFolds(r, canvas, nextId);
    JoinedFoldsDrawJoinedQuads(r.folds);
    var before := Run(GLState([], [], []), r.trace).draws;
    var prefix := before + [BackgroundQuad()];
    var qs := ExpectedFoldQuads(r.folds);
    assert prefix + qs == before + [BackgroundQuad()] + qs;
    PairsAfterPrefix(prefix, qs, |r.folds|);
  }

  /** Joined pairs stay joined behind any prefix. */
  lemma PairsAfterPrefix(prefix: seq<Quad>, qs: seq<Quad>, n: nat)
    requires |qs| == 2 * n
    requires forall i :: 0 <= i < n ==> StartsAtEnd(qs[2 * i + 1], qs[2 * i])
    ensures forall i :: 0 <= i < n ==>
      StartsAtEnd((prefix + qs)[|prefix| + 1 + 2 * i], (prefix + qs)[|prefix| + 2 * i])
  {
    forall i | 0 <= i < n
      ensures StartsAtEnd((prefix + qs)[|prefix| + 1 + 2 * i], (prefix + qs)[|prefix| + 2 * i])
    {
      assert (prefix + qs)[|prefix| + (2 * i + 1)] == qs[2 * i + 1];
      assert (prefix + qs)[|prefix| + 2 * i] == qs[2 * i];
    }
  }
}

=== FILE: settings.dfy ===
/** Fold settings (src/contexts/settings.ts, src/types/folds-settings.ts): the
    defaults, the four settable values and the `all()` snapshot the fold
    generator reads. A signal is modelled by its current value. */
module Settings {

  /** Eye padding along x and y, mouth padding and overall scale. */
  datatype FoldsSettings = FoldsSettings(pX: real, pY: real, mP: real, scale: real)

  const DefaultFoldsSettings: FoldsSettings := FoldsSettings(3.0, 1.4, 0.85, 1.5)

  datatype Field = PX | PY | MP | Scale

  function Value(f: FoldsSettings, k: Field): real {
    match k
    case PX => f.pX
    case PY => f.pY
    case MP => f.mP
    case Scale => f.scale
  }

  /** The current values of the four signals. */
  datatype SignaledFoldsSettings = Signals(pX: real, pY: real, mP: real, scale: real)

  function Read(s: SignaledFoldsSettings, k: Field): real {
    match k
    case PX => s.pX
    case PY => s.pY
    case MP => s.mP
    case Scale => s.scale
  }

  /** Setting one signal's value (what the settings UI does). */
  function Write(s: SignaledFoldsSettings, k: Field, v: real): (t: SignaledFoldsSettings)
    ensures Read(t, k) == v
    ensures forall j :: j != k ==> Read(t, j) == Read(s, j)
  {
    match k
    case PX => s.(pX := v)
    case PY => s.(pY := v)
    case MP => s.(mP := v)
    case Scale => s.(scale := v)
  }

  /** `createDefaultSettings().folds`: every signal starts at its default. */
  function CreateDefaultSettings(): (s: SignaledFoldsSettings)
    ensures forall k :: Read(s, k) == Value(DefaultFoldsSettings, k)
    ensures s.pX == 3.0 && s.pY == 1.4 && s.mP == 0.85 && s.scale == 1.5
  {
    Signals(DefaultFoldsSettings.pX, DefaultFoldsSettings.pY,
            DefaultFoldsSettings.mP, DefaultFoldsSettings.scale)
  }

  /** `all()`: a snapshot holding exactly the current value of each signal. */
  function All(s: SignaledFoldsSettings): (f: FoldsSettings)
    ensures forall k :: Value(f, k) == Read(s, k)
  {
    FoldsSettings(s.pX, s.pY, s.mP, s.scale)
  }

  /** The snapshot after a write differs from the one before only in the
      written field. */
  lemma AllAfterWrite(s: SignaledFoldsSettings, k: Field, v: real)
    ensures Value(All(Write(s, k, v)), k) == v
    ensures forall j :: j != k ==> Value(All(Write(s, k, v)), j) == Value(All(s), j)
  {
  }

  datatype SettingsState = SettingsState(folds: SignaledFoldsSettings)

  /** `createSettingsState`: fresh defaults every time, whatever any earlier
      state was set to. */
  function CreateSettingsState(): (st: SettingsState)
    ensures All(st.folds) == DefaultFoldsSettings
  {
    SettingsState(CreateDefaultSettings())
  }
}

=== FILE: source_manager.dfy ===
/** The source manager (src/source-manager.ts): owns the camera and decides
    which source is current. The current source is either the manager's own
    camera object or a blank source it made, so it is held as a slot rather
    than as a copy that could drift from `camera`. */
module SourceManager {
  import opened Base
  import opened AppErrors
  import Blank
  import Camera
  import Src = Sources

  /** Which object `currentSource` refers to. */
  datatype Slot = CameraSlot | BlankSlot(blank: Blank.BlankState)

  /** The callbacks and listener registrations the manager makes, in order. */
  datatype ManagerEvent = BeforeCameraReloads | OnCameraReloaded | RefreshWatchAdded

  datatype ManagerState = ManagerState(camera: Camera.CameraState, slot: Slot, events: seq<ManagerEvent>)

  const CameraUnavailableMessage: string := "Camera unavailable."

  /** The `current` getter: the manager's own camera object exactly when
      the camera slot is selected, otherwise the blank it holds. */
  function Current(m: ManagerState): (s: Src.Source)
    ensures s.CameraSource? <==> m.slot.CameraSlot?
    ensures s.CameraSource? ==> s.camera == m.camera
    ensures m.slot.BlankSlot? ==> s == Src.BlankSource(m.slot.blank)
  {
    match m.slot
    case CameraSlot => Src.CameraSource(m.camera)
    case BlankSlot(b) => Src.BlankSource(b)
  }

  /** `new SourceManager(events)`: a fresh blank is current and a fresh
      camera waits unused. */
  function NewManager(): (m: ManagerState)
    ensures Current(m) == Src.FreshBlank()
    ensures m.camera == Camera.NewCamera() && m.events == []
  {
    ManagerState(Camera.NewCamera(), BlankSlot(Blank.NewBlank()), [])
  }

  /** `initCamera`. When the camera's `load` returns, the camera becomes
      current and a refresh listener is registered. When it throws, the
      camera is destroyed, a new blank source is loaded and made current,
      and a plain "Camera unavailable." error is thrown instead; if the
      `destroy` itself throws, its error escapes and the current source
      stays as it was. */
  function InitCamera(m: ManagerState, media: Camera.MediaResult): (r: Outcome<ManagerState, ErrorValue>)
    ensures r.Done? <==> Camera.Load(m.camera, media).Done?
    ensures r.Done? ==>
      && Current(r.state) == Src.CameraSource(Camera.Load(m.camera, media).state)
      && r.state.events == m.events + [RefreshWatchAdded]
    ensures r.Threw? ==>
      var destroyed := Camera.Destroy(Camera.Load(m.camera, media).state);
      && r.state.camera == destroyed.state
      && r.state.events == m.events
      && (destroyed.Done? ==>
            && Current(r.state) == Src.BlankSource(Blank.Load(Blank.NewBlank()))
            && r.error == PlainError(CameraUnavailableMessage))
      && (destroyed.Threw? ==> r.state.slot == m.slot && r.error == destroyed.error)
  {
    match Camera.Load(m.camera, media)
    case Done(c) => Done(ManagerState(c, CameraSlot, m.events + [RefreshWatchAdded]))
    case Threw(c, _) =>
      match Camera.Destroy(c)
      case Done(c1) =>
        Threw(ManagerState(c1, BlankSlot(Blank.Load(Blank.NewBlank())), m.events),
              PlainError(CameraUnavailableMessage))
      case Threw(c1, e) => Threw(m.(camera := c1), e)
  }

  /** A camera that never had a stream (the app's first start) fails over
      to a rendered 1x1 blank, with the camera errored and its video element
      removed, and the error says "Camera unavailable.". */
  lemma FailedInitFallsBackToBlank(m: ManagerState, media: Camera.MediaResult)
    requires m.camera.stream.None?
    requires InitCamera(m, media).Threw?
    ensures var st := InitCamera(m, media).state;
      && Current(st).BlankSource? && Current(st).blank.rendered
      && Src.GetDimensions(Current(st)) == Dimensions(1, 1)
      && !st.camera.videoAttached && st.camera.status == Camera.Errored
    ensures ErrorMessage(InitCamera(m, media).error) == "Camera unavailable."
  {
  }

  /** A failed start of a camera whose stream was already stopped and then
      refused is not reported as "Camera unavailable.": `destroy` stops the
      stream again, its `TypeError` escapes, and the current source stays. */
  lemma FailedRestartEscapesWithTypeError(m: ManagerState, e: ErrorValue)
    requires m.camera.stream.Some? && !m.camera.stream.value.hasVideoTrack && !Camera.IsActive(m.camera)
    ensures var r := InitCamera(m, Camera.Denied(Raised(e)));
      r.Threw? && r.error == Camera.RemoveTrackError && Current(r.state) == Current(m.(camera := r.state.camera))
  {
  }

  /** A media request that throws something other than an `Error` is not
      reported: the errored camera still becomes current. */
  lemma NonErrorDenialSelectsErroredCamera(m: ManagerState)
    requires Camera.StopsCleanly(m.camera)
    ensures var r := InitCamera(m, Camera.Denied(NonError));
      r.Done? && Current(r.state).CameraSource? && Current(r.state).camera.status == Camera.Errored
  {
  }

  /** `loadCurrent`: loads whichever source is current. */
  function LoadCurrent(m: ManagerState, media: Camera.MediaResult): (r: Outcome<ManagerState, ErrorValue>)
    ensures r.state.slot.CameraSlot? <==> m.slot.CameraSlot?
    ensures r.state.events == m.events
    ensures m.slot.CameraSlot? ==>
      && r.state.camera == Camera.Load(m.camera, media).state
      && (r.Threw? <==> Camera.Load(m.camera, media).Threw?)
      && (r.Threw? ==> r.error == Camera.Load(m.camera, media).error)
    ensures m.slot.BlankSlot? ==>
      && r.Done? && r.state.camera == m.camera
      && r.state.slot.blank == Blank.Load(m.slot.blank)
  {
    match m.slot
    case CameraSlot =>
      (match Camera.Load(m.camera, media)
       case Done(c) => Done(m.(camera := c))
       case Threw(c, e) => Threw(m.(camera := c), e))
    case BlankSlot(b) => Done(m.(slot := BlankSlot(Blank.Load(b))))
  }

  /** The manager's `loadCurrent` is the current source's `load`. */
  lemma LoadCurrentLoadsCurrent(m: ManagerState, media: Camera.MediaResult, ev: Src.LoadEnv)
    requires ev.media == media
    ensures Current(LoadCurrent(m, media).state) == Src.Load(Current(m), ev).state
    ensures LoadCurrent(m, media).Threw? <==> Src.Load(Current(m), ev).Threw?
    ensures LoadCurrent(m, media).Threw? ==> LoadCurrent(m, media).error == Src.Load(Current(m), ev).error
  {
  }

  /** `refreshCamera`: `beforeCameraReloads`, then the load, then
      `onCameraReloaded` — which a throwing load skips. */
  function RefreshCamera(m: ManagerState, media: Camera.MediaResult): (r: Outcome<ManagerState, ErrorValue>)
    ensures r.Done? <==> LoadCurrent(m, media).Done?
    ensures r.Done? ==> r.state.events == m.events + [BeforeCameraReloads, OnCameraReloaded]
    ensures r.Threw? ==> r.state.events == m.events + [BeforeCameraReloads]
    ensures Current(r.state) == Current(LoadCurrent(m, media).state)
  {
    var before := m.(events := m.events + [BeforeCameraReloads]);
    match LoadCurrent(before, media)
    case Done(m1) => Done(m1.(events := m1.events + [OnCameraReloaded]))
    case Threw(m1, e) => Threw(m1, e)
  }

  /** On a browser whose streams have no `stop()`, refreshing an active
      camera throws before the media request: `beforeCameraReloads` has
      run but `onCameraReloaded` never does, and the camera stays active. */
  lemma RefreshWithoutStreamStopSkipsReloaded(m: ManagerState, media: Camera.MediaResult)
    requires m.slot.CameraSlot? && Camera.IsActive(m.camera)
    requires m.camera.stream.Some? && !m.camera.stream.value.hasStop
    ensures var r := RefreshCamera(m, media);
      && r.Threw? && Name(r.error) == "TypeError"
      && r.state.events == m.events + [BeforeCameraReloads]
      && Camera.IsActive(r.state.camera)
  {
  }

  /** `pauseCurrent`. */
  function PauseCurrent(m: ManagerState): (t: ManagerState)
    ensures Current(t) == Src.Pause(Current(m))
    ensures t.slot.BlankSlot? ==> t == m
  {
    match m.slot
    case CameraSlot => m.(camera := Camera.Pause(m.camera))
    case BlankSlot(_) => m
  }

  /** `resumeCurrent`. */
  function ResumeCurrent(m: ManagerState): (t: ManagerState)
    ensures Current(t) == Src.Resume(Current(m))
    ensures t.slot.BlankSlot? ==> t == m
  {
    match m.slot
    case CameraSlot => m.(camera := Camera.Resume(m.camera))
    case BlankSlot(_) => m
  }

  /** `destroyCurrent`: with a blank current, the camera is left alone;
      a camera's `destroy` may throw. */
  function DestroyCurrent(m: ManagerState): (r: Outcome<ManagerState, ErrorValue>)
    ensures Current(r.state) == Src.Destroy(Current(m)).state
    ensures r.Threw? <==> Src.Destroy(Current(m)).Threw?
    ensures r.state.slot.BlankSlot? ==> r.state.camera == m.camera
  {
    match m.slot
    case CameraSlot =>
      (match Camera.Destroy(m.camera)
       case Done(c) => Done(m.(camera := c))
       case Threw(c, e) => Threw(m.(camera := c), e))
    case BlankSlot(b) => Done(m.(slot := BlankSlot(Blank.Destroy(b))))
  }
}

=== FILE: sources.dfy ===
/** The `Source` abstraction (src/types/source.ts): a blank, camera or
    image source, whichever the renderer and face watcher currently read. */
module Sources {
  import opened Base
  import opened AppErrors
  import Blank
  import Camera
  import Image

  datatype Source =
    | BlankSource(blank: Blank.BlankState)
    | CameraSource(camera: Camera.CameraState)
    | ImageSource(image: Image.ImageState)

  /** `getDimensions` of whichever source it is. */
  function GetDimensions(s: Source): Dimensions {
    match s
    case BlankSource(b) => Blank.GetDimensions(b)
    case CameraSource(c) => Camera.GetDimensions(c)
    case ImageSource(i) => Image.GetDimensions(i)
  }

  /** A freshly constructed blank source, the default of every holder. */
  function FreshBlank(): (s: Source)
    ensures s.BlankSource? && !s.blank.rendered && GetDimensions(s) == Dimensions(1, 1)
  {
    BlankSource(Blank.NewBlank())
  }

  /** What the outside world answers while a source loads: the media
      request (camera) and the image element's event (image). */
  datatype LoadEnv = LoadEnv(media: Camera.MediaResult, imageEvent: Image.ImageEvent)

  predicate SameKind(s: Source, t: Source) {
    (s.BlankSource? && t.BlankSource?) || (s.CameraSource? && t.CameraSource?) || (s.ImageSource? && t.ImageSource?)
  }

  /** `load` of whichever source it is; an image's `AppError` is thrown as
      an `Error`. */
  function Load(s: Source, env: LoadEnv): (r: Outcome<Source, ErrorValue>)
    ensures SameKind(s, r.state)
    ensures s.BlankSource? ==> r.Done? && r.state.blank == Blank.Load(s.blank)
    ensures s.CameraSource? ==>
      && r.state.camera == Camera.Load(s.camera, env.media).state
      && (r.Threw? <==> Camera.Load(s.camera, env.media).Threw?)
      && (r.Threw? ==> r.error == Camera.Load(s.camera, env.media).error)
    ensures s.ImageSource? ==>
      && r.state.image == Image.Load(s.image, env.imageEvent).state
      && (r.Threw? <==> env.imageEvent.OnError?)
      && (r.Threw? ==> r.error == App(Image.ImageLoadError))
  {
    match s
    case BlankSource(b) => Done(BlankSource(Blank.Load(b)))
    case CameraSource(c) =>
      (match Camera.Load(c, env.media)
       case Done(c1) => Done(CameraSource(c1))
       case Threw(c1, e) => Threw(CameraSource(c1), e))
    case ImageSource(i) =>
      (match Image.Load(i, env.imageEvent)
       case Done(i1) => Done(ImageSource(i1))
       case Threw(i1, e) => Threw(ImageSource(i1), App(e)))
  }

  /** `destroy` of whichever source it is; only the camera's can throw. */
  function Destroy(s: Source): (r: Outcome<Source, ErrorValue>)
    ensures SameKind(s, r.state)
    ensures s.BlankSource? ==> r == Done(BlankSource(Blank.Destroy(s.blank)))
    ensures s.CameraSource? ==>
      && r.state.camera == Camera.Destroy(s.camera).state
      && (r.Threw? <==> Camera.Destroy(s.camera).Threw?)
    ensures s.ImageSource? ==> r == Done(ImageSource(Image.Destroy(s.image)))
  {
    match s
    case BlankSource(b) => Done(BlankSource(Blank.Destroy(b)))
    case CameraSource(c) =>
      (match Camera.Destroy(c)
       case Done(c1) => Done(CameraSource(c1))
       case Threw(c1, e) => Threw(CameraSource(c1), e))
    case ImageSource(i) => Done(ImageSource(Image.Destroy(i)))
  }

  /** `pause`: only the camera has something to pause. */
  function Pause(s: Source): (t: Source)
    ensures !s.CameraSource? ==> t == s
    ensures s.CameraSource? ==> t == CameraSource(Camera.Pause(s.camera))
  {
    match s
    case CameraSource(c) => CameraSource(Camera.Pause(c))
    case _ => s
  }

  /** `resume`: only the camera has something to resume. */
  function Resume(s: Source): (t: Source)
    ensures !s.CameraSource? ==> t == s
    ensures s.CameraSource? ==> t == CameraSource(Camera.Resume(s.camera))
  {
    match s
    case CameraSource(c) => CameraSource(Camera.Resume(c))
    case _ => s
  }

  /** None of the operations changes a source's size except a load, and a
      blank source's size never changes at all. */
  lemma DimensionsOutsideLoad(s: Source, env: LoadEnv)
    ensures GetDimensions(Destroy(s).state) == GetDimensions(s)
    ensures GetDimensions(Pause(s)) == GetDimensions(s)
    ensures GetDimensions(Resume(s)) == GetDimensions(s)
    ensures s.BlankSource? ==> GetDimensions(Load(s, env).state) == GetDimensions(s)
  {
  }
}

=== FILE: strings.dfy ===
/** The JavaScript string operations the application relies on:
    `Array.prototype.join`, `String.prototype.split` with a one-character
    separator, and the ASCII case folding of a non-Unicode `/…/i` regular
    expression. */
module Strings {

  /** `xs.join(sep)`: the empty array joins to "", one element to itself. */
  function Join(xs: seq<string>, sep: string): string
    decreases |xs|
  {
    if |xs| == 0 then ""
    else if |xs| == 1 then xs[0]
    else xs[0] + sep + Join(xs[1..], sep)
  }

  /** Joining two non-empty lists is joining their joins. */
  lemma {:induction false} JoinAppend(xs: seq<string>, ys: seq<string>, sep: string)
    requires |xs| > 0 && |ys| > 0
    ensures Join(xs + ys, sep) == Join(xs, sep) + sep + Join(ys, sep)
    decreases |xs|
  {
    if |xs| == 1 {
      assert (xs + ys)[1..] == ys;
    } else {
      assert (xs + ys)[1..] == xs[1..] + ys;
      JoinAppend(xs[1..], ys, sep);
    }
  }

  /** The joined text holds every character of every line plus one separator
      between consecutive lines. */
  lemma {:induction false} JoinLength(xs: seq<string>, sep: string)
    requires |xs| > 0
    ensures |Join(xs, sep)| == TotalLength(xs) + (|xs| - 1) * |sep|
    decreases |xs|
  {
    if |xs| > 1 {
      JoinLength(xs[1..], sep);
    }
  }

  function TotalLength(xs: seq<string>): nat
    decreases |xs|
  {
    if |xs| == 0 then 0 else |xs[0]| + TotalLength(xs[1..])
  }

  /** `s.split(sep)` for a one-character separator: the pieces between the
      separators, so that joining them back gives `s`. */
  function Split(s: string, sep: char): (parts: seq<string>)
    ensures |parts| >= 1
    ensures forall i :: 0 <= i < |parts| ==> sep !in parts[i]
    ensures Join(parts, [sep]) == s
    decreases |s|
  {
    if |s| == 0 then [""]
    else
      var rest := Split(s[1..], sep);
      if s[0] == sep then
        assert [sep] + Join(rest, [sep]) == s;
        [""] + rest
      else
        var parts := [[s[0]] + rest[0]] + rest[1..];
        assert parts[1..] == rest[1..];
        assert Join(parts, [sep]) == [s[0]] + Join(rest, [sep]);
        parts
  }

  /** A separator-free prefix becomes the first piece, and the pieces of the
      rest follow unchanged. */
  lemma {:induction false} SplitAfterPrefix(p: string, sep: char, rest: string)
    requires sep !in p
    ensures Split(p + [sep] + rest, sep) == [p] + Split(rest, sep)
    decreases |p|
  {
    var s := p + [sep] + rest;
    if |p| == 0 {
      assert s[0] == sep && s[1..] == rest;
    } else {
      assert s[0] == p[0];
      assert s[1..] == p[1..] + [sep] + rest;
      SplitAfterPrefix(p[1..], sep, rest);
      assert [p[0]] + p[1..] == p;
    }
  }

  /** A string without the separator splits into itself alone. */
  lemma {:induction false} SplitWithoutSeparator(s: string, sep: char)
    requires sep !in s
    ensures Split(s, sep) == [s]
    decreases |s|
  {
    if |s| > 0 {
      assert sep !in s[1..] by {
        assert forall k :: 0 <= k < |s[1..]| ==> s[1..][k] == s[k + 1];
      }
      SplitWithoutSeparator(s[1..], sep);
      assert [s[0]] + s[1..] == s;
    }
  }

  /** ASCII lower-casing: the only folding a non-Unicode case-insensitive
      regular expression applies to an ASCII pattern. */
  function Lower(c: char): char {
    if 'A' <= c <= 'Z' then (c as int + 32) as char else c
  }

  predicate SameIgnoringCase(a: char, b: char) {
    Lower(a) == Lower(b)
  }

  /** `pat` occurs in `s` at position `i`, ignoring ASCII case. */
  predicate MatchesAt(s: string, pat: string, i: int) {
    0 <= i && i + |pat| <= |s| &&
    forall k :: 0 <= k < |pat| ==> SameIgnoringCase(s[i + k], pat[k])
  }

  /** `/pat/i.test(s)` for a literal pattern `pat`. */
  function ContainsIgnoringCase(s: string, pat: string): (b: bool)
    ensures b <==> exists i :: MatchesAt(s, pat, i)
    decreases |s|
  {
    if |s| < |pat| then
      assert forall i :: !MatchesAt(s, pat, i);
      false
    else if MatchesAt(s, pat, 0) then true
    else
      var b := ContainsIgnoringCase(s[1..], pat);
      assert forall i :: MatchesAt(s[1..], pat, i) ==> MatchesAt(s, pat, i + 1);
      assert forall i :: MatchesAt(s, pat, i) && i > 0 ==> MatchesAt(s[1..], pat, i - 1);
      b
  }
}
